=== FILE: README.md ===
# Broken Calculator: equation checking and broken-key generation

A Dafny model of the logic core of the Broken Calculator game. The player is
shown a target number and a calculator with some keys broken, and types
equations that must reach the target. Two components decide the game:

- **The equation validator** (`logic/equation_validator.py`).
  - `safe_eval` reads a text as a Python expression and evaluates it through a
    closed table of five operations: `+`, `-`, `*`, true `/` and unary `-`.
  - `validate` strips the text, applies three textual checks, evaluates, and
    compares the value with the target.
  - `_get_canonical_form` writes a tree as a string in which the operands of
    a `+` chain or a `*` chain are sorted.
  - `_extract_operands_and_operators` collects the operand and operator
    multisets.
  - `are_equations_equivalent` and `are_equations_unique` decide whether two
    answers count as the same equation.
- **The broken-key validator** (`logic/broken_button_validator.py`).
  - `generate_broken_buttons` draws keys to break among those a target does
    not need, and retries with one key fewer when the remaining keys cannot
    reach the target.
  - `validate_solvable` and `_estimate_max_reachable_value` give the rough
    reachability test used for that decision.

The model is functional throughout.

- **Python's reading of the text.** `ast.parse` is modelled for the calculator
  alphabet:
  - a tokenizer (`Lexer.Lex`) with Python's literal, blank, line and
    indentation rules;
  - a recursive-descent parser (`Parser.ParseSum`, ...) following the grammar
    in chapter 6 of the Python Language Reference.
- **Evaluation and validation.** `Evaluator.Eval` is the tree walk of
  `safe_eval`. `Validator.Validate` is `validate`.
- **Canonical form and equivalence.** `Canonical.Canon`,
  `Equivalence.Extract`, `Equivalence.Equivalent` and `Equivalence.Unique`
  model the comparison functions.
- **The broken-key validator** is `Buttons.ValidateSolvable` and
  `Generation.Generate`.
  - `random.sample` becomes the deterministic `Sampling.Sample(pool, k, seed)`.
    Every sample the library can draw is the result of some seed
    (`Sampling.SampleReaches`).
  - The random choices of the successive attempts become a parameter
    `draws: nat -> nat`.

Besides each operation's contract, the model states and proves:

- **Round trips.** A written tree reads back as itself (`Printer.ParseShow`).
  Spelled tokens lex back as themselves (`Spelling.LexOfSpelling`). The
  canonical string of a tree of numbers and table operators reads back as
  that tree with its `+`/`*` chains sorted, so the canonical form of a
  canonical string is the string itself (`CanonicalLaws.CanonIdempotent`).
- **Reference characterisations.**
  - For written trees, equivalence is stated on the trees themselves
    (`Laws.ShownEquivalentIff`). It holds across commuting or regrouping
    `+`/`*` (`Laws.RegroupEquivalent`). It holds across swapping `-`/`/`
    only when the two numbers are equal (`Laws.SwapDistinguishes`).
  - The validator's verdict is stated in terms of the checks and the value
    (`Validator.ValidIff`).
  - With only the required keys working, the reach is a fixed number
    (`Generation.RequiredKeysAlone`).
- **Algebraic laws.** Equivalence is invariant under commuting and regrouping
  `+`/`*`, and sensitive to the order of `-`/`/`.
- **Generator properties.** Breaking more keys never helps. Nothing above 225
  is reachable. A target up to 50 gets keys whenever between 1 and 14 keys
  are asked for, from the first attempt on (`Generation.SmallTargetGetsKeys`).
  Every draw is possible.
- **The source's own test table**, as concrete lemmas in `Cases`.

Where the code and its written description disagree, the model follows the
code:

- **`2(3)` is not a syntax error.** Python parses it as a call. `safe_eval`
  then rejects the Call node ("Disallowed operation").
- **Unary plus gets through the parser.** `ast.parse` accepts it, and it is
  the evaluator's operator table that rejects it (`Evaluator.EvalOnlyWithTable`).
- **The unary-plus pattern also fires on a binary `+` after white space.** The
  pattern `(^|\(|\s)\+` matches it, so `9 + 1` is rejected with "Unary plus
  is not allowed" (`ValidationCases.SpacedSumRejected`).
- **Two docstring examples do not match what the code computes.**
  - The docstring at `logic/equation_validator.py:83` gives `(3+(2*5))` for
    `3+2*5`. The code gives `((2*5)+3)`, because `(` sorts before every
    digit (`Cases.CanonicalProductPlusThree`).
  - The comment at line 95 gives `(-((2+5)))` for `-(5+2)`. The code gives
    `(-(2+5))` (`Cases.CanonicalNegatedSum`).
- **Canonicalising twice can change a text that has a unary plus, an empty
  tuple or a call.** A
  canonical string is meant to be its own canonical form. The symbol table
  at `logic/equation_validator.py:96` has no entry for unary plus, so `+2`
  is written `(2)`. Then `(2)` reads as the number 2, written `2`
  (`CanonicalLaws.UnaryPlusUnstable`). An empty tuple or a call inside a
  `+` chain breaks it as well, with no unary plus in the text. Such a node
  has the empty canonical string (line 130), so `1+()` is written `(+1)`,
  which is written `(1)`, which is written `1`
  (`CanonicalLaws.EmptyTupleUnstable`). The property holds for trees built
  only from numbers, unary minus and `+ - * /`
  (`CanonicalLaws.CanonIdempotent`).
- **The required keys do not keep a target reachable on their own.** The
  docstring of `_get_required_working_buttons`
  (`logic/broken_button_validator.py:94`) calls them the minimum that keeps
  the puzzle solvable. By the code's own estimate, `1` and `+` alone reach
  only 10, and `2`, `*` and `+` alone reach only 20
  (`Generation.RequiredKeysAlone`). The generator does not depend on the
  docstring's claim, because it checks every draw with `validate_solvable`.

## Model

| member | source | states |
|---|---|---|
| Evaluator.Eval | logic/equation_validator.py:42-62 | a tree has a value only if it is built from numbers and table operators; such a tree has a value or divides by zero; a "disallowed operator" error names an operator the tree uses that the table lacks |
| Evaluator.Apply | logic/equation_validator.py:30-36 | applying a table operator fails exactly for true division by zero, and then with a zero-division error |
| Evaluator.ArithmeticUsesTable | logic/equation_validator.py:30-36 | every operator kind of a tree built from table operators is in the table |
| Evaluator.EvalOnlyWithTable | logic/equation_validator.py:45-62 | a tree that uses an operator outside the table anywhere (unary plus, `**`, `//`) has no value |
| Evaluator.OperatorCheckedFirst | logic/equation_validator.py:47-60 | a binary or unary node whose operator is outside the table reports that operator whatever its children hold |
| Evaluator.LeftBeforeRight | logic/equation_validator.py:60 | the left operand's error wins over the right's |
| Evaluator.EvalAddMult | logic/equation_validator.py:31-33 | a `+`/`*` node has a value exactly when both operands do, and it is their sum or product |
| Evaluator.EvalCommutes | logic/equation_validator.py:31-33 | swapping the operands of `+` or `*` keeps whether there is a value and the value |
| Evaluator.EvalRegroups | logic/equation_validator.py:31-33 | regrouping a `+` or `*` chain keeps whether there is a value and the value |
| Validator.Classify | logic/equation_validator.py:193-203 | an evaluation error is passed on as a division by zero exactly when it is one; a value is passed on unchanged |
| Validator.SafeEval | logic/equation_validator.py:25-64 | a text that does not parse is a syntax error; otherwise the result is the evaluation of its tree, a division by zero exactly when the tree divides by zero |
| Validator.SafeEvalNamesCulprit | logic/equation_validator.py:47-59 | a rejected operator is one the parsed text uses and the table lacks |
| Validator.HasIllegalIff | logic/equation_validator.py:186 | the character search succeeds exactly when some character is outside digits, `+-*/().` and white space |
| Validator.HasUnaryPlusFromIff | logic/equation_validator.py:190 | the pattern search succeeds exactly when some `+` stands at the start, after `(` or after white space |
| Validator.Validate | logic/equation_validator.py:176-204 | the result is valid exactly when it has no error, then carries the target as value; a value is what safe evaluation of the stripped text gives; the error is "empty" exactly for blank text |
| Validator.Check | logic/equation_validator.py:183-203 | the same promises for already-stripped text |
| Validator.Judge | logic/equation_validator.py:193-199 | valid exactly when the outcome is the target; the value is present exactly when evaluation succeeded; an error reports the evaluation problem or the value reached |
| Validator.CheckInOrder | logic/equation_validator.py:183-192 | "invalid characters" is reported exactly when the text is non-empty with a bad character; "unary plus" exactly when the characters pass and the pattern matches; a value implies both checks passed |
| Validator.ValidateChecksInOrder | logic/equation_validator.py:182-192 | the same, for the text after `strip` |
| Validator.ValidIff | logic/equation_validator.py:181-199 | an equation is valid exactly when its stripped text passes both checks, parses, and evaluates to the target |
| Validator.DivisionByZeroHasNoValue | logic/equation_validator.py:200-201 | a "division by zero" verdict has no value and comes from a tree that divides by zero |
| Validator.NoValueRejected | logic/equation_validator.py:193-203 | an equation whose tree has no value is rejected without a value |
| Validator.UnaryPlusNeverAccepted | logic/equation_validator.py:189-192 | a text whose tree uses unary plus is never accepted, even where the pattern misses it |
| Validator.CleanTextValidated | logic/equation_validator.py:182-199 | text that strip leaves alone and that passes both checks is judged on the value of its tree |
| Validator.CharacterChecksApplied | logic/equation_validator.py:186-192 | such text is rejected for the first character check it fails |
| ValidationLaws.ShownClean | logic/equation_validator.py:186-192 | every tree built from table operators, written out, passes both character checks |
| ValidationLaws.ShownJudged | logic/equation_validator.py:182-199 | a written tree is judged by the value of the tree |
| ValidationLaws.ValidateShown | logic/equation_validator.py:193-201 | a written tree is valid exactly when its value is the target, carries its value whenever it has one, and a division by zero is reported as such |
| ValidationCases.ProductBindsTighter | logic/equation_validator.py:193-199 | `3+2*4` is valid for 11 and not for 20 |
| ValidationCases.QuotientAccepted | logic/equation_validator.py:193-199 | `6/2` is valid for 3 with value 3 |
| ValidationCases.WrongResultReported | logic/equation_validator.py:198-199 | `10-5` for 4 reports the value 5 reached |
| ValidationCases.DivisionByZeroReported | logic/equation_validator.py:200-201 | `5/0` is a division by zero with no value |
| ValidationCases.BlankIsEmpty | logic/equation_validator.py:182-185 | blank text is empty once stripped |
| ValidationCases.LetterRejected | logic/equation_validator.py:186-188 | `2x3` has invalid characters |
| ValidationCases.LeadingPlusRejected | logic/equation_validator.py:190-192 | `+9` is rejected as unary plus |
| ValidationCases.ReadSpacedSum | logic/equation_validator.py:38 | `9 + 1` reads as the sum of 9 and 1 |
| ValidationCases.SpacedSumRejected | logic/equation_validator.py:190-192 | `9 + 1` is rejected as unary plus although its value is the target 10 |
| Lexer.Lex | logic/equation_validator.py:38 | tokenizing stops at the first error, so only the last token can be the error token |
| Lexer.SkipIndent | logic/equation_validator.py:38 | the indentation skipped is a prefix and what is left starts with no blank |
| Lexer.DigitRun | logic/equation_validator.py:38 | the length of the run of digits that starts the text |
| Spelling.LexSpell | logic/equation_validator.py:38 | tokenizing the spelling of a spellable token list gives the list back |
| Spelling.LexOfSpelling | logic/equation_validator.py:38 | the whole tokenizer reads a spellable list back from its spelling |
| Spelling.FirstCharOfSpelling | logic/equation_validator.py:38 | the first character of a spelling tells the class of the first token |
| Parser.ParseSum | logic/equation_validator.py:38 | a successful parse consumes at least one token |
| Parser.ParsePrimary | logic/equation_validator.py:38 | a successful parse of a primary with its call trailers consumes at least one token |
| Reading.ParseOfSpelling | logic/equation_validator.py:38 | a text that spells a token list parses as that list does |
| Grammar.Lift | logic/equation_validator.py:38 | a primary not followed by `**` is a whole factor, term and sum when nothing binds it further |
| Grammar.SignFactor | logic/equation_validator.py:38 | a sign before a factor reads as a unary node |
| Grammar.Parenthesised | logic/equation_validator.py:38 | a parenthesised sum is a primary |
| Grammar.BinaryOfPrimaries | logic/equation_validator.py:38 | two primaries around a binary operator, closed by `)` or the end, read as one binary node |
| Grammar.ThreeNumbers | logic/equation_validator.py:38 | three numbers with two operators group by precedence and to the left |
| Printer.ShowShape | logic/equation_validator.py:38 | a written tree starts with a number or `(`, ends with a number or `)`, is spellable and balanced |
| Printer.ParseShown | logic/equation_validator.py:38 | every written tree is read back as a whole primary |
| Printer.ParseShow | logic/equation_validator.py:38 | reading a written tree gives the tree back |
| Written.ShowText | logic/equation_validator.py:38 | a written tree is a numeral, `(` sign operand `)` or `(` left operator right `)` |
| Ordering.BelowTotal | logic/equation_validator.py:122 | any two strings are ordered one way or the other |
| Ordering.BelowAntisymmetric | logic/equation_validator.py:122 | strings ordered both ways are equal |
| Ordering.BelowTransitive | logic/equation_validator.py:122 | the string order is transitive |
| Ordering.InsertSorted | logic/equation_validator.py:122 | inserting into a sorted list keeps it sorted and adds exactly the new string |
| Ordering.SortSorts | logic/equation_validator.py:122 | sorting gives a sorted permutation of the input |
| Ordering.SortedUnique | logic/equation_validator.py:122 | two sorted lists with the same elements are equal |
| Ordering.SortPermutationInvariant | logic/equation_validator.py:122 | sorting depends only on the multiset of the input |
| Ordering.Join | logic/equation_validator.py:123 | joining nothing gives the empty string and joining one string gives that string |
| Canonical.Canon | logic/equation_validator.py:90-130 | the canonical string is empty exactly for a Tuple or Call node |
| Canonical.Chain | logic/equation_validator.py:111-121 | a maximal chain has at least one operand |
| Canonical.ChainInvariant | logic/equation_validator.py:108-123 | the canonical string of a `+`/`*` node depends only on the multiset of its chain's operand strings |
| Canonical.CanonCommutes | logic/equation_validator.py:108-123 | swapping the operands of `+` or `*` keeps the canonical string |
| Canonical.CanonRegroups | logic/equation_validator.py:108-123 | regrouping a `+` or `*` chain keeps the canonical string |
| Canonical.NumeralInjective | logic/equation_validator.py:91-92 | different numbers have different decimal texts |
| Canonical.CanonOrderSensitive | logic/equation_validator.py:125-128 | swapping two numbers around `-` or `/` changes the canonical string unless they are equal |
| CanonicalLaws.CanonIdempotent | logic/equation_validator.py:72-132 | for a tree of numbers and table operators, the canonical string parses as the tree with every `+`/`*` chain flattened, sorted and grouped from the left, and the canonical form of the canonical string is that string |
| CanonicalLaws.UnaryPlusUnstable | logic/equation_validator.py:94-97 | `+2` has the canonical form `(2)`, whose canonical form is `2`: with a unary plus, canonicalising twice changes the text |
| CanonicalLaws.EmptyTupleUnstable | logic/equation_validator.py:111-130 | `1+()` has the canonical form `(+1)`, because the tuple's string is empty and sorts first; `(+1)` has the form `(1)` and `(1)` the form `1`: an empty tuple in a `+` chain makes canonicalising twice change the text |
| CanonicalLaws.ReadNormal | logic/equation_validator.py:86-130 | a tree of numbers and table operators whose `+`/`*` chains are grouped from the left with their operands in sorted order reads back from its canonical string as itself |
| CanonicalLaws.CanonKept | logic/equation_validator.py:108-123 | flattening, sorting and regrouping every `+`/`*` chain of a tree keeps its canonical string |
| CanonicalLaws.ChainKept | logic/equation_validator.py:111-121 | flattening, sorting and regrouping keeps the strings of every `+`/`*` chain, up to order |
| CanonicalLaws.NormaliseNormal | logic/equation_validator.py:108-123 | regrouping a tree of numbers and table operators gives chains grouped from the left with operands in sorted order |
| CanonicalLaws.MembersSpellChain | logic/equation_validator.py:111-121 | the strings `_collect_operands` gathers are the canonical strings of the chain's operand subtrees, in order |
| CanonicalLaws.SortTreesSpells | logic/equation_validator.py:122 | sorting subtrees by canonical string sorts their strings as `operands.sort()` does and keeps the subtrees |
| Equivalence.Extract | logic/equation_validator.py:134-174 | a text that does not parse has empty multisets and an empty canonical string; otherwise the canonical string is its canonical form |
| Equivalence.EquivalentIff | logic/equation_validator.py:206-237 | two texts are equivalent exactly when they agree without spaces, or both parse to trees with equal operand multisets, equal operator multisets and equal non-empty canonical strings |
| Equivalence.EquivalentReflexive | logic/equation_validator.py:222-223 | every text is equivalent to itself |
| Equivalence.EquivalentSymmetric | logic/equation_validator.py:222-237 | equivalence does not depend on the order of its arguments |
| Equivalence.UnparsedMatchesOnlyItself | logic/equation_validator.py:228-229 | a text that does not parse is equivalent only to texts equal to it without spaces |
| Equivalence.UniqueIsNegation | logic/equation_validator.py:239-244 | uniqueness is the negation of equivalence, symmetric and never true of a text and itself |
| Laws.ShownEquivalentIff | logic/equation_validator.py:206-237 | two written trees are equivalent exactly when equal or agreeing on operands, operators and a non-empty canonical string |
| Laws.SwapEquivalent | logic/equation_validator.py:216-218 | `a + b` is equivalent to `b + a`, and `a * b` to `b * a` |
| Laws.RegroupEquivalent | logic/equation_validator.py:75-77 | `(a + b) + c` is equivalent to `a + (b + c)`, and likewise for `*` |
| Laws.SwapDistinguishes | logic/equation_validator.py:219 | `n - m` is equivalent to `m - n`, and `n / m` to `m / n`, exactly when the numbers are equal |
| Laws.CountsMustAgree | logic/equation_validator.py:231-235 | different trees whose operand or operator multisets differ are never equivalent |
| Laws.OpaqueOnlyItself | logic/equation_validator.py:228-229 | a tuple or call is equivalent only to itself |
| Laws.ParsedEquivalent | logic/equation_validator.py:225-237 | texts reading as trees that agree on all three parts are equivalent |
| Laws.ParsedDistinct | logic/equation_validator.py:225-237 | texts without spaces reading as trees that disagree on a part are not equivalent |
| Cases.CommutedSums | logic/equation_validator.py:271 | `9+1` and `1+9` are equivalent |
| Cases.DifferentOperands | logic/equation_validator.py:272 | `2+8` and `1+9` are not equivalent |
| Cases.CommutedProducts | logic/equation_validator.py:273 | `5*2` and `2*5` are equivalent |
| Cases.SwappedDifference | logic/equation_validator.py:274-278 | `10-5` and `5-10` are not equivalent |
| Cases.ProductAsAddend | logic/equation_validator.py:279-283 | `3+2*4` and `2*4+3` are equivalent |
| Cases.ParenthesisedSums | logic/equation_validator.py:284 | `(9+1)` and `(1+9)` are equivalent |
| Cases.ReorderedInnerProduct | logic/equation_validator.py:285 | `2*3+4` and `3*2+4` are equivalent |
| Cases.SameValueDifferentOperator | logic/equation_validator.py:286-290 | `6/2` and `2*3` are not equivalent |
| Cases.CanonicalNines | logic/equation_validator.py:80-81 | `9+1+9` and `9+9+1` both have the canonical string `(1+9+9)` |
| Cases.CanonicalProductPlusThree | logic/equation_validator.py:82-83 | `5*2+3` and `3+2*5` both have the canonical string `((2*5)+3)` |
| Cases.CanonicalNegatedSum | logic/equation_validator.py:94-97 | `-(5+2)` has the canonical string `(-(2+5))` |
| Buttons.RequiredWorking | logic/broken_button_validator.py:92-98 | the required keys always include `+` and are all calculator keys |
| Buttons.WithoutKeeps | logic/broken_button_validator.py:53 | filtering keeps exactly the keys outside the dropped set, never lengthens the list and keeps distinct keys distinct |
| Buttons.OperatorsOfKeys | logic/broken_button_validator.py:84 | the operators are exactly the keys of the list among `+ - * /` |
| Buttons.DigitsOfKeys | logic/broken_button_validator.py:83 | the digit values are exactly the values of the digit keys of the list, each below ten |
| Buttons.MaxOfIsMax | logic/broken_button_validator.py:105 | the maximum is an element and bounds every element |
| Buttons.Estimate | logic/broken_button_validator.py:100-114 | the estimate is at least ten times the largest digit, at least five times the digit sum when `+` works, at least the square of the largest digit when `*` and two digits work, and equal to one of these |
| ButtonLaws.SolvableUnfolds | logic/broken_button_validator.py:79-90 | a target is reachable exactly when some digit and some operator work and the estimate reaches it |
| ButtonLaws.FewerKeys | logic/broken_button_validator.py:79-83 | dropping more keys keeps fewer digits, a smaller digit sum and only digits that were there |
| ButtonLaws.EstimateMonotone | logic/broken_button_validator.py:100-114 | the estimate grows with the digits and operators it is given |
| ButtonLaws.DroppingMoreNeverHelps | logic/broken_button_validator.py:79-90 | a target reachable with more keys dropped from a key list is reachable with fewer dropped |
| ButtonLaws.BreakingMoreNeverHelps | logic/broken_button_validator.py:67-90 | a target reachable with a broken list is reachable with any part of it |
| ButtonLaws.AllKeysWork | logic/broken_button_validator.py:28-31 | with every key working the digits are 0 to 9, the operators `+-*/`, and the estimate 225 |
| ButtonLaws.WorkingDigitsBounded | logic/broken_button_validator.py:79-83 | the working digits sum to at most 45 and are each below ten |
| ButtonLaws.EstimateBounded | logic/broken_button_validator.py:100-114 | digits below ten summing to at most 45 never estimate above 225 |
| ButtonLaws.SolvableAtMost225 | logic/broken_button_validator.py:67-114 | no target above 225 is ever reachable |
| ButtonLaws.NothingBroken | logic/broken_button_validator.py:67-90 | with nothing broken exactly the targets up to 225 are reachable |
| ButtonLaws.DigitsLeft | logic/broken_button_validator.py:79-83 | every broken key costs at most one of the ten digits |
| ButtonLaws.WorkingDigitsRise | logic/broken_button_validator.py:79-83 | n working digits sum to at least 0 + 1 + ... + (n - 1) |
| ButtonLaws.StillWorks | logic/broken_button_validator.py:79-81 | a key that is not broken works |
| ButtonLaws.SmallTargetSolvable | logic/broken_button_validator.py:96-97 | a target up to 50 stays reachable while `+` works and at most five keys are broken |
| Sampling.Remove | logic/broken_button_validator.py:56 | taking out one entry shortens the pool by one and removes exactly that entry |
| Sampling.Sample | logic/broken_button_validator.py:56 | a sample has the requested length and draws from the pool without replacement |
| Sampling.SampleReaches | logic/broken_button_validator.py:56 | every ordered choice of distinct pool entries is drawn by some seed |
| Sampling.SampleDistinct | logic/broken_button_validator.py:56 | drawing from distinct entries gives distinct entries |
| Generation.BreakableKeys | logic/broken_button_validator.py:52-53 | a key is breakable exactly when it is a calculator key the target does not need, and the breakable keys are distinct |
| Generation.Draw | logic/broken_button_validator.py:55-56 | one draw is `min(count, len(pool))` distinct keys of the pool |
| Generation.Retry | logic/broken_button_validator.py:49-65 | the retries give up with nothing when `count <= 0` or ten attempts are spent; a non-empty result is reachable, at most `count` and at most the pool long, distinct and drawn from the pool |
| Generation.Generate | logic/broken_button_validator.py:36-65 | the result is empty or reachable; it is empty when `count <= 0` or ten attempts are spent; it is no longer than `count` or the breakable keys; its keys are distinct calculator keys the target does not need |
| Generation.RequiredKeysAlone | logic/broken_button_validator.py:92-114 | with every breakable key broken, exactly the targets up to 10 stay reachable, whatever the target |
| ButtonLaws.WorkingDigitsRising | logic/broken_button_validator.py:79-83 | the working digits come out strictly increasing, so no digit repeats |
| Generation.LargeTargetGetsNothing | logic/broken_button_validator.py:58-63 | a target above 225 gets no broken keys |
| Generation.RetryStep | logic/broken_button_validator.py:58-65 | an attempt returns a non-empty draw or hands over to the next attempt with one key fewer |
| Generation.SmallTargetRetried | logic/broken_button_validator.py:58-63 | the retries for a target up to 50 end with keys while they can bring the count down to five |
| Generation.SmallTargetGetsKeys | logic/broken_button_validator.py:36-65 | a target up to 50 gets at least one broken key when the retries can bring the count down to five |
| Generation.FirstDrawReachesPool | logic/broken_button_validator.py:55-65 | every reachable choice of `min(count, len(pool))` distinct pool keys is what the first attempt returns for some random choice |
| Generation.FirstDrawReaches | logic/broken_button_validator.py:52-65 | every reachable choice of `min(count, len(breakable))` distinct keys the target does not need is a possible result |

## Left out

- Floating point: numbers are exact reals, and literals are integers. A `.` in the text makes the tokenizer fail, so `1.5`, `1.` and `.5` are not modelled, and neither are float rounding or overflow (`OverflowError`).
- The text `...`: it passes both text checks of `validate`. Python parses it as the Ellipsis constant, which `safe_eval` returns as the value (`logic/equation_validator.py:45-46`). `math.isclose` then raises TypeError (line 196), so `validate` reports "Invalid equation" with the value set to Ellipsis. The model reports `InvalidSyntax` with no value, because its tokenizer stops at the first `.`.
- Validator.Judge: compares the value with the target exactly, not with the tolerance of `math.isclose`, because values are exact.
- Validator.Validate: errors are a datatype (`Problem`), not the message strings; the `:.2f` formatting of "Result is V, not T" is not modelled.
- Validator.UnaryPlusNeverAccepted: stated for the stripped text that the checks see, not for the unstripped input.
- Lexer.Lex: any character outside the calculator alphabet and white space ends tokenizing with an error token, where Python would read names, float and complex literals, strings and other tokens. `validate` rejects such text with its character check before parsing. The comparison functions do not (see the next line). Nesting-depth and length limits of the Python parser are not modelled.
- Equivalence.Equivalent: equivalence is modelled only for text over digits, `+-*/()` and white space. The comparison functions do not call `validate`, and for other text Python differs from the model in three ways:
  - Names parse in Python and canonicalise to `""` (`logic/equation_validator.py:130`). So `x+1` and `1+x` both give `(+1)` with equal counts, and Python calls them equivalent where the model does not.
  - Floats parse in Python. So `1.5+2` and `2+1.5` are equivalent in Python but not in the model.
  - A string or complex literal such as `'a'` or `1j` makes `int(val)` at line 154 raise, where the model returns false.
- Parser.ParseSum: the Tuple and Call nodes keep no children; nothing in the system looks inside them.
- Generation.Generate: the random source is the parameter `draws`, one number per attempt, and `Sampling.Sample` is a deterministic stand-in for `random.sample` that can draw every sample the library can; the probability distribution is not modelled. The breakable keys are computed once, which gives the same list as recomputing them on each attempt.
- Generation.Generate: broken entries are single characters; the source's lists of one-character strings are modelled as strings.
- `get_equation_signature` and the `__main__` harness: debugging output; the harness's test vectors are the `Cases` lemmas.
- The user interface, the activity shell and the game manager: I/O and UI plumbing.

=== FILE: button_laws.dfy ===
/** What the solvability estimate promises: breaking more keys never makes
    a target reachable, no target above 225 is ever reachable, and a small
    target stays reachable while `+` and five digits work. */
module ButtonLaws {
  import opened Text
  import opened Buttons
  import opened Sampling

  /** Unfolding the filters on a list with a known first key. */
  lemma DigitsOfCons(x: char, w: seq<char>)
    ensures DigitsOf([x] + w) == if IsDigit(x) then [DigitValue(x)] + DigitsOf(w) else DigitsOf(w)
    ensures OperatorsOf([x] + w) == if IsOperatorKey(x) then [x] + OperatorsOf(w) else OperatorsOf(w)
  {
    assert ([x] + w)[0] == x && ([x] + w)[1..] == w;
  }

  lemma SumOfCons(v: nat, s: seq<nat>)
    ensures SumOf([v] + s) == v + SumOf(s)
  {
    assert ([v] + s)[0] == v && ([v] + s)[1..] == s;
  }

  /** Removing more keys from a list keeps fewer digits, a smaller digit
      sum, and only digits that were there before. */
  lemma {:induction false} FewerKeys(xs: seq<char>, d1: set<char>, d2: set<char>)
    requires d1 <= d2
    ensures var a, b := DigitsOf(Without(xs, d2)), DigitsOf(Without(xs, d1));
      && SumOf(a) <= SumOf(b) && |a| <= |b|
      && (forall v :: v in a ==> v in b)
  {
    if xs != [] {
      FewerKeys(xs[1..], d1, d2);
      var x, w := xs[0], xs[1..];
      var a', b' := Without(w, d2), Without(w, d1);
      if x !in d1 {
        DigitsOfCons(x, b');
        if IsDigit(x) { SumOfCons(DigitValue(x), DigitsOf(b')); }
      }
      if x !in d2 {
        DigitsOfCons(x, a');
        if IsDigit(x) { SumOfCons(DigitValue(x), DigitsOf(a')); }
      }
    }
  }

  lemma SquareMonotone(a: nat, b: nat)
    requires a <= b
    ensures Square(a) <= Square(b)
  {
    assert a * a <= a * b;
  }

  /** The estimate grows with the digits and operators it is given. */
  lemma EstimateMonotone(d1: seq<nat>, o1: seq<char>, d2: seq<nat>, o2: seq<char>)
    requires d1 != [] && d2 != []
    requires forall v :: v in d1 ==> v in d2
    requires SumOf(d1) <= SumOf(d2) && |d1| <= |d2|
    requires forall c :: c in o1 ==> c in o2
    ensures Estimate(d1, o1) <= Estimate(d2, o2)
  {
    var m1, m2 := MaxOf(d1), MaxOf(d2);
    MaxOfIsMax(d1);
    MaxOfIsMax(d2);
    assert m1 in d2;
    assert m1 <= m2;
    SquareMonotone(m1, m2);
  }

  /** `validate_solvable` in terms of the working digits and operators. */
  lemma SolvableUnfolds(target: int, broken: seq<char>)
    ensures var w := Working(broken);
      ValidateSolvable(target, broken) <==>
        DigitsOf(w) != [] && OperatorsOf(w) != [] && Estimate(DigitsOf(w), OperatorsOf(w)) >= target
  {
  }

  /** The test `validate_solvable` applies to the keys that work. */
  predicate SolvableWith(target: int, ws: seq<char>)
  {
    var ds, os := DigitsOf(ws), OperatorsOf(ws);
    ds != [] && os != [] && Estimate(ds, os) >= target
  }

  /** Dropping more keys from a list never helps. */
  lemma DroppingMoreNeverHelps(target: int, xs: seq<char>, s1: set<char>, s2: set<char>)
    requires s1 <= s2
    requires SolvableWith(target, Without(xs, s2))
    ensures SolvableWith(target, Without(xs, s1))
  {
    FewerKeys(xs, s1, s2);
    var w1, w2 := Without(xs, s1), Without(xs, s2);
    var d1, d2 := DigitsOf(w1), DigitsOf(w2);
    var o1, o2 := OperatorsOf(w1), OperatorsOf(w2);
    WithoutKeeps(xs, s1);
    WithoutKeeps(xs, s2);
    OperatorsOfKeys(w1);
    OperatorsOfKeys(w2);
    assert o2[0] in o1;
    assert d2[0] in d1;
    EstimateMonotone(d2, o2, d1, o1);
  }

  /** Breaking more keys never helps: a target reachable with a longer
      broken list is reachable with any part of it. */
  lemma BreakingMoreNeverHelps(target: int, b1: seq<char>, b2: seq<char>)
    requires forall c :: c in b1 ==> c in b2
    requires ValidateSolvable(target, b2)
    ensures ValidateSolvable(target, b1)
  {
    var s1, s2 := set c | c in b1, set c | c in b2;
    assert s1 <= s2;
    assert SolvableWith(target, Without(AllButtons, s2));
    DroppingMoreNeverHelps(target, AllButtons, s1, s2);
  }

  lemma {:induction false} WithoutNothing(xs: seq<char>)
    ensures Without(xs, {}) == xs
  {
    if xs != [] {
      WithoutNothing(xs[1..]);
      assert xs == [xs[0]] + xs[1..];
    }
  }

  lemma {:induction false} DigitsAppend(a: seq<char>, b: seq<char>)
    ensures DigitsOf(a + b) == DigitsOf(a) + DigitsOf(b)
  {
    if a == [] {
      assert a + b == b;
    } else {
      var x, w := a[0], a[1..];
      DigitsAppend(w, b);
      assert (a + b)[0] == x && (a + b)[1..] == w + b;
      if IsDigit(x) {
        var v := [DigitValue(x)];
        assert v + (DigitsOf(w) + DigitsOf(b)) == (v + DigitsOf(w)) + DigitsOf(b);
      }
    }
  }

  lemma {:induction false} OperatorsAppend(a: seq<char>, b: seq<char>)
    ensures OperatorsOf(a + b) == OperatorsOf(a) + OperatorsOf(b)
  {
    if a == [] {
      assert a + b == b;
    } else {
      OperatorsAppend(a[1..], b);
      assert a + b == [a[0]] + (a[1..] + b);
      DigitsOfCons(a[0], a[1..] + b);
      DigitsOfCons(a[0], a[1..]);
      assert a == [a[0]] + a[1..];
    }
  }

  lemma LowDigits()
    ensures DigitsOf("01234") == [0, 1, 2, 3, 4]
    ensures OperatorsOf("01234") == []
  {
  }

  lemma HighDigits()
    ensures DigitsOf("56789") == [5, 6, 7, 8, 9]
    ensures OperatorsOf("56789") == []
  {
  }

  lemma DigitKeys()
    ensures DigitsOf("0123456789") == [0, 1, 2, 3, 4, 5, 6, 7, 8, 9]
    ensures OperatorsOf("0123456789") == []
  {
    assert "0123456789" == "01234" + "56789";
    DigitsAppend("01234", "56789");
    OperatorsAppend("01234", "56789");
    LowDigits();
    HighDigits();
  }

  lemma OtherKeys()
    ensures DigitsOf("+-*/()") == []
    ensures OperatorsOf("+-*/()") == "+-*/"
  {
  }

  lemma DigitTotals()
    ensures SumOf([0, 1, 2, 3, 4, 5, 6, 7, 8, 9]) == 45
    ensures MaxOf([0, 1, 2, 3, 4, 5, 6, 7, 8, 9]) == 9
  {
  }

  lemma WorkingNothingBroken()
    ensures Working([]) == AllButtons
  {
    assert (set c: char | c in []) == {};
    WithoutNothing(AllButtons);
  }

  lemma AllDigits()
    ensures DigitsOf(AllButtons) == [0, 1, 2, 3, 4, 5, 6, 7, 8, 9]
  {
    assert AllButtons == "0123456789" + "+-*/()";
    DigitsAppend("0123456789", "+-*/()");
    DigitKeys();
    OtherKeys();
  }

  lemma AllOperators()
    ensures OperatorsOf(AllButtons) == "+-*/"
  {
    assert AllButtons == "0123456789" + "+-*/()";
    OperatorsAppend("0123456789", "+-*/()");
    DigitKeys();
    OtherKeys();
  }

  lemma EstimateAllKeys()
    ensures Estimate([0, 1, 2, 3, 4, 5, 6, 7, 8, 9], "+-*/") == 225
  {
    DigitTotals();
  }

  /** With every key working: the digits 0 to 9, all four operators, and
      an estimate of 5 * 45 = 225. */
  lemma AllKeysWork()
    ensures Working([]) == AllButtons
    ensures DigitsOf(AllButtons) == [0, 1, 2, 3, 4, 5, 6, 7, 8, 9]
    ensures OperatorsOf(AllButtons) == "+-*/"
    ensures Estimate(DigitsOf(AllButtons), OperatorsOf(AllButtons)) == 225
  {
    WorkingNothingBroken();
    AllDigits();
    AllOperators();
    EstimateAllKeys();
  }

  /** Whatever is broken, the working digits are single digits summing
      to at most 0 + 1 + ... + 9 = 45. */
  lemma WorkingDigitsBounded(broken: seq<char>)
    ensures var d := DigitsOf(Working(broken));
      SumOf(d) <= 45 && forall v :: v in d ==> v < 10
  {
    var s := set c | c in broken;
    assert (set c: char | c in []) == {};
    FewerKeys(AllButtons, {}, s);
    WithoutNothing(AllButtons);
    AllDigits();
    DigitTotals();
    DigitsOfKeys(Working(broken));
  }

  /** Single digits summing to at most 45 never estimate above 225. */
  lemma EstimateBounded(d: seq<nat>, o: seq<char>)
    requires d != []
    requires SumOf(d) <= 45 && forall v :: v in d ==> v < 10
    ensures Estimate(d, o) <= 225
  {
    var m := MaxOf(d);
    MaxOfIsMax(d);
    SquareMonotone(m, 9);
  }

  /** No target above 225 is ever reachable. */
  lemma SolvableAtMost225(target: int, broken: seq<char>)
    requires ValidateSolvable(target, broken)
    ensures target <= 225
  {
    SolvableUnfolds(target, broken);
    WorkingDigitsBounded(broken);
    var w := Working(broken);
    EstimateBounded(DigitsOf(w), OperatorsOf(w));
  }

  /** With nothing broken exactly the targets up to 225 are reachable. */
  lemma NothingBroken(target: int)
    ensures ValidateSolvable(target, []) <==> target <= 225
  {
    AllKeysWork();
  }

  /** A key the list does not hold makes no difference to the filter. */
  lemma {:induction false} WithoutIrrelevant(xs: seq<char>, drop: set<char>, x: char)
    requires x !in xs
    ensures Without(xs, drop) == Without(xs, drop - {x})
  {
    if xs != [] {
      WithoutIrrelevant(xs[1..], drop, x);
    }
  }

  /** Each dropped key costs at most one digit. */
  lemma {:induction false} DigitsLost(xs: seq<char>, drop: set<char>)
    requires Distinct(xs)
    ensures |DigitsOf(Without(xs, drop))| + |drop| >= |DigitsOf(xs)|
  {
    if xs != [] {
      var x, w := xs[0], xs[1..];
      assert xs == [x] + w;
      assert Distinct(w);
      assert x !in w;
      DigitsOfCons(x, w);
      if x in drop {
        WithoutIrrelevant(w, drop, x);
        DigitsLost(w, drop - {x});
      } else {
        DigitsLost(w, drop);
        DigitsOfCons(x, Without(w, drop));
      }
    }
  }

  /** A list names at most as many keys as it is long. */
  lemma {:induction false} KeysNamed(b: seq<char>)
    ensures |set c | c in b| <= |b|
  {
    if b != [] {
      KeysNamed(b[1..]);
      assert (set c | c in b) == {b[0]} + (set c | c in b[1..]);
    }
  }

  lemma AllButtonsDistinct()
    ensures Distinct(AllButtons)
  {
  }

  /** Every broken key costs at most one of the ten digits. */
  lemma DigitsLeft(broken: seq<char>)
    ensures |DigitsOf(Working(broken))| + |broken| >= 10
  {
    var s := set c | c in broken;
    KeysNamed(broken);
    AllButtonsDistinct();
    DigitsLost(AllButtons, s);
    AllDigits();
  }

  /** Values strictly increasing from `lo` upwards. */
  predicate Rising(lo: nat, s: seq<nat>)
    decreases |s|
  {
    s == [] || (s[0] >= lo && Rising(s[0] + 1, s[1..]))
  }

  /** The digit keys of `xs`, read in order, rise strictly from `lo`. */
  predicate KeysRising(lo: nat, xs: seq<char>)
    decreases |xs|
  {
    if xs == [] then true
    else if IsDigit(xs[0]) then DigitValue(xs[0]) >= lo && KeysRising(DigitValue(xs[0]) + 1, xs[1..])
    else KeysRising(lo, xs[1..])
  }

  lemma {:induction false} KeysRisingLower(lo: nat, lo': nat, xs: seq<char>)
    requires lo' <= lo && KeysRising(lo, xs)
    ensures KeysRising(lo', xs)
  {
    if xs != [] && !IsDigit(xs[0]) {
      KeysRisingLower(lo, lo', xs[1..]);
    }
  }

  /** Filtering keys keeps the digits rising. */
  lemma {:induction false} WithoutRising(lo: nat, xs: seq<char>, drop: set<char>)
    requires KeysRising(lo, xs)
    ensures KeysRising(lo, Without(xs, drop))
    decreases |xs|
  {
    if xs != [] {
      var x, w := xs[0], xs[1..];
      if IsDigit(x) {
        var v := DigitValue(x);
        WithoutRising(v + 1, w, drop);
        if x in drop {
          KeysRisingLower(v + 1, lo, Without(w, drop));
        } else {
          assert ([x] + Without(w, drop))[1..] == Without(w, drop);
        }
      } else {
        WithoutRising(lo, w, drop);
        if x !in drop {
          assert ([x] + Without(w, drop))[1..] == Without(w, drop);
        }
      }
    }
  }

  lemma {:induction false} DigitsRise(lo: nat, xs: seq<char>)
    requires KeysRising(lo, xs)
    ensures Rising(lo, DigitsOf(xs))
    decreases |xs|
  {
    if xs != [] {
      var x, w := xs[0], xs[1..];
      assert xs == [x] + w;
      DigitsOfCons(x, w);
      if IsDigit(x) {
        DigitsRise(DigitValue(x) + 1, w);
      } else {
        DigitsRise(lo, w);
      }
    }
  }

  /** `lo + (lo + 1) + ... + (lo + n - 1)`. */
  function TriFrom(lo: nat, n: nat): nat
    decreases n
  {
    if n == 0 then 0 else lo + TriFrom(lo + 1, n - 1)
  }

  lemma {:induction false} TriFromLower(lo: nat, lo': nat, n: nat)
    requires lo' <= lo
    ensures TriFrom(lo', n) <= TriFrom(lo, n)
    decreases n
  {
    if n > 0 {
      TriFromLower(lo + 1, lo' + 1, n - 1);
    }
  }

  lemma {:induction false} TriFromLonger(lo: nat, m: nat, n: nat)
    requires m <= n
    ensures TriFrom(lo, m) <= TriFrom(lo, n)
    decreases m
  {
    if m > 0 {
      TriFromLonger(lo + 1, m - 1, n - 1);
    }
  }

  /** Strictly rising values from `lo` sum to at least `lo + ... + (lo + n - 1)`. */
  lemma {:induction false} RisingSum(lo: nat, s: seq<nat>)
    requires Rising(lo, s)
    ensures SumOf(s) >= TriFrom(lo, |s|)
    decreases |s|
  {
    if s != [] {
      RisingSum(s[0] + 1, s[1..]);
      TriFromLower(s[0] + 1, lo + 1, |s| - 1);
    }
  }

  lemma OperatorKeysRising()
    ensures KeysRising(10, "+-*/()")
  {
  }

  /** A digit key in front of keys rising above it. */
  lemma DigitKeyRising(d: char, n: nat, xs: seq<char>)
    requires IsDigit(d) && DigitValue(d) == n && KeysRising(n + 1, xs)
    ensures KeysRising(n, [d] + xs)
  {
    assert ([d] + xs)[1..] == xs;
  }

  /** The digit keys from `d` to `9`, in order. */
  function DigitRun(d: nat): (r: seq<char>)
    requires d <= 10
    ensures |r| == 10 - d
    decreases 10 - d
  {
    if d == 10 then [] else [('0' as int + d) as char] + DigitRun(d + 1)
  }

  lemma {:induction false} DigitRunRising(d: nat)
    requires d <= 10
    ensures KeysRising(d, DigitRun(d) + "+-*/()")
    decreases 10 - d
  {
    if d == 10 {
      OperatorKeysRising();
      assert DigitRun(d) + "+-*/()" == "+-*/()";
    } else {
      DigitRunRising(d + 1);
      var c := ('0' as int + d) as char;
      var tail := DigitRun(d + 1) + "+-*/()";
      DigitKeyRising(c, d, tail);
      assert DigitRun(d) + "+-*/()" == [c] + tail;
    }
  }

  lemma LowRun()
    ensures DigitRun(5) == "56789"
  {
  }

  lemma HighRun()
    ensures DigitRun(0) == "01234" + DigitRun(5)
  {
  }

  lemma KeysSplit()
    ensures AllButtons == "01234" + "56789" + "+-*/()"
  {
  }

  lemma AllButtonsRun()
    ensures AllButtons == DigitRun(0) + "+-*/()"
  {
    LowRun();
    HighRun();
    KeysSplit();
  }

  lemma AllKeysRising()
    ensures KeysRising(0, AllButtons)
  {
    DigitRunRising(0);
    AllButtonsRun();
  }

  /** The working digits are distinct, so `n` of them sum to at least
      0 + 1 + ... + (n - 1). */
  lemma WorkingDigitsRise(broken: seq<char>)
    ensures var d := DigitsOf(Working(broken));
      SumOf(d) >= TriFrom(0, |d|)
  {
    var s := set c | c in broken;
    AllKeysRising();
    WithoutRising(0, AllButtons, s);
    DigitsRise(0, Working(broken));
    RisingSum(0, DigitsOf(Working(broken)));
  }

  /** The working digits rise strictly, so they are distinct. */
  lemma WorkingDigitsRising(broken: seq<char>)
    ensures Rising(0, DigitsOf(Working(broken)))
  {
    AllKeysRising();
    WithoutRising(0, AllButtons, set c | c in broken);
    DigitsRise(0, Working(broken));
  }

  /** The first two of strictly rising values are in increasing order. */
  lemma RisingStep(lo: nat, s: seq<nat>)
    requires Rising(lo, s)
    ensures |s| >= 2 ==> s[0] < s[1]
  {
    if |s| >= 2 {
      assert s[1..][0] == s[1];
    }
  }

  /** Strictly rising values that all equal `k` are at most one. */
  lemma RisingConstant(lo: nat, s: seq<nat>, k: nat)
    requires Rising(lo, s)
    requires forall i :: 0 <= i < |s| ==> s[i] == k
    ensures |s| <= 1
  {
    RisingStep(lo, s);
  }

  /** A key that is not broken works. */
  lemma StillWorks(broken: seq<char>, c: char)
    requires c in AllButtons && c !in broken
    ensures c in Working(broken)
  {
    WithoutKeeps(AllButtons, set c | c in broken);
  }

  /** A small target stays reachable while `+` works and at most five keys
      are broken: at least five distinct digits remain, summing to at least
      0 + 1 + 2 + 3 + 4 = 10, and five times that reaches 50. */
  lemma SmallTargetSolvable(target: int, broken: seq<char>)
    requires target <= SmallTargetThreshold
    requires '+' !in broken && |broken| <= 5
    ensures ValidateSolvable(target, broken)
  {
    var w := Working(broken);
    DigitsLeft(broken);
    WorkingDigitsRise(broken);
    var d := DigitsOf(w);
    TriFromLonger(0, 5, |d|);
    assert TriFrom(0, 5) == 10;
    StillWorks(broken, '+');
    OperatorsOfKeys(w);
    SolvableUnfolds(target, broken);
  }
}

=== FILE: buttons.dfy ===
/** `BrokenButtonValidator`: which calculator keys may be broken for a
    target, and the estimate that decides whether a target can still be
    reached with the keys that work. */
module Buttons {
  import opened Text
  import opened Sampling

  /** The sixteen keys, in the order the source lists them. */
  const AllButtons: seq<char> := "0123456789+-*/()"

  /** Targets up to this value keep `1` and `+` working; larger ones keep
      `2`, `*` and `+`. */
  const SmallTargetThreshold: int := 50

  /** How many times the generator draws before giving up. */
  const MaxAttempts: nat := 10

  /** The keys a puzzle for `target` must keep. */
  function RequiredWorking(target: int): (r: set<char>)
    ensures '+' in r
    ensures forall c :: c in r ==> c in AllButtons
  {
    if target <= SmallTargetThreshold then {'1', '+'} else {'2', '*', '+'}
  }

  /** The keys of `xs`, in order, that are not in `drop`. */
  function Without(xs: seq<char>, drop: set<char>): seq<char>
  {
    if xs == [] then []
    else if xs[0] in drop then Without(xs[1..], drop)
    else [xs[0]] + Without(xs[1..], drop)
  }

  /** Filtering keeps exactly the keys outside `drop`, never lengthens the
      list and keeps distinct keys distinct. */
  lemma {:induction false} WithoutKeeps(xs: seq<char>, drop: set<char>)
    ensures forall c :: c in Without(xs, drop) <==> c in xs && c !in drop
    ensures |Without(xs, drop)| <= |xs|
    ensures Distinct(xs) ==> Distinct(Without(xs, drop))
  {
    if xs != [] {
      WithoutKeeps(xs[1..], drop);
      if Distinct(xs) {
        assert xs[0] !in xs[1..];
        assert Distinct(xs[1..]);
      }
      assert xs == [xs[0]] + xs[1..];
    }
  }

  /** The keys the generator may break: all but the required ones. */
  function Breakable(target: int): seq<char>
  {
    Without(AllButtons, RequiredWorking(target))
  }

  /** The keys that still work when `broken` are broken. */
  function Working(broken: seq<char>): seq<char>
  {
    Without(AllButtons, set c | c in broken)
  }

  /** `[int(b) for b in ws if b.isdigit()]`. */
  function DigitsOf(ws: seq<char>): seq<nat>
  {
    if ws == [] then []
    else if IsDigit(ws[0]) then [DigitValue(ws[0])] + DigitsOf(ws[1..])
    else DigitsOf(ws[1..])
  }

  /** The four operator keys. */
  predicate IsOperatorKey(c: char)
  {
    c == '+' || c == '-' || c == '*' || c == '/'
  }

  /** The operator keys of `ws`, in order. */
  function OperatorsOf(ws: seq<char>): seq<char>
  {
    if ws == [] then []
    else if IsOperatorKey(ws[0]) then [ws[0]] + OperatorsOf(ws[1..])
    else OperatorsOf(ws[1..])
  }

  /** The operators are exactly the operator keys of the list. */
  lemma {:induction false} OperatorsOfKeys(ws: seq<char>)
    ensures forall c :: c in OperatorsOf(ws) <==> c in ws && IsOperatorKey(c)
  {
    if ws != [] {
      OperatorsOfKeys(ws[1..]);
      assert ws == [ws[0]] + ws[1..];
    }
  }

  /** The digit values are exactly the values of the digit keys of the
      list. */
  lemma {:induction false} DigitsOfKeys(ws: seq<char>)
    ensures forall v :: v in DigitsOf(ws) ==> v < 10 && exists c :: c in ws && IsDigit(c) && DigitValue(c) == v
    ensures forall c :: c in ws && IsDigit(c) ==> DigitValue(c) in DigitsOf(ws)
  {
    if ws != [] {
      DigitsOfKeys(ws[1..]);
      assert ws == [ws[0]] + ws[1..];
    }
  }

  function Larger(a: nat, b: nat): nat
  {
    if a >= b then a else b
  }

  /** `max(s)`. */
  function MaxOf(s: seq<nat>): nat
    requires s != []
  {
    if |s| == 1 then s[0] else Larger(s[0], MaxOf(s[1..]))
  }

  /** The maximum is an element and bounds every element. */
  lemma {:induction false} MaxOfIsMax(s: seq<nat>)
    requires s != []
    ensures MaxOf(s) in s
    ensures forall i :: 0 <= i < |s| ==> s[i] <= MaxOf(s)
  {
    if |s| > 1 {
      MaxOfIsMax(s[1..]);
      assert forall i :: 1 <= i < |s| ==> s[i] == s[1..][i - 1];
    }
  }

  /** `sum(s)`. */
  function SumOf(s: seq<nat>): nat
  {
    if s == [] then 0 else s[0] + SumOf(s[1..])
  }

  /** `n ** 2`, kept behind a name so that contracts mentioning the
      estimate do not hand products to the nonlinear arithmetic solver. */
  function Square(n: nat): nat
  {
    n * n
  }

  /** `_estimate_max_reachable_value`: ten times the largest digit, raised
      to five times the digit sum when `+` works, and to the square of the
      largest digit when `*` works and two digits do. */
  function Estimate(digits: seq<nat>, ops: seq<char>): (r: nat)
    requires digits != []
    ensures r >= 10 * MaxOf(digits)
    ensures '+' in ops ==> r >= 5 * SumOf(digits)
    ensures '*' in ops && |digits| >= 2 ==> r >= Square(MaxOf(digits))
    ensures || r == 10 * MaxOf(digits)
            || ('+' in ops && r == 5 * SumOf(digits))
            || ('*' in ops && |digits| >= 2 && r == Square(MaxOf(digits)))
  {
    var m := MaxOf(digits);
    var e := m * 10;
    var e := if '+' in ops then Larger(e, SumOf(digits) * 5) else e;
    if '*' in ops && |digits| >= 2 then Larger(e, Square(m)) else e
  }

  /** `validate_solvable`: some digit and some operator must work, and the
      estimate must reach the target. */
  function ValidateSolvable(target: int, broken: seq<char>): bool
  {
    var ws := Working(broken);
    var ds, os := DigitsOf(ws), OperatorsOf(ws);
    if ds == [] || os == [] then false
    else Estimate(ds, os) >= target
  }
}

=== FILE: canonical.dfy ===
/** `_get_canonical_form`: a string that forgets the order and grouping of
    the operands of a `+` chain or a `*` chain and keeps everything else. */
module Canonical {
  import opened Wrappers
  import opened Text
  import opened Ordering
  import opened Syntax
  import opened Parser

  /** The symbol a binary node is written with. The source looks `**` and
      `//` up in a table that lacks them and so writes Python's `None`. */
  function Symbol(op: BinOp): string
  {
    match op
    case Add => "+"
    case Sub => "-"
    case Mult => "*"
    case Div => "/"
    case Pow => "None"
    case FloorDiv => "None"
  }

  /** `+` and `*` are the operators whose chains are flattened and sorted. */
  predicate Commutative(op: BinOp)
  {
    op == Add || op == Mult
  }

  /** Canonical string of a tree. A number is its decimal text, a negation
      `(-X)`, a unary plus `(X)` (its symbol is missing from the source's
      table), a `+`/`*` node the sorted canonical strings of its maximal
      same-operator chain joined by the symbol in parentheses, any other
      binary node `(L op R)` in source order, and a Tuple or Call the empty
      string. */
  function Canon(e: Expr): (r: string)
    ensures r == [] <==> e.Other?
    decreases e, 0
  {
    match e
    case Num(n) => NatToString(n)
    case Unary(u, x) => "(" + (if u == USub then "-" else "") + Canon(x) + ")"
    case Bin(op, l, r) =>
      if Commutative(op) then
        "(" + Join(Sort(Chain(op, l) + Chain(op, r)), Symbol(op)) + ")"
      else "(" + Canon(l) + Symbol(op) + Canon(r) + ")"
    case Other(_) => ""
  }

  /** Canonical strings of the operands of the maximal chain of `op` nodes
      rooted at `e`, left to right (`_collect_operands`). */
  function Chain(op: BinOp, e: Expr): (r: seq<string>)
    ensures |r| >= 1
    decreases e, 1
  {
    if e.Bin? && e.op == op then Chain(op, e.left) + Chain(op, e.right)
    else [Canon(e)]
  }

  /** Canonical form of a text: the canonical string of its tree, or the text
      with its spaces removed when it does not parse. */
  function CanonicalForm(s: string): string
  {
    match Parse(s)
    case Some(e) => Canon(e)
    case None => RemoveSpaces(s)
  }

  /** The canonical string of a `+`/`*` node depends only on the multiset of
      canonical strings of its chain's operands: it does not change when that
      chain is reordered or regrouped. */
  lemma ChainInvariant(op: BinOp, x: Expr, y: Expr)
    requires Commutative(op)
    requires x.Bin? && x.op == op && y.Bin? && y.op == op
    requires multiset(Chain(op, x)) == multiset(Chain(op, y))
    ensures Canon(x) == Canon(y)
  {
    SortPermutationInvariant(Chain(op, x), Chain(op, y));
  }

  /** Swapping the operands of `+` or `*` keeps the canonical string. */
  lemma CanonCommutes(op: BinOp, a: Expr, b: Expr)
    requires Commutative(op)
    ensures Canon(Bin(op, a, b)) == Canon(Bin(op, b, a))
  {
    assert multiset(Chain(op, a) + Chain(op, b)) == multiset(Chain(op, b) + Chain(op, a));
    ChainInvariant(op, Bin(op, a, b), Bin(op, b, a));
  }

  /** Regrouping `(a op b) op c` as `a op (b op c)` keeps the canonical string. */
  lemma CanonRegroups(op: BinOp, a: Expr, b: Expr, c: Expr)
    requires Commutative(op)
    ensures Canon(Bin(op, Bin(op, a, b), c)) == Canon(Bin(op, a, Bin(op, b, c)))
  {
    var x, y := Bin(op, Bin(op, a, b), c), Bin(op, a, Bin(op, b, c));
    assert Chain(op, x) == Chain(op, a) + Chain(op, b) + Chain(op, c);
    assert Chain(op, y) == Chain(op, a) + (Chain(op, b) + Chain(op, c));
    ChainInvariant(op, x, y);
  }

  /** Decimal texts of different numbers differ. */
  lemma NumeralInjective(n: nat, m: nat)
    requires NatToString(n) == NatToString(m)
    ensures n == m
  {
    assert DecimalValue(NatToString(n)) == n;
  }

  /** Where the shorter of two numerals ends, the other text still has a
      digit, so two texts that differ only by swapping numerals of
      different lengths around a symbol differ at that position. */
  lemma SwappedDiffer(a: string, sym: string, b: string)
    requires forall k :: 0 <= k < |a| ==> IsDigit(a[k])
    requires forall k :: 0 <= k < |b| ==> IsDigit(b[k])
    requires sym != [] && !IsDigit(sym[0])
    ensures |a| < |b| ==> ("(" + a + sym + b + ")")[1 + |a|] != ("(" + b + sym + a + ")")[1 + |a|]
  {
    if |a| < |b| {
      assert ("(" + a + sym + b + ")")[1 + |a|] == sym[0];
      assert ("(" + b + sym + a + ")")[1 + |a|] == b[|a|];
    }
  }

  /** `-` and `/` keep their operands in place: swapping two different
      numbers changes the canonical string. */
  lemma CanonOrderSensitive(op: BinOp, n: nat, m: nat)
    requires op == Sub || op == Div
    requires Canon(Bin(op, Num(n), Num(m))) == Canon(Bin(op, Num(m), Num(n)))
    ensures n == m
  {
    var a, b := NatToString(n), NatToString(m);
    assert "(" + a + Symbol(op) + b + ")" == "(" + b + Symbol(op) + a + ")";
    SwapFixed(a, Symbol(op), b);
    NumeralInjective(n, m);
  }

  /** Two numerals that can be swapped around a symbol without changing
      the text are the same numeral. */
  lemma SwapFixed(a: string, sym: string, b: string)
    requires forall k :: 0 <= k < |a| ==> IsDigit(a[k])
    requires forall k :: 0 <= k < |b| ==> IsDigit(b[k])
    requires sym != [] && !IsDigit(sym[0])
    requires "(" + a + sym + b + ")" == "(" + b + sym + a + ")"
    ensures a == b
  {
    SwapSameLength(a, sym, b);
    OpenedSlice(a, sym, b);
    OpenedSlice(b, sym, a);
  }

  lemma SwapSameLength(a: string, sym: string, b: string)
    requires forall k :: 0 <= k < |a| ==> IsDigit(a[k])
    requires forall k :: 0 <= k < |b| ==> IsDigit(b[k])
    requires sym != [] && !IsDigit(sym[0])
    requires "(" + a + sym + b + ")" == "(" + b + sym + a + ")"
    ensures |a| == |b|
  {
    SwappedDiffer(a, sym, b);
    SwappedDiffer(b, sym, a);
  }

  lemma OpenedSlice(a: string, sym: string, b: string)
    ensures ("(" + a + sym + b + ")")[1..1 + |a|] == a
  {
    assert "(" + a + sym + b + ")" == "(" + a + (sym + b + ")");
  }
}

=== FILE: canonical_laws.dfy ===
/** Reading a canonical string back. For a tree of numbers and the table's
    operators the canonical string parses to a tree whose canonical string
    is the same text, so taking the canonical form twice changes nothing.
    With a unary plus that fails: `+2` gives `(2)`, and `(2)` gives `2`. */
module CanonicalLaws {
  import opened Wrappers
  import opened Text
  import opened Ordering
  import opened Syntax
  import opened Lexer
  import opened Spelling
  import opened Parser
  import opened Grammar
  import opened Reading
  import opened Printer
  import opened Written
  import opened Canonical
  import opened Evaluator

  /** The operand subtrees of the maximal chain of `op` nodes rooted at
      `e`, left to right: the trees whose canonical strings `Chain` lists. */
  function Members(op: BinOp, e: Expr): (r: seq<Expr>)
    ensures |r| >= 1
    ensures forall w | w in r :: !(w.Bin? && w.op == op)
  {
    if e.Bin? && e.op == op then Members(op, e.left) + Members(op, e.right) else [e]
  }

  function Canons(ws: seq<Expr>): (r: seq<string>)
    ensures |r| == |ws|
  {
    if ws == [] then [] else [Canon(ws[0])] + Canons(ws[1..])
  }

  lemma {:induction false} CanonsAppend(a: seq<Expr>, b: seq<Expr>)
    ensures Canons(a + b) == Canons(a) + Canons(b)
  {
    if a != [] {
      assert (a + b)[1..] == a[1..] + b;
      CanonsAppend(a[1..], b);
    } else {
      assert a + b == b;
    }
  }

  /** The canonical strings of a chain's members are the chain's strings. */
  lemma {:induction false} MembersSpellChain(op: BinOp, e: Expr)
    ensures Canons(Members(op, e)) == Chain(op, e)
  {
    if e.Bin? && e.op == op {
      MembersSpellChain(op, e.left);
      MembersSpellChain(op, e.right);
      CanonsAppend(Members(op, e.left), Members(op, e.right));
    }
  }

  /** Insertion of a tree by its canonical string, as `Insert` does for
      strings. */
  function InsertTree(x: Expr, xs: seq<Expr>): (r: seq<Expr>)
    ensures |r| == |xs| + 1
  {
    if xs == [] then [x]
    else if Below(Canon(x), Canon(xs[0])) then [x] + xs
    else [xs[0]] + InsertTree(x, xs[1..])
  }

  /** Trees in the order of their canonical strings. */
  function SortTrees(xs: seq<Expr>): (r: seq<Expr>)
    ensures |r| == |xs|
  {
    if xs == [] then [] else InsertTree(xs[0], SortTrees(xs[1..]))
  }

  lemma {:induction false} InsertTreeSpells(x: Expr, xs: seq<Expr>)
    ensures Canons(InsertTree(x, xs)) == Insert(Canon(x), Canons(xs))
  {
    if xs != [] {
      if Below(Canon(x), Canon(xs[0])) {
        CanonsAppend([x], xs);
      } else {
        InsertTreeSpells(x, xs[1..]);
        InsertBehindSpells(x, xs);
      }
    }
  }

  lemma InsertBehindSpells(x: Expr, xs: seq<Expr>)
    requires xs != [] && !Below(Canon(x), Canon(xs[0]))
    requires Canons(InsertTree(x, xs[1..])) == Insert(Canon(x), Canons(xs[1..]))
    ensures Canons(InsertTree(x, xs)) == Insert(Canon(x), Canons(xs))
  {
    assert Canons(xs)[1..] == Canons(xs[1..]);
    CanonsAppend([xs[0]], InsertTree(x, xs[1..]));
  }

  lemma {:induction false} InsertTreeKeeps(x: Expr, xs: seq<Expr>)
    ensures multiset(InsertTree(x, xs)) == multiset(xs) + multiset{x}
  {
    if xs == [] {
    } else if Below(Canon(x), Canon(xs[0])) {
      assert InsertTree(x, xs) == [x] + xs;
    } else {
      InsertTreeKeeps(x, xs[1..]);
      assert InsertTree(x, xs) == [xs[0]] + InsertTree(x, xs[1..]);
      assert xs == [xs[0]] + xs[1..];
    }
  }

  /** Sorting trees by canonical string sorts their canonical strings and
      keeps the trees. */
  lemma {:induction false} SortTreesSpells(xs: seq<Expr>)
    ensures Canons(SortTrees(xs)) == Sort(Canons(xs))
    ensures multiset(SortTrees(xs)) == multiset(xs)
  {
    if xs != [] {
      SortTreesSpells(xs[1..]);
      InsertTreeSpells(xs[0], SortTrees(xs[1..]));
      InsertTreeKeeps(xs[0], SortTrees(xs[1..]));
      assert Canons(xs)[1..] == Canons(xs[1..]);
      assert xs == [xs[0]] + xs[1..];
    }
  }

  /** `w1 op w2 op … op wn`, grouped from the left as the parser groups it. */
  function Fold(op: BinOp, ws: seq<Expr>): (r: Expr)
    requires |ws| >= 1
    ensures |ws| >= 2 ==> r.Bin? && r.op == op
  {
    if |ws| == 1 then ws[0] else Bin(op, Fold(op, ws[..|ws| - 1]), ws[|ws| - 1])
  }

  /** A fold of trees that are not `op` nodes has those trees as its chain. */
  lemma {:induction false} FoldChain(op: BinOp, ws: seq<Expr>)
    requires |ws| >= 1
    requires forall w | w in ws :: !(w.Bin? && w.op == op)
    ensures Chain(op, Fold(op, ws)) == Canons(ws)
  {
    if |ws| >= 2 {
      var front := ws[..|ws| - 1];
      FoldChain(op, front);
      assert ws == front + [ws[|ws| - 1]];
      CanonsAppend(front, [ws[|ws| - 1]]);
    }
  }

  /** The tree the parser builds from the canonical string of `e`: every
      `+`/`*` chain flattened, its operands put in canonical order and
      grouped from the left. */
  function Normalise(e: Expr): (t: Expr)
    ensures t.Bin? <==> e.Bin?
    ensures t.Bin? ==> t.op == e.op
  {
    match e
    case Num(_) => e
    case Unary(u, x) => Unary(u, Normalise(x))
    case Bin(op, l, r) =>
      if Commutative(op) then
        Fold(op, SortTrees(Members(op, Normalise(l)) + Members(op, Normalise(r))))
      else Bin(op, Normalise(l), Normalise(r))
    case Other(_) => e
  }

  /** The trees that read back from their own canonical string: numbers,
      negations and the table's binary operators, with every `+`/`*` chain
      grouped from the left and its operands in canonical order. */
  predicate Normal(t: Expr)
  {
    match t
    case Num(_) => true
    case Unary(u, x) => u == USub && Normal(x)
    case Bin(op, l, r) =>
      && InTable(BinKind(op)) && Normal(l) && Normal(r)
      && (Commutative(op) ==> !(r.Bin? && r.op == op) && Sorted(Chain(op, l) + Chain(op, r)))
    case Other(_) => false
  }

  /** Every member of a normal tree's chain is normal. */
  lemma {:induction false} MembersNormal(op: BinOp, t: Expr)
    requires Normal(t)
    ensures forall w | w in Members(op, t) :: Normal(w)
  {
    if t.Bin? && t.op == op {
      MembersNormal(op, t.left);
      MembersNormal(op, t.right);
    }
  }

  /** Normal trees that are not `op` nodes, in canonical order, fold into a
      normal tree. */
  lemma {:induction false} FoldNormal(op: BinOp, ws: seq<Expr>)
    requires Commutative(op) && |ws| >= 1
    requires forall w | w in ws :: Normal(w) && !(w.Bin? && w.op == op)
    requires Sorted(Canons(ws))
    ensures Normal(Fold(op, ws))
  {
    if |ws| >= 2 {
      var front, last := ws[..|ws| - 1], ws[|ws| - 1];
      assert ws == front + [last];
      CanonsAppend(front, [last]);
      assert Canons([last]) == [Canon(last)];
      SortedPrefix(Canons(front), [Canon(last)]);
      assert last in ws;
      FoldNormal(op, front);
      FoldChain(op, front);
      FoldStep(op, Fold(op, front), last);
      FoldLast(op, ws);
    }
  }

  /** One more operand at the right end of a normal chain. */
  lemma FoldStep(op: BinOp, f: Expr, last: Expr)
    requires Commutative(op) && Normal(f) && Normal(last) && !(last.Bin? && last.op == op)
    requires Sorted(Chain(op, f) + Chain(op, last))
    ensures Normal(Bin(op, f, last))
  {
  }

  /** The last step of a fold of two or more trees. */
  lemma FoldLast(op: BinOp, ws: seq<Expr>)
    requires |ws| >= 2
    ensures Fold(op, ws) == Bin(op, Fold(op, ws[..|ws| - 1]), ws[|ws| - 1])
  {
  }

  lemma SortedPrefix(a: seq<string>, b: seq<string>)
    requires Sorted(a + b)
    ensures Sorted(a)
  {
    forall i, j | 0 <= i < j < |a| ensures Below(a[i], a[j]) {
      assert (a + b)[i] == a[i] && (a + b)[j] == a[j];
    }
  }

  /** Sorting the members of two chains of `op`. */
  lemma SortedMembers(op: BinOp, l: Expr, r: Expr)
    ensures var xs := Members(op, l) + Members(op, r);
      forall w | w in SortTrees(xs) :: w in Members(op, l) || w in Members(op, r)
    ensures Sorted(Canons(SortTrees(Members(op, l) + Members(op, r))))
  {
    var xs := Members(op, l) + Members(op, r);
    SortTreesSpells(xs);
    SortSorts(Canons(xs));
    forall w | w in SortTrees(xs) ensures w in Members(op, l) || w in Members(op, r) {
      assert w in multiset(SortTrees(xs));
    }
  }

  /** Normalising a tree of numbers and table operators gives a normal tree. */
  lemma {:induction false} NormaliseNormal(e: Expr)
    requires Arithmetic(e)
    ensures Normal(Normalise(e))
  {
    match e
    case Num(_) =>
    case Unary(u, x) =>
      NormaliseNormal(x);
    case Bin(op, l, r) =>
      NormaliseNormal(l);
      NormaliseNormal(r);
      if Commutative(op) {
        var nl, nr := Normalise(l), Normalise(r);
        MembersNormal(op, nl);
        MembersNormal(op, nr);
        SortedMembers(op, nl, nr);
        FoldNormal(op, SortTrees(Members(op, nl) + Members(op, nr)));
      }
  }

  /** The chain of a normalised `op` node holds the same strings as the
      chains of the normalised operands together. */
  lemma FoldedChain(op: BinOp, l: Expr, r: Expr)
    requires Commutative(op)
    ensures multiset(Chain(op, Normalise(Bin(op, l, r))))
         == multiset(Chain(op, Normalise(l)) + Chain(op, Normalise(r)))
  {
    var nl, nr := Normalise(l), Normalise(r);
    var xs := Members(op, nl) + Members(op, nr);
    assert Normalise(Bin(op, l, r)) == Fold(op, SortTrees(xs));
    SortedFoldChain(op, xs);
    CanonsAppend(Members(op, nl), Members(op, nr));
    MembersSpellChain(op, nl);
    MembersSpellChain(op, nr);
  }

  /** Folding sorted trees that are not `op` nodes keeps their strings. */
  lemma SortedFoldChain(op: BinOp, xs: seq<Expr>)
    requires |xs| >= 1
    requires forall w | w in xs :: !(w.Bin? && w.op == op)
    ensures multiset(Chain(op, Fold(op, SortTrees(xs)))) == multiset(Canons(xs))
  {
    SortTreesSpells(xs);
    SortSorts(Canons(xs));
    forall w | w in SortTrees(xs) ensures !(w.Bin? && w.op == op) {
      assert w in multiset(SortTrees(xs));
    }
    FoldChain(op, SortTrees(xs));
  }

  /** Normalising keeps the canonical string. */
  lemma {:induction false} CanonKept(e: Expr)
    ensures Canon(Normalise(e)) == Canon(e)
    decreases e, 0
  {
    match e
    case Num(_) =>
    case Unary(u, x) =>
      CanonKept(x);
    case Bin(op, l, r) =>
      if Commutative(op) {
        ChainKept(op, l);
        ChainKept(op, r);
        FoldedChain(op, l, r);
        ChainInvariant(op, Normalise(e), e);
      } else {
        CanonKept(l);
        CanonKept(r);
      }
    case Other(_) =>
  }

  /** Normalising keeps the strings of every `+`/`*` chain, up to order. */
  lemma {:induction false} ChainKept(op: BinOp, e: Expr)
    requires Commutative(op)
    ensures multiset(Chain(op, Normalise(e))) == multiset(Chain(op, e))
    decreases e, 1
  {
    if e.Bin? && e.op == op {
      ChainKept(op, e.left);
      ChainKept(op, e.right);
      FoldedChain(op, e.left, e.right);
    } else {
      CanonKept(e);
    }
  }

  /** The tokens of a tree written as its canonical string: a `+`/`*` chain
      in one pair of parentheses, everything else as `Canon` writes it. */
  function CanonTokens(t: Expr): seq<Token>
    decreases t, 0
  {
    match t
    case Num(n) => [TNum(n)]
    case Unary(u, x) => [TLParen] + (if u == USub then [TMinus] else []) + CanonTokens(x) + [TRParen]
    case Bin(op, l, r) =>
      if Commutative(op) then [TLParen] + Links(op, l) + [OpToken(op)] + Links(op, r) + [TRParen]
      else [TLParen] + CanonTokens(l) + [OpToken(op)] + CanonTokens(r) + [TRParen]
    case Other(_) => []
  }

  /** The operands of the `op` chain at `t` written between `op` tokens. */
  function Links(op: BinOp, t: Expr): seq<Token>
    decreases t, 1
  {
    if t.Bin? && t.op == op then Links(op, t.left) + [OpToken(op)] + Links(op, t.right)
    else CanonTokens(t)
  }

  lemma JoinAppend(a: seq<string>, b: seq<string>, sep: string)
    requires a != [] && b != []
    ensures Join(a + b, sep) == Join(a, sep) + sep + Join(b, sep)
  {
    if |a| > 1 {
      JoinAppend(a[1..], b, sep);
      assert (a + b)[1..] == a[1..] + b;
    }
  }

  lemma OperatorSpelling(op: BinOp)
    requires InTable(BinKind(op))
    ensures SpellOne(OpToken(op)) == Symbol(op)
  {
  }

  lemma SpellFive(a: seq<Token>, b: seq<Token>, c: seq<Token>, d: seq<Token>, e: seq<Token>)
    ensures Spell(a + b + c + d + e) == Spell(a) + Spell(b) + Spell(c) + Spell(d) + Spell(e)
  {
    SpellTwo(a + b, c, d, e);
    SpellAppend(a, b);
  }

  /** A normal tree's tokens spell its canonical string. */
  lemma {:induction false} SpellCanonTokens(t: Expr)
    requires Normal(t)
    ensures Spell(CanonTokens(t)) == Canon(t)
    decreases t, 0
  {
    match t
    case Num(n) =>
      SpellSingle(TNum(n));
    case Unary(u, x) =>
      SpellCanonTokens(x);
      SpellNegation(x);
    case Bin(op, l, r) =>
      if Commutative(op) {
        SpellLinks(op, l);
        SpellLinks(op, r);
        SpellChainNode(op, l, r);
      } else {
        SpellCanonTokens(l);
        SpellCanonTokens(r);
        SpellPlainNode(op, l, r);
      }
  }

  lemma SpellNegation(x: Expr)
    requires Spell(CanonTokens(x)) == Canon(x)
    ensures Spell(CanonTokens(Unary(USub, x))) == Canon(Unary(USub, x))
  {
    SpellTwo([TLParen], [TMinus], CanonTokens(x), [TRParen]);
    SpellSingle(TLParen);
    SpellSingle(TMinus);
    SpellSingle(TRParen);
  }

  lemma SpellPlainNode(op: BinOp, l: Expr, r: Expr)
    requires InTable(BinKind(op)) && !Commutative(op)
    requires Spell(CanonTokens(l)) == Canon(l) && Spell(CanonTokens(r)) == Canon(r)
    ensures Spell(CanonTokens(Bin(op, l, r))) == Canon(Bin(op, l, r))
  {
    OperatorSpelling(op);
    NodeTokens(op, l, r);
    SpellWrapped(CanonTokens(l), OpToken(op), CanonTokens(r));
    Bracketed(Canon(l), Symbol(op), Canon(r));
  }

  lemma SpellChainNode(op: BinOp, l: Expr, r: Expr)
    requires Commutative(op) && Sorted(Chain(op, l) + Chain(op, r))
    requires Spell(Links(op, l)) == Join(Chain(op, l), Symbol(op))
    requires Spell(Links(op, r)) == Join(Chain(op, r), Symbol(op))
    ensures Spell(CanonTokens(Bin(op, l, r))) == Canon(Bin(op, l, r))
  {
    var a, b, sym := Chain(op, l), Chain(op, r), Symbol(op);
    OperatorSpelling(op);
    NodeTokens(op, l, r);
    SpellWrapped(Links(op, l), OpToken(op), Links(op, r));
    JoinSorted(a, b, sym);
    Bracketed(Join(a, sym), sym, Join(b, sym));
    assert Canon(Bin(op, l, r)) == "(" + Join(Sort(a + b), sym) + ")";
  }

  lemma Bracketed(x: string, sym: string, y: string)
    ensures "(" + (x + sym + y) + ")" == "(" + x + sym + y + ")"
  {
  }

  /** Joining a sorted list after sorting it, split at a seam. */
  lemma JoinSorted(a: seq<string>, b: seq<string>, sym: string)
    requires a != [] && b != [] && Sorted(a + b)
    ensures Join(Sort(a + b), sym) == Join(a, sym) + sym + Join(b, sym)
  {
    SortOfSorted(a + b);
    JoinAppend(a, b, sym);
  }

  /** `(` a o b `)` spelled part by part. */
  lemma SpellWrapped(a: seq<Token>, o: Token, b: seq<Token>)
    ensures Spell([TLParen] + (a + [o] + b) + [TRParen]) == "(" + (Spell(a) + SpellOne(o) + Spell(b)) + ")"
  {
    var inner := a + [o] + b;
    SpellAppend([TLParen] + inner, [TRParen]);
    SpellAppend([TLParen], inner);
    SpellAppend(a + [o], b);
    SpellAppend(a, [o]);
    SpellSingle(TLParen);
    SpellSingle(o);
    SpellSingle(TRParen);
  }

  /** The links of a normal tree spell its chain joined by the symbol. */
  lemma {:induction false} SpellLinks(op: BinOp, t: Expr)
    requires Normal(t) && InTable(BinKind(op))
    ensures Spell(Links(op, t)) == Join(Chain(op, t), Symbol(op))
    decreases t, 1
  {
    if t.Bin? && t.op == op {
      SpellLinks(op, t.left);
      SpellLinks(op, t.right);
      SpellTwo(Links(op, t.left), [OpToken(op)], Links(op, t.right), []);
      assert Links(op, t) + [] == Links(op, t);
      SpellSingle(OpToken(op));
      OperatorSpelling(op);
      JoinAppend(Chain(op, t.left), Chain(op, t.right), Symbol(op));
    } else {
      SpellCanonTokens(t);
    }
  }

  /** Two balanced lists joined by a binary operator token. */
  lemma JoinShaped(a: seq<Token>, o: Token, b: seq<Token>, depth: nat)
    requires Shaped(a, depth) && Shaped(b, depth)
    requires o == TPlus || o == TMinus || o == TStar || o == TSlash
    ensures Shaped(a + [o] + b, depth)
  {
    assert [o][1..] == [];
    assert Spellable([o], depth);
    DepthAllOne(o, depth);
    SpellableAppend(a, [o], depth);
    DepthAllAppend(a, [o], depth);
    SpellableAppend(a + [o], b, depth);
    DepthAllAppend(a + [o], b, depth);
  }

  /** A balanced list in parentheses, with or without a minus sign in front. */
  lemma WrapShaped(front: seq<Token>, x: seq<Token>, depth: nat)
    requires front == [TLParen] || front == [TLParen, TMinus]
    requires Shaped(x, depth + 1)
    ensures Shaped(front + x + [TRParen], depth)
  {
    if front == [TLParen] {
      DepthAllOne(TLParen, depth);
    } else {
      assert front[1..] == [TMinus] && [TMinus][1..] == [];
      DepthAllOne(TMinus, depth + 1);
    }
    assert Spellable(front, depth);
    AppendShaped(front, x, depth);
    CloseShaped(front + x, depth);
  }

  /** The tokens of a normal tree open with a number or `(`, close with a
      number or `)`, and are balanced. */
  lemma {:induction false} CanonTokensShape(t: Expr, depth: nat)
    requires Normal(t)
    ensures Shaped(CanonTokens(t), depth)
    decreases t, 0
  {
    match t
    case Num(n) =>
      assert [TNum(n)][1..] == [];
      DepthAllOne(TNum(n), depth);
    case Unary(u, x) =>
      CanonTokensShape(x, depth + 1);
      NegationShape(x, depth);
    case Bin(op, l, r) =>
      if Commutative(op) {
        LinksShape(op, l, depth + 1);
        LinksShape(op, r, depth + 1);
        ChainNodeShape(op, l, r, depth);
      } else {
        CanonTokensShape(l, depth + 1);
        CanonTokensShape(r, depth + 1);
        PlainNodeShape(op, l, r, depth);
      }
  }

  lemma ChainNodeShape(op: BinOp, l: Expr, r: Expr, depth: nat)
    requires Commutative(op)
    requires Shaped(Links(op, l), depth + 1) && Shaped(Links(op, r), depth + 1)
    ensures Shaped(CanonTokens(Bin(op, l, r)), depth)
  {
    NodeShape(Links(op, l), OpToken(op), Links(op, r), depth);
    NodeTokens(op, l, r);
  }

  lemma PlainNodeShape(op: BinOp, l: Expr, r: Expr, depth: nat)
    requires InTable(BinKind(op)) && !Commutative(op)
    requires Shaped(CanonTokens(l), depth + 1) && Shaped(CanonTokens(r), depth + 1)
    ensures Shaped(CanonTokens(Bin(op, l, r)), depth)
  {
    var o := OpToken(op);
    assert o == TMinus || o == TSlash;
    NodeShape(CanonTokens(l), o, CanonTokens(r), depth);
    NodeTokens(op, l, r);
  }

  /** The tokens of a binary node: its two sides, or its two sides' links,
      around the operator, in parentheses. */
  lemma NodeTokens(op: BinOp, l: Expr, r: Expr)
    ensures Commutative(op) ==>
      CanonTokens(Bin(op, l, r)) == [TLParen] + (Links(op, l) + [OpToken(op)] + Links(op, r)) + [TRParen]
    ensures !Commutative(op) ==>
      CanonTokens(Bin(op, l, r)) == [TLParen] + (CanonTokens(l) + [OpToken(op)] + CanonTokens(r)) + [TRParen]
  {
  }

  lemma NegationShape(x: Expr, depth: nat)
    requires Shaped(CanonTokens(x), depth + 1)
    ensures Shaped(CanonTokens(Unary(USub, x)), depth)
  {
    WrapShaped([TLParen, TMinus], CanonTokens(x), depth);
    assert CanonTokens(Unary(USub, x)) == [TLParen, TMinus] + CanonTokens(x) + [TRParen];
  }

  lemma NodeShape(a: seq<Token>, o: Token, b: seq<Token>, depth: nat)
    requires Shaped(a, depth + 1) && Shaped(b, depth + 1)
    requires o == TPlus || o == TMinus || o == TStar || o == TSlash
    ensures Shaped([TLParen] + (a + [o] + b) + [TRParen], depth)
  {
    JoinShaped(a, o, b, depth + 1);
    WrapShaped([TLParen], a + [o] + b, depth);
  }

  lemma {:induction false} LinksShape(op: BinOp, t: Expr, depth: nat)
    requires Normal(t) && InTable(BinKind(op))
    ensures Shaped(Links(op, t), depth)
    decreases t, 1
  {
    if t.Bin? && t.op == op {
      LinksShape(op, t.left, depth);
      LinksShape(op, t.right, depth);
      JoinShaped(Links(op, t.left), OpToken(op), Links(op, t.right), depth);
    } else {
      CanonTokensShape(t, depth);
    }
  }

  /** A normal tree's tokens, followed by anything but `(`, are read as that
      tree. */
  lemma {:induction false} ReadCanonTokens(t: Expr, rest: seq<Token>)
    requires Normal(t)
    requires rest == [] || rest[0] != TLParen
    ensures ParsePrimary(CanonTokens(t) + rest) == Some((t, rest))
    decreases t, 2
  {
    match t
    case Num(n) =>
      NumberPrimary(n, rest);
    case Unary(u, x) =>
      ReadCanonTokens(x, [TRParen] + rest);
      CanonTokensShape(x, 0);
      ReadNegation(x, rest);
    case Bin(op, l, r) =>
      if Commutative(op) {
        ReadChain(t, rest);
      } else {
        ReadCanonTokens(l, [OpToken(op)] + (CanonTokens(r) + ([TRParen] + rest)));
        ReadCanonTokens(r, [TRParen] + rest);
        CanonTokensShape(l, 0);
        CanonTokensShape(r, 0);
        ReadPlainNode(op, l, r, rest);
      }
  }

  lemma ReadNegation(x: Expr, rest: seq<Token>)
    requires rest == [] || rest[0] != TLParen
    requires Shaped(CanonTokens(x), 0)
    requires ParsePrimary(CanonTokens(x) + ([TRParen] + rest)) == Some((x, [TRParen] + rest))
    ensures ParsePrimary(CanonTokens(Unary(USub, x)) + rest) == Some((Unary(USub, x), rest))
  {
    var xs := CanonTokens(x);
    assert xs + ([TRParen] + rest) == xs + [TRParen] + rest;
    ParenthesisedSign(TMinus, xs, x, rest);
    assert CanonTokens(Unary(USub, x)) == [TLParen] + ([TMinus] + xs) + [TRParen];
  }

  lemma ReadPlainNode(op: BinOp, l: Expr, r: Expr, rest: seq<Token>)
    requires !Commutative(op)
    requires rest == [] || rest[0] != TLParen
    requires Shaped(CanonTokens(l), 0) && Shaped(CanonTokens(r), 0)
    requires ParsePrimary(CanonTokens(l) + ([OpToken(op)] + (CanonTokens(r) + ([TRParen] + rest))))
               == Some((l, [OpToken(op)] + (CanonTokens(r) + ([TRParen] + rest))))
    requires ParsePrimary(CanonTokens(r) + ([TRParen] + rest)) == Some((r, [TRParen] + rest))
    ensures ParsePrimary(CanonTokens(Bin(op, l, r)) + rest) == Some((Bin(op, l, r), rest))
  {
    var ls, rs := CanonTokens(l), CanonTokens(r);
    assert CanonTokens(Bin(op, l, r)) == [TLParen] + ls + [OpToken(op)] + rs + [TRParen];
    Regroup(ls, OpToken(op), rs, rest);
    ParenthesisedBinary(op, ls, l, rs, r, rest);
  }

  /** A normal `+`/`*` node: its links in parentheses are read as the node. */
  lemma ReadChain(t: Expr, rest: seq<Token>)
    requires Normal(t) && t.Bin? && Commutative(t.op)
    requires rest == [] || rest[0] != TLParen
    ensures ParsePrimary(CanonTokens(t) + rest) == Some((t, rest))
    decreases t, 1
  {
    var inner, closing := Links(t.op, t), [TRParen] + rest;
    LinksShape(t.op, t, 0);
    if t.op == Add {
      SumLinks(t, closing);
    } else {
      TermLinks(t, closing);
      ClosedSum(inner + closing, t, closing);
    }
    ChainTokens(t);
    assert inner + [TRParen] + rest == inner + closing;
    Parenthesised(inner, t, rest);
  }

  /** A `+`/`*` node is written as its links in parentheses. */
  lemma ChainTokens(t: Expr)
    requires t.Bin? && Commutative(t.op)
    ensures CanonTokens(t) == [TLParen] + Links(t.op, t) + [TRParen]
  {
  }

  /** A whole term before `)` is a whole sum. */
  lemma ClosedSum(ts: seq<Token>, t: Expr, closing: seq<Token>)
    requires closing != [] && closing[0] == TRParen
    requires ParseTerm(ts) == TermTail(t, closing)
    ensures ParseSum(ts) == Some((t, closing))
  {
    assert TermTail(t, closing) == Some((t, closing));
  }

  /** A normal tree written as a primary, before `+`, `*` or `)`, is a whole
      factor; before `+` or `)` a whole term. */
  lemma OperandRead(t: Expr, tail: seq<Token>)
    requires Normal(t)
    requires tail != [] && (tail[0] == TPlus || tail[0] == TStar || tail[0] == TRParen)
    ensures ParseFactor(CanonTokens(t) + tail) == Some((t, tail))
    ensures tail[0] != TStar ==> ParseTerm(CanonTokens(t) + tail) == Some((t, tail))
    decreases t, 3
  {
    ReadCanonTokens(t, tail);
    CanonTokensShape(t, 0);
    assert (CanonTokens(t) + tail)[0] == CanonTokens(t)[0];
    Lift(CanonTokens(t) + tail, t, tail);
  }

  /** A sum chain written out, then `+` or `)`: the parser reads the chain as
      one sum grouped from the left and carries on from there. */
  lemma {:induction false} SumLinks(t: Expr, tail: seq<Token>)
    requires Normal(t)
    requires tail != [] && (tail[0] == TPlus || tail[0] == TRParen)
    ensures ParseSum(Links(Add, t) + tail) == SumTail(t, tail)
    decreases t, if t.Bin? && t.op == Add then 0 else 4
  {
    if t.Bin? && t.op == Add {
      var a, b := t.left, t.right;
      var v := CanonTokens(b) + tail;
      SumLinks(a, [TPlus] + v);
      assert Links(Add, t) + tail == Links(Add, a) + ([TPlus] + v);
      OperandRead(b, tail);
      assert ([TPlus] + v)[1..] == v;
    } else {
      OperandRead(t, tail);
    }
  }

  /** A product chain written out, then `*` or `)`: read as one product
      grouped from the left. */
  lemma {:induction false} TermLinks(t: Expr, tail: seq<Token>)
    requires Normal(t)
    requires tail != [] && (tail[0] == TStar || tail[0] == TRParen)
    ensures ParseTerm(Links(Mult, t) + tail) == TermTail(t, tail)
    decreases t, if t.Bin? && t.op == Mult then 0 else 4
  {
    if t.Bin? && t.op == Mult {
      var a, b := t.left, t.right;
      var v := CanonTokens(b) + tail;
      TermLinks(a, [TStar] + v);
      assert Links(Mult, t) + tail == Links(Mult, a) + ([TStar] + v);
      OperandRead(b, tail);
      assert ([TStar] + v)[1..] == v;
    } else {
      OperandRead(t, tail);
    }
  }

  /** The canonical string of a normal tree parses back as that tree. */
  lemma ReadNormal(t: Expr)
    requires Normal(t)
    ensures Parse(Canon(t)) == Some(t)
  {
    CanonTokensShape(t, 0);
    SumOfCanonTokens(t);
    SpellCanonTokens(t);
    ParseOfSpelling(Canon(t), CanonTokens(t), t);
  }

  lemma SumOfCanonTokens(t: Expr)
    requires Normal(t)
    ensures ParseSum(CanonTokens(t)) == Some((t, []))
  {
    var ts := CanonTokens(t);
    CanonTokensShape(t, 0);
    ReadCanonTokens(t, []);
    assert ts + [] == ts;
    Lift(ts, t, []);
  }

  /** For a tree of numbers and table operators, the canonical string parses
      as the normalised tree, and the canonical form of the canonical string
      is that string itself. */
  lemma CanonIdempotent(e: Expr)
    requires Arithmetic(e)
    ensures Parse(Canon(e)) == Some(Normalise(e))
    ensures CanonicalForm(Canon(e)) == Canon(e)
  {
    NormaliseNormal(e);
    CanonKept(e);
    ReadNormal(Normalise(e));
  }

  /** A unary plus breaks that: `+2` is written `(2)`, whose canonical form
      is `2`. */
  lemma UnaryPlusUnstable()
    ensures CanonicalForm("+2") == "(2)"
    ensures CanonicalForm("(2)") == "2"
    ensures CanonicalForm(CanonicalForm("+2")) != CanonicalForm("+2")
  {
    ReadPlusTwo();
    ReadParenTwo();
    CanonOfTwos();
  }

  lemma CanonOfTwos()
    ensures Canon(Unary(UAdd, Num(2))) == "(2)" && Canon(Num(2)) == "2"
  {
    TwoSpelled();
    assert Canon(Unary(UAdd, Num(2))) == "(" + "2" + ")";
  }

  lemma TwoSpelled()
    ensures NatToString(2) == "2"
  {
  }

  lemma ReadPlusTwo()
    ensures Parse("+2") == Some(Unary(UAdd, Num(2)))
  {
    var plus := [TPlus, TNum(2)];
    NumberPrimary(2, []);
    assert [TNum(2)] + [] == [TNum(2)];
    Lift([TNum(2)], Num(2), []);
    SignFactor(TPlus, [TNum(2)], Num(2), []);
    assert plus == [TPlus] + [TNum(2)];
    FactorIsSum(plus, Unary(UAdd, Num(2)), []);
    SpellPlusTwo();
    ParseOfSpelling("+2", plus, Unary(UAdd, Num(2)));
  }

  lemma SpellPlusTwo()
    ensures Spellable([TPlus, TNum(2)], 0) && Spell([TPlus, TNum(2)]) == "+2"
  {
    var plus := [TPlus, TNum(2)];
    assert plus[1..] == [TNum(2)] && [TNum(2)][1..] == [];
    TwoSpelled();
  }

  lemma ReadParenTwo()
    ensures Parse("(2)") == Some(Num(2))
  {
    var paren := [TLParen, TNum(2), TRParen];
    NumberPrimary(2, [TRParen]);
    Lift([TNum(2)] + [TRParen], Num(2), [TRParen]);
    assert [TNum(2)] + [TRParen] + [] == [TNum(2)] + [TRParen] && [TRParen] + [] == [TRParen];
    Parenthesised([TNum(2)], Num(2), []);
    assert paren == [TLParen] + [TNum(2)] + [TRParen] + [];
    Lift(paren, Num(2), []);
    SpellParenTwo();
    ParseOfSpelling("(2)", paren, Num(2));
  }

  lemma SpellParenTwo()
    ensures Spellable([TLParen, TNum(2), TRParen], 0) && Spell([TLParen, TNum(2), TRParen]) == "(2)"
  {
    var paren := [TLParen, TNum(2), TRParen];
    assert paren[1..] == [TNum(2), TRParen] && paren[1..][1..] == [TRParen] && [TRParen][1..] == [];
    TwoSpelled();
  }

  /** An empty tuple inside a `+` chain breaks it too, with no unary plus in
      the text: its canonical string is empty, so the chain `1+()` is written
      `(+1)`, which reads as a unary plus, written `(1)`, which reads as the
      number 1, written `1`. */
  lemma EmptyTupleUnstable()
    ensures CanonicalForm("1+()") == "(+1)"
    ensures CanonicalForm("(+1)") == "(1)"
    ensures CanonicalForm("(1)") == "1"
  {
    ReadOnePlusTuple();
    CanonOfOnePlusTuple();
    ReadParenPlusOne();
    ReadParenOne();
    CanonOfOnes();
  }

  lemma CanonOfOnes()
    ensures Canon(Unary(UAdd, Num(1))) == "(1)" && Canon(Num(1)) == "1"
  {
    OneSpelled();
    assert Canon(Unary(UAdd, Num(1))) == "(" + "1" + ")";
  }

  lemma OneSpelled()
    ensures NatToString(1) == "1"
  {
  }

  lemma CanonOfOnePlusTuple()
    ensures Canon(Bin(Add, Num(1), Other(Tuple))) == "(+1)"
  {
    OneSpelled();
    var gathered := Chain(Add, Num(1)) + Chain(Add, Other(Tuple));
    assert gathered == ["1", ""];
    SortPermutationInvariant(gathered, ["", "1"]);
    SortOfSorted(["", "1"]);
    assert Join(["", "1"], "+") == "" + "+" + "1";
  }

  lemma ReadOnePlusTuple()
    ensures Parse("1+()") == Some(Bin(Add, Num(1), Other(Tuple)))
  {
    var sum := [TNum(1), TPlus, TLParen, TRParen];
    var tuple := [TLParen, TRParen];
    NumberPrimary(1, [TPlus] + tuple);
    assert sum == [TNum(1)] + ([TPlus] + tuple);
    TupleShown([]);
    assert tuple + [] == tuple;
    assert [TPlus] + tuple == [OpToken(Add)] + tuple;
    BinaryOfPrimaries(Add, sum, Num(1), tuple, Other(Tuple), []);
    SpellOnePlusTuple();
    ParseOfSpelling("1+()", sum, Bin(Add, Num(1), Other(Tuple)));
  }

  lemma SpellOnePlusTuple()
    ensures Spellable([TNum(1), TPlus, TLParen, TRParen], 0)
    ensures Spell([TNum(1), TPlus, TLParen, TRParen]) == "1+()"
  {
    var sum := [TNum(1), TPlus, TLParen, TRParen];
    assert sum[1..] == [TPlus, TLParen, TRParen] && sum[1..][1..] == [TLParen, TRParen];
    assert sum[1..][1..][1..] == [TRParen] && [TRParen][1..] == [];
    OneSpelled();
  }

  lemma ReadParenPlusOne()
    ensures Parse("(+1)") == Some(Unary(UAdd, Num(1)))
  {
    var paren := [TLParen, TPlus, TNum(1), TRParen];
    var inner := [TPlus, TNum(1)];
    NumberPrimary(1, [TRParen]);
    Lift([TNum(1)] + [TRParen], Num(1), [TRParen]);
    SignFactor(TPlus, [TNum(1)] + [TRParen], Num(1), [TRParen]);
    assert [TPlus] + ([TNum(1)] + [TRParen]) == inner + [TRParen] + [];
    FactorIsSum(inner + [TRParen] + [], Unary(UAdd, Num(1)), [TRParen]);
    assert [TRParen] + [] == [TRParen];
    Parenthesised(inner, Unary(UAdd, Num(1)), []);
    assert paren == [TLParen] + inner + [TRParen] + [];
    Lift(paren, Unary(UAdd, Num(1)), []);
    SpellParenPlusOne();
    ParseOfSpelling("(+1)", paren, Unary(UAdd, Num(1)));
  }

  lemma SpellParenPlusOne()
    ensures Spellable([TLParen, TPlus, TNum(1), TRParen], 0)
    ensures Spell([TLParen, TPlus, TNum(1), TRParen]) == "(+1)"
  {
    var paren := [TLParen, TPlus, TNum(1), TRParen];
    assert paren[1..] == [TPlus, TNum(1), TRParen] && paren[1..][1..] == [TNum(1), TRParen];
    assert paren[1..][1..][1..] == [TRParen] && [TRParen][1..] == [];
    OneSpelled();
  }

  lemma ReadParenOne()
    ensures Parse("(1)") == Some(Num(1))
  {
    var paren := [TLParen, TNum(1), TRParen];
    NumberPrimary(1, [TRParen]);
    Lift([TNum(1)] + [TRParen], Num(1), [TRParen]);
    assert [TNum(1)] + [TRParen] + [] == [TNum(1)] + [TRParen] && [TRParen] + [] == [TRParen];
    Parenthesised([TNum(1)], Num(1), []);
    assert paren == [TLParen] + [TNum(1)] + [TRParen] + [];
    Lift(paren, Num(1), []);
    SpellParenOne();
    ParseOfSpelling("(1)", paren, Num(1));
  }

  lemma SpellParenOne()
    ensures Spellable([TLParen, TNum(1), TRParen], 0) && Spell([TLParen, TNum(1), TRParen]) == "(1)"
  {
    var paren := [TLParen, TNum(1), TRParen];
    assert paren[1..] == [TNum(1), TRParen] && paren[1..][1..] == [TRParen] && [TRParen][1..] == [];
    OneSpelled();
  }
}

=== FILE: cases.dfy ===
/** The sample pairs the equivalence checker ships with, and the canonical
    strings its documentation gives, read from the literal texts. */
module Cases {
  import opened Wrappers
  import opened Text
  import opened Syntax
  import opened Lexer
  import opened Spelling
  import opened Parser
  import opened Reading
  import opened Grammar
  import opened Ordering
  import opened Canonical
  import opened Equivalence
  import opened Printer
  import opened Laws

  /** A text of one binary operator between two numbers. */
  lemma ReadsBinary(n: nat, op: BinOp, m: nat)
    ensures Parse(Spell([TNum(n), OpToken(op), TNum(m)])) == Some(Bin(op, Num(n), Num(m)))
  {
    var ts := [TNum(n), OpToken(op), TNum(m)];
    assert ts[1..] == [OpToken(op), TNum(m)] && ts[1..][1..] == [TNum(m)] && [TNum(m)][1..] == [];
    assert Spellable([TNum(m)], 0);
    assert Spellable(ts, 0);
    assert ts == [TNum(n)] + [OpToken(op), TNum(m)];
    assert [OpToken(op), TNum(m)] == [OpToken(op)] + [TNum(m)];
    NumberPrimary(n, [OpToken(op), TNum(m)]);
    NumberPrimary(m, []);
    assert [TNum(m)] + [] == [TNum(m)];
    BinaryOfPrimaries(op, ts, Num(n), [TNum(m)], Num(m), []);
    ParseOfSpelling(Spell(ts), ts, Bin(op, Num(n), Num(m)));
  }

  /** A text of two operators, neither of them `**`, between three numbers. */
  lemma ReadsThree(n1: nat, op1: BinOp, n2: nat, op2: BinOp, n3: nat)
    requires op1 != Pow && op2 != Pow
    ensures Parse(Spell([TNum(n1), OpToken(op1), TNum(n2), OpToken(op2), TNum(n3)])) ==
              Some(if Precedence(op2) > Precedence(op1)
                   then Bin(op1, Num(n1), Bin(op2, Num(n2), Num(n3)))
                   else Bin(op2, Bin(op1, Num(n1), Num(n2)), Num(n3)))
  {
    var ts := [TNum(n1), OpToken(op1), TNum(n2), OpToken(op2), TNum(n3)];
    assert ts[1..] == [OpToken(op1), TNum(n2), OpToken(op2), TNum(n3)];
    assert ts[1..][1..] == [TNum(n2), OpToken(op2), TNum(n3)];
    assert ts[1..][1..][1..] == [OpToken(op2), TNum(n3)];
    assert [OpToken(op2), TNum(n3)][1..] == [TNum(n3)] && [TNum(n3)][1..] == [];
    assert Spellable([TNum(n3)], 0);
    assert Spellable([OpToken(op2), TNum(n3)], 0);
    assert Spellable(ts[1..][1..], 0);
    assert Spellable(ts, 0);
    ThreeNumbers(n1, op1, n2, op2, n3);
    ParseOfSpelling(Spell(ts), ts, if Precedence(op2) > Precedence(op1)
                                   then Bin(op1, Num(n1), Bin(op2, Num(n2), Num(n3)))
                                   else Bin(op2, Bin(op1, Num(n1), Num(n2)), Num(n3)));
  }

  // Each literal text, spelled from its tokens and read.
  lemma Spell9Plus1() ensures Spell([TNum(9), OpToken(Add), TNum(1)]) == "9+1" {}

  lemma Read9Plus1()
    ensures Parse("9+1") == Some(Bin(Add, Num(9), Num(1)))
  {
    ReadsBinary(9, Add, 1);
    Spell9Plus1();
  }

  lemma Spell1Plus9() ensures Spell([TNum(1), OpToken(Add), TNum(9)]) == "1+9" {}

  lemma Read1Plus9()
    ensures Parse("1+9") == Some(Bin(Add, Num(1), Num(9)))
  {
    ReadsBinary(1, Add, 9);
    Spell1Plus9();
  }

  lemma Spell2Plus8() ensures Spell([TNum(2), OpToken(Add), TNum(8)]) == "2+8" {}

  lemma Read2Plus8()
    ensures Parse("2+8") == Some(Bin(Add, Num(2), Num(8)))
  {
    ReadsBinary(2, Add, 8);
    Spell2Plus8();
  }

  lemma Spell5Times2() ensures Spell([TNum(5), OpToken(Mult), TNum(2)]) == "5*2" {}

  lemma Read5Times2()
    ensures Parse("5*2") == Some(Bin(Mult, Num(5), Num(2)))
  {
    ReadsBinary(5, Mult, 2);
    Spell5Times2();
  }

  lemma Spell2Times5() ensures Spell([TNum(2), OpToken(Mult), TNum(5)]) == "2*5" {}

  lemma Read2Times5()
    ensures Parse("2*5") == Some(Bin(Mult, Num(2), Num(5)))
  {
    ReadsBinary(2, Mult, 5);
    Spell2Times5();
  }

  lemma Spell10Minus5() ensures Spell([TNum(10), OpToken(Sub), TNum(5)]) == "10-5" {}

  lemma Read10Minus5()
    ensures Parse("10-5") == Some(Bin(Sub, Num(10), Num(5)))
  {
    ReadsBinary(10, Sub, 5);
    Spell10Minus5();
  }

  lemma Spell5Minus10() ensures Spell([TNum(5), OpToken(Sub), TNum(10)]) == "5-10" {}

  lemma Read5Minus10()
    ensures Parse("5-10") == Some(Bin(Sub, Num(5), Num(10)))
  {
    ReadsBinary(5, Sub, 10);
    Spell5Minus10();
  }

  lemma Spell6Over2() ensures Spell([TNum(6), OpToken(Div), TNum(2)]) == "6/2" {}

  lemma Read6Over2()
    ensures Parse("6/2") == Some(Bin(Div, Num(6), Num(2)))
  {
    ReadsBinary(6, Div, 2);
    Spell6Over2();
  }

  lemma Spell2Times3() ensures Spell([TNum(2), OpToken(Mult), TNum(3)]) == "2*3" {}

  lemma Read2Times3()
    ensures Parse("2*3") == Some(Bin(Mult, Num(2), Num(3)))
  {
    ReadsBinary(2, Mult, 3);
    Spell2Times3();
  }

  lemma Spell3Plus2Times4() ensures Spell([TNum(3), OpToken(Add), TNum(2), OpToken(Mult), TNum(4)]) == "3+2*4" {}

  lemma Read3Plus2Times4()
    ensures Parse("3+2*4") == Some(Bin(Add, Num(3), Bin(Mult, Num(2), Num(4))))
  {
    ReadsThree(3, Add, 2, Mult, 4);
    Spell3Plus2Times4();
  }

  lemma Spell2Times4Plus3() ensures Spell([TNum(2), OpToken(Mult), TNum(4), OpToken(Add), TNum(3)]) == "2*4+3" {}

  lemma Read2Times4Plus3()
    ensures Parse("2*4+3") == Some(Bin(Add, Bin(Mult, Num(2), Num(4)), Num(3)))
  {
    ReadsThree(2, Mult, 4, Add, 3);
    Spell2Times4Plus3();
  }

  lemma Spell2Times3Plus4() ensures Spell([TNum(2), OpToken(Mult), TNum(3), OpToken(Add), TNum(4)]) == "2*3+4" {}

  lemma Read2Times3Plus4()
    ensures Parse("2*3+4") == Some(Bin(Add, Bin(Mult, Num(2), Num(3)), Num(4)))
  {
    ReadsThree(2, Mult, 3, Add, 4);
    Spell2Times3Plus4();
  }

  lemma Spell3Times2Plus4() ensures Spell([TNum(3), OpToken(Mult), TNum(2), OpToken(Add), TNum(4)]) == "3*2+4" {}

  lemma Read3Times2Plus4()
    ensures Parse("3*2+4") == Some(Bin(Add, Bin(Mult, Num(3), Num(2)), Num(4)))
  {
    ReadsThree(3, Mult, 2, Add, 4);
    Spell3Times2Plus4();
  }

  lemma Spell9Plus1Plus9() ensures Spell([TNum(9), OpToken(Add), TNum(1), OpToken(Add), TNum(9)]) == "9+1+9" {}

  lemma Read9Plus1Plus9()
    ensures Parse("9+1+9") == Some(Bin(Add, Bin(Add, Num(9), Num(1)), Num(9)))
  {
    ReadsThree(9, Add, 1, Add, 9);
    Spell9Plus1Plus9();
  }

  lemma Spell9Plus9Plus1() ensures Spell([TNum(9), OpToken(Add), TNum(9), OpToken(Add), TNum(1)]) == "9+9+1" {}

  lemma Read9Plus9Plus1()
    ensures Parse("9+9+1") == Some(Bin(Add, Bin(Add, Num(9), Num(9)), Num(1)))
  {
    ReadsThree(9, Add, 9, Add, 1);
    Spell9Plus9Plus1();
  }

  lemma Spell5Times2Plus3() ensures Spell([TNum(5), OpToken(Mult), TNum(2), OpToken(Add), TNum(3)]) == "5*2+3" {}

  lemma Read5Times2Plus3()
    ensures Parse("5*2+3") == Some(Bin(Add, Bin(Mult, Num(5), Num(2)), Num(3)))
  {
    ReadsThree(5, Mult, 2, Add, 3);
    Spell5Times2Plus3();
  }

  lemma Spell3Plus2Times5() ensures Spell([TNum(3), OpToken(Add), TNum(2), OpToken(Mult), TNum(5)]) == "3+2*5" {}

  lemma Read3Plus2Times5()
    ensures Parse("3+2*5") == Some(Bin(Add, Num(3), Bin(Mult, Num(2), Num(5))))
  {
    ReadsThree(3, Add, 2, Mult, 5);
    Spell3Plus2Times5();
  }

  lemma OperandsDiffer()
    ensures !SameEquation(Bin(Add, Num(2), Num(8)), Bin(Add, Num(1), Num(9)))
  {
    assert Operands(Bin(Add, Num(2), Num(8)))[2] == 1;
  }

  lemma OperatorsDiffer()
    ensures !SameEquation(Bin(Div, Num(6), Num(2)), Bin(Mult, Num(2), Num(3)))
  {
    assert Operators(Bin(Div, Num(6), Num(2)))[BinKind(Div)] == 1;
  }

  lemma DifferenceOrder()
    ensures !SameEquation(Bin(Sub, Num(10), Num(5)), Bin(Sub, Num(5), Num(10)))
  {
    if Canon(Bin(Sub, Num(10), Num(5))) == Canon(Bin(Sub, Num(5), Num(10))) {
      CanonOrderSensitive(Sub, 10, 5);
    }
  }

  /** The texts of each differing pair are distinct and have no spaces. */
  lemma PlainTexts()
    ensures ' ' !in "2+8" && ' ' !in "1+9" && "2+8" != "1+9"
    ensures ' ' !in "10-5" && ' ' !in "5-10" && "10-5" != "5-10"
    ensures ' ' !in "6/2" && ' ' !in "2*3" && "6/2" != "2*3"
  {
  }

  lemma OperandsSwap(op: BinOp, a: Expr, b: Expr)
    requires Commutative(op)
    ensures SameEquation(Bin(op, a, b), Bin(op, b, a))
  {
    CanonCommutes(op, a, b);
  }

  /** `9+1` and `1+9` are the same equation. */
  lemma CommutedSums()
    ensures Equivalent("9+1", "1+9")
  {
    Read9Plus1();
    Read1Plus9();
    OperandsSwap(Add, Num(9), Num(1));
    ParsedEquivalent("9+1", "1+9", Bin(Add, Num(9), Num(1)), Bin(Add, Num(1), Num(9)));
  }

  /** `2+8` and `1+9` have different operands, so they differ. */
  lemma DifferentOperands()
    ensures !Equivalent("2+8", "1+9")
  {
    var x, y := Bin(Add, Num(2), Num(8)), Bin(Add, Num(1), Num(9));
    Read2Plus8();
    Read1Plus9();
    OperandsDiffer();
    PlainTexts();
    ParsedDistinct("2+8", "1+9", x, y);
  }

  /** `5*2` and `2*5` are the same equation. */
  lemma CommutedProducts()
    ensures Equivalent("5*2", "2*5")
  {
    Read5Times2();
    Read2Times5();
    OperandsSwap(Mult, Num(5), Num(2));
    ParsedEquivalent("5*2", "2*5", Bin(Mult, Num(5), Num(2)), Bin(Mult, Num(2), Num(5)));
  }

  /** `10-5` and `5-10` differ: subtraction keeps its order. */
  lemma SwappedDifference()
    ensures !Equivalent("10-5", "5-10")
  {
    var x, y := Bin(Sub, Num(10), Num(5)), Bin(Sub, Num(5), Num(10));
    Read10Minus5();
    Read5Minus10();
    DifferenceOrder();
    PlainTexts();
    ParsedDistinct("10-5", "5-10", x, y);
  }

  /** `3+2*4` and `2*4+3` are the same equation: the product is one operand
      of the sum. */
  lemma ProductAsAddend()
    ensures Equivalent("3+2*4", "2*4+3")
  {
    var p := Bin(Mult, Num(2), Num(4));
    Read3Plus2Times4();
    Read2Times4Plus3();
    OperandsSwap(Add, Num(3), p);
    ParsedEquivalent("3+2*4", "2*4+3", Bin(Add, Num(3), p), Bin(Add, p, Num(3)));
  }

  lemma ShowNinePlusOne()
    ensures Show(Bin(Add, Num(9), Num(1))) == "(9+1)"
    ensures Show(Bin(Add, Num(1), Num(9))) == "(1+9)"
  {
    assert ShowTokens(Bin(Add, Num(9), Num(1))) == [TLParen, TNum(9), TPlus, TNum(1), TRParen];
    assert ShowTokens(Bin(Add, Num(1), Num(9))) == [TLParen, TNum(1), TPlus, TNum(9), TRParen];
  }

  /** `(9+1)` and `(1+9)` are the same equation. */
  lemma ParenthesisedSums()
    ensures Equivalent("(9+1)", "(1+9)")
  {
    SwapEquivalent(Add, Num(9), Num(1));
    ShowNinePlusOne();
  }

  /** The trees of `2*3+4` and `3*2+4` agree on operands, operators and
      canonical string. */
  lemma InnerProductSwapped()
    ensures SameEquation(Bin(Add, Bin(Mult, Num(2), Num(3)), Num(4)), Bin(Add, Bin(Mult, Num(3), Num(2)), Num(4)))
  {
    var x := Bin(Add, Bin(Mult, Num(2), Num(3)), Num(4));
    var y := Bin(Add, Bin(Mult, Num(3), Num(2)), Num(4));
    CanonCommutes(Mult, Num(2), Num(3));
    assert Chain(Add, x) == Chain(Add, y);
  }

  /** `2*3+4` and `3*2+4` are the same equation: the product inside the sum
      is compared up to order as well. */
  lemma ReorderedInnerProduct()
    ensures Equivalent("2*3+4", "3*2+4")
  {
    var x := Bin(Add, Bin(Mult, Num(2), Num(3)), Num(4));
    var y := Bin(Add, Bin(Mult, Num(3), Num(2)), Num(4));
    Read2Times3Plus4();
    Read3Times2Plus4();
    InnerProductSwapped();
    ParsedEquivalent("2*3+4", "3*2+4", x, y);
  }

  /** `6/2` and `2*3` differ although both are 3. */
  lemma SameValueDifferentOperator()
    ensures !Equivalent("6/2", "2*3")
  {
    var x, y := Bin(Div, Num(6), Num(2)), Bin(Mult, Num(2), Num(3));
    Read6Over2();
    Read2Times3();
    OperatorsDiffer();
    PlainTexts();
    ParsedDistinct("6/2", "2*3", x, y);
  }

  // The canonical strings the documentation of `_get_canonical_form` lists.

  /** Sorting a list gives the given sorted arrangement of it. */
  lemma SortsTo(xs: seq<string>, ys: seq<string>)
    requires multiset(xs) == multiset(ys) && Sorted(ys)
    ensures Sort(xs) == ys
  {
    SortPermutationInvariant(xs, ys);
    SortOfSorted(ys);
  }

  /** Sorting two strings. */
  lemma SortTwo(a: string, b: string)
    ensures Sort([a, b]) == if Below(a, b) then [a, b] else [b, a]
  {
    assert [a, b][1..] == [b];
    assert [b][1..] == [];
    assert Sort([b]) == [b];
    if !Below(a, b) {
      assert Insert(a, [b])[1..] == Insert(a, []);
    }
  }

  /** Inserting into a sorted pair. */
  lemma InsertTwo(a: string, x: string, y: string)
    requires Sorted([x, y])
    ensures Insert(a, [x, y]) ==
              if Below(a, x) then [a, x, y] else if Below(a, y) then [x, a, y] else [x, y, a]
  {
    assert [x, y][1..] == [y];
    if !Below(a, x) {
      assert [y][1..] == [];
      assert Insert(a, [y]) == if Below(a, y) then [a, y] else [y, a] by {
        if !Below(a, y) {
          assert Insert(a, [y])[1..] == Insert(a, []);
        }
      }
    }
  }

  /** Sorting three strings: the first is inserted into the sorted rest. */
  lemma SortThree(a: string, b: string, c: string)
    ensures Sort([a, b, c]) == Insert(a, Sort([b, c]))
  {
    assert [a, b, c][1..] == [b, c];
  }

  lemma SortedNines()
    ensures Sort(["9", "1", "9"]) == ["1", "9", "9"]
    ensures Sort(["9", "9", "1"]) == ["1", "9", "9"]
    ensures Join(["1", "9", "9"], "+") == "1+9+9"
  {
    assert Below("1", "9") && Below("9", "9") && !Below("9", "1");
    SortTwo("1", "9");
    SortTwo("9", "1");
    SortThree("9", "1", "9");
    SortThree("9", "9", "1");
    InsertTwo("9", "1", "9");
  }

  lemma CanonOfNineOneNine()
    ensures Canon(Bin(Add, Bin(Add, Num(9), Num(1)), Num(9))) == "(1+9+9)"
  {
    assert Chain(Add, Bin(Add, Bin(Add, Num(9), Num(1)), Num(9))) == ["9", "1", "9"];
    SortedNines();
  }

  lemma CanonOfNineNineOne()
    ensures Canon(Bin(Add, Bin(Add, Num(9), Num(9)), Num(1))) == "(1+9+9)"
  {
    assert Chain(Add, Bin(Add, Bin(Add, Num(9), Num(9)), Num(1))) == ["9", "9", "1"];
    SortedNines();
  }

  /** `9+1+9` and `9+9+1` have the canonical string `(1+9+9)`. */
  lemma CanonicalNines()
    ensures CanonicalForm("9+1+9") == "(1+9+9)"
    ensures CanonicalForm("9+9+1") == "(1+9+9)"
  {
    Read9Plus1Plus9();
    Read9Plus9Plus1();
    CanonOfNineOneNine();
    CanonOfNineNineOne();
  }

  lemma CanonOfProduct()
    ensures Canon(Bin(Mult, Num(5), Num(2))) == "(2*5)"
    ensures Canon(Bin(Mult, Num(2), Num(5))) == "(2*5)"
  {
    assert Chain(Mult, Bin(Mult, Num(5), Num(2))) == ["5", "2"];
    assert Chain(Mult, Bin(Mult, Num(2), Num(5))) == ["2", "5"];
    assert Below("2", "5") && !Below("5", "2");
    SortTwo("5", "2");
    SortTwo("2", "5");
    assert Join(["2", "5"], "*") == "2*5";
  }

  lemma SortedProductAndThree()
    ensures Sort(["(2*5)", "3"]) == ["(2*5)", "3"]
    ensures Sort(["3", "(2*5)"]) == ["(2*5)", "3"]
  {
    assert Below("(2*5)", "3") && !Below("3", "(2*5)");
    SortTwo("(2*5)", "3");
    SortTwo("3", "(2*5)");
  }

  lemma CanonOfProductThenThree()
    ensures Canon(Bin(Add, Bin(Mult, Num(5), Num(2)), Num(3))) == "((2*5)+3)"
  {
    CanonOfProduct();
    assert Chain(Add, Bin(Add, Bin(Mult, Num(5), Num(2)), Num(3))) == ["(2*5)", "3"];
    SortedProductAndThree();
  }

  lemma CanonOfThreeThenProduct()
    ensures Canon(Bin(Add, Num(3), Bin(Mult, Num(2), Num(5)))) == "((2*5)+3)"
  {
    CanonOfProduct();
    assert Chain(Add, Bin(Add, Num(3), Bin(Mult, Num(2), Num(5)))) == ["3", "(2*5)"];
    SortedProductAndThree();
  }

  /** `5*2+3` has the canonical string `((2*5)+3)`, and so does `3+2*5`
      (its documentation lists `(3+(2*5))` and calls it different, but
      `(` sorts before every digit). */
  lemma CanonicalProductPlusThree()
    ensures CanonicalForm("5*2+3") == "((2*5)+3)"
    ensures CanonicalForm("3+2*5") == "((2*5)+3)"
  {
    Read5Times2Plus3();
    Read3Plus2Times5();
    CanonOfProductThenThree();
    CanonOfThreeThenProduct();
  }

  lemma SpellNegatedSum() ensures Spell([TMinus, TLParen, TNum(5), TPlus, TNum(2), TRParen]) == "-(5+2)" {
    var t5 := [TRParen];
    var t4 := [TNum(2)] + t5;
    var t3 := [TPlus] + t4;
    var t2 := [TNum(5)] + t3;
    var t1 := [TLParen] + t2;
    var t0 := [TMinus] + t1;
    assert Spell(t5) == ")" by { assert t5[1..] == []; }
    assert Spell(t4) == "2)" by { assert t4[1..] == t5; }
    assert Spell(t3) == "+2)" by { assert t3[1..] == t4; }
    assert Spell(t2) == "5+2)" by { assert t2[1..] == t3; }
    assert Spell(t1) == "(5+2)" by { assert t1[1..] == t2; }
    assert Spell(t0) == "-(5+2)" by { assert t0[1..] == t1; }
    assert t0 == [TMinus, TLParen, TNum(5), TPlus, TNum(2), TRParen];
  }

  lemma ParenthesisedSumPrimary()
    ensures ParsePrimary([TLParen, TNum(5), TPlus, TNum(2), TRParen]) == Some((Bin(Add, Num(5), Num(2)), []))
  {
    var sum := Bin(Add, Num(5), Num(2));
    var inner := [TNum(5), TPlus, TNum(2)];
    var t := inner + [TRParen];
    assert t == [TNum(5)] + [TPlus, TNum(2), TRParen];
    assert [TPlus, TNum(2), TRParen] == [OpToken(Add)] + [TNum(2), TRParen];
    assert [TNum(2), TRParen] == [TNum(2)] + [TRParen];
    NumberPrimary(5, [TPlus, TNum(2), TRParen]);
    NumberPrimary(2, [TRParen]);
    BinaryOfPrimaries(Add, t, Num(5), [TNum(2), TRParen], Num(2), [TRParen]);
    assert inner + [TRParen] + [] == t && [TRParen] + [] == [TRParen];
    Parenthesised(inner, sum, []);
    assert [TLParen] + inner + [TRParen] + [] == [TLParen, TNum(5), TPlus, TNum(2), TRParen];
  }

  lemma NegatedSumSpellable()
    ensures Spellable([TMinus, TLParen, TNum(5), TPlus, TNum(2), TRParen], 0)
  {
    var p := [TLParen, TNum(5), TPlus, TNum(2), TRParen];
    var ts := [TMinus] + p;
    assert ts == [TMinus, TLParen, TNum(5), TPlus, TNum(2), TRParen];
    assert ts[1..] == p && p[1..] == [TNum(5), TPlus, TNum(2), TRParen];
    assert p[1..][1..] == [TPlus, TNum(2), TRParen];
    assert Spellable([TRParen], 1);
  }

  lemma NegatedSumTokens()
    ensures Spellable([TMinus, TLParen, TNum(5), TPlus, TNum(2), TRParen], 0)
    ensures ParseSum([TMinus, TLParen, TNum(5), TPlus, TNum(2), TRParen]) ==
              Some((Unary(USub, Bin(Add, Num(5), Num(2))), []))
  {
    var sum := Bin(Add, Num(5), Num(2));
    var p := [TLParen, TNum(5), TPlus, TNum(2), TRParen];
    var ts := [TMinus] + p;
    NegatedSumSpellable();
    ParenthesisedSumPrimary();
    Lift(p, sum, []);
    SignFactor(TMinus, p, sum, []);
    FactorIsSum(ts, Unary(USub, sum), []);
    assert ts == [TMinus, TLParen, TNum(5), TPlus, TNum(2), TRParen];
  }

  lemma ReadNegatedSum()
    ensures Parse("-(5+2)") == Some(Unary(USub, Bin(Add, Num(5), Num(2))))
  {
    var ts := [TMinus, TLParen, TNum(5), TPlus, TNum(2), TRParen];
    NegatedSumTokens();
    ParseOfSpelling(Spell(ts), ts, Unary(USub, Bin(Add, Num(5), Num(2))));
    var s := Spell(ts);
    assert Parse(s) == Some(Unary(USub, Bin(Add, Num(5), Num(2))));
    SpellNegatedSum();
  }

  lemma CanonOfNegatedSum()
    ensures Canon(Unary(USub, Bin(Add, Num(5), Num(2)))) == "(-(2+5))"
  {
    assert Chain(Add, Bin(Add, Num(5), Num(2))) == ["5", "2"];
    assert Below("2", "5") && !Below("5", "2");
    SortTwo("5", "2");
    assert Join(["2", "5"], "+") == "2+5";
  }

  /** `-(5+2)` has the canonical string `(-(2+5))`: the sum inside the
      negation is sorted, and only one pair of parentheses wraps it. */
  lemma CanonicalNegatedSum()
    ensures CanonicalForm("-(5+2)") == "(-(2+5))"
  {
    ReadNegatedSum();
    CanonOfNegatedSum();
  }
}

=== FILE: equivalence.dfy ===
/** `_extract_operands_and_operators`, `are_equations_equivalent` and
    `are_equations_unique`: two texts count as the same equation when they
    agree after removing spaces, or when both parse and agree on operand
    multiset, operator multiset and canonical string. */
module Equivalence {
  import opened Wrappers
  import opened Text
  import opened Syntax
  import opened Parser
  import opened Canonical

  /** What is compared: operand values, operator kinds (negation counted
      apart from subtraction) and the canonical string. */
  datatype Signature = Signature(
    operands: multiset<nat>,
    operators: multiset<OperatorKind>,
    canonical: string)

  /** The signature of a text; a text that does not parse has empty
      multisets and an empty canonical string. */
  function Extract(s: string): (r: Signature)
    ensures Parse(s).None? ==> r == Signature(multiset{}, multiset{}, "")
    ensures Parse(s).Some? ==> r.canonical == CanonicalForm(s)
  {
    match Parse(s)
    case None => Signature(multiset{}, multiset{}, "")
    case Some(e) => Signature(Operands(e), Operators(e), Canon(e))
  }

  function Equivalent(eq1: string, eq2: string): bool
  {
    if RemoveSpaces(eq1) == RemoveSpaces(eq2) then true
    else
      var s1, s2 := Extract(eq1), Extract(eq2);
      if s1.canonical == [] || s2.canonical == [] then false
      else if !(s1.operands == s2.operands && s1.operators == s2.operators) then false
      else s1.canonical == s2.canonical
  }

  function Unique(eq1: string, eq2: string): bool
  {
    !Equivalent(eq1, eq2)
  }

  /** The three-part agreement that equivalence asks of parsed texts. */
  predicate SameEquation(e1: Expr, e2: Expr)
  {
    && Operands(e1) == Operands(e2)
    && Operators(e1) == Operators(e2)
    && Canon(e1) == Canon(e2)
    && !e1.Other?
  }

  /** Equivalence, stated without the short-circuits: the space-free texts
      agree, or both parse to trees with equal operands, operators and
      non-empty canonical strings. */
  lemma EquivalentIff(eq1: string, eq2: string)
    ensures Equivalent(eq1, eq2) <==>
              || RemoveSpaces(eq1) == RemoveSpaces(eq2)
              || (Parse(eq1).Some? && Parse(eq2).Some? &&
                  SameEquation(Parse(eq1).value, Parse(eq2).value))
  {
  }

  lemma EquivalentReflexive(eq: string)
    ensures Equivalent(eq, eq)
  {
  }

  lemma EquivalentSymmetric(eq1: string, eq2: string)
    ensures Equivalent(eq1, eq2) == Equivalent(eq2, eq1)
  {
  }

  /** A text that does not parse is equivalent only to texts equal to it
      once spaces are removed. */
  lemma UnparsedMatchesOnlyItself(eq1: string, eq2: string)
    requires Parse(eq1).None? || Parse(eq2).None?
    ensures Equivalent(eq1, eq2) <==> RemoveSpaces(eq1) == RemoveSpaces(eq2)
  {
  }

  /** Uniqueness is the exact negation of equivalence, so it is symmetric
      and never holds of a text and itself. */
  lemma UniqueIsNegation(eq1: string, eq2: string)
    ensures Unique(eq1, eq2) <==> !Equivalent(eq1, eq2)
    ensures Unique(eq1, eq2) == Unique(eq2, eq1)
    ensures !Unique(eq1, eq1)
  {
  }
}

=== FILE: evaluator.dfy ===
/** `safe_eval`: a tree walk through a closed table of five operations. */
module Evaluator {
  import opened Wrappers
  import opened Syntax

  /** Why evaluation stops. The source raises ZeroDivisionError for the first
      and TypeError ("Disallowed operator: X", "Disallowed operation: X") for
      the other two. */
  datatype EvalError =
    | ZeroDivision
    | DisallowedOperator(op: OperatorKind)
    | DisallowedOperation(kind: OtherKind)

  /** The table: addition, subtraction, multiplication, true division and
      negation. */
  predicate InTable(k: OperatorKind)
  {
    k == BinKind(Add) || k == BinKind(Sub) || k == BinKind(Mult) || k == BinKind(Div)
    || k == UnaryKind(USub)
  }

  /** A tree built from numbers and table operators only. */
  predicate Arithmetic(e: Expr)
  {
    match e
    case Num(_) => true
    case Unary(u, x) => InTable(UnaryKind(u)) && Arithmetic(x)
    case Bin(op, l, r) => InTable(BinKind(op)) && Arithmetic(l) && Arithmetic(r)
    case Other(_) => false
  }

  /** Real multiplication, kept behind a name so that proofs about trees do
      not hand products to the nonlinear arithmetic solver. */
  function Product(a: real, b: real): real
  {
    a * b
  }

  /** One table entry applied to two values; true division fails on zero. */
  function Apply(op: BinOp, a: real, b: real): (r: Result<real, EvalError>)
    requires InTable(BinKind(op))
    ensures r.Err? <==> op == Div && b == 0.0
    ensures r.Err? ==> r.error == ZeroDivision
  {
    match op
    case Add => Ok(a + b)
    case Sub => Ok(a - b)
    case Mult => Ok(Product(a, b))
    case Div => if b == 0.0 then Err(ZeroDivision) else Ok(a / b)
  }

  /** The value of a tree. A node's operator is looked up before its
      children are evaluated, and the left child is evaluated before the
      right one. Values are exact: float rounding is not modelled. */
  function Eval(e: Expr): (r: Result<real, EvalError>)
    ensures r.Ok? ==> Arithmetic(e)
    ensures Arithmetic(e) ==> r.Ok? || r == Err(ZeroDivision)
    ensures r.Err? && r.error.DisallowedOperator? ==> r.error.op in Operators(e) && !InTable(r.error.op)
  {
    match e
    case Num(n) => Ok(n as real)
    case Unary(u, x) =>
      if !InTable(UnaryKind(u)) then Err(DisallowedOperator(UnaryKind(u)))
      else (
        match Eval(x)
        case Err(err) => Err(err)
        case Ok(v) => Ok(-v))
    case Bin(op, l, r) =>
      if !InTable(BinKind(op)) then Err(DisallowedOperator(BinKind(op)))
      else (
        match Eval(l)
        case Err(err) => Err(err)
        case Ok(a) =>
          match Eval(r)
          case Err(err) => Err(err)
          case Ok(b) => Apply(op, a, b))
    case Other(k) => Err(DisallowedOperation(k))
  }

  /** Every operator an arithmetic tree uses is in the table. */
  lemma {:induction false} ArithmeticUsesTable(e: Expr)
    requires Arithmetic(e)
    ensures forall k :: k in Operators(e) ==> InTable(k)
  {
    match e
    case Num(_) =>
    case Unary(_, x) => ArithmeticUsesTable(x);
    case Bin(_, l, r) => ArithmeticUsesTable(l); ArithmeticUsesTable(r);
    case Other(_) =>
  }

  /** Nothing outside the table is ever applied: a tree that uses unary plus,
      `**` or `//` anywhere, or contains a Tuple or a Call, has no value. */
  lemma EvalOnlyWithTable(e: Expr, k: OperatorKind)
    requires k in Operators(e) && !InTable(k)
    ensures Eval(e).Err?
  {
    if Eval(e).Ok? {
      ArithmeticUsesTable(e);
    }
  }

  /** The operator is checked before the children: a binary or unary node
      whose operator is outside the table reports that operator whatever its
      children hold (even a division by zero). */
  lemma OperatorCheckedFirst(op: BinOp, l: Expr, r: Expr, u: UnaryOp, x: Expr)
    ensures !InTable(BinKind(op)) ==> Eval(Bin(op, l, r)) == Err(DisallowedOperator(BinKind(op)))
    ensures !InTable(UnaryKind(u)) ==> Eval(Unary(u, x)) == Err(DisallowedOperator(UnaryKind(u)))
  {
  }

  /** The left child is evaluated first: its error wins over the right's. */
  lemma LeftBeforeRight(op: BinOp, l: Expr, r: Expr)
    requires InTable(BinKind(op)) && Eval(l).Err?
    ensures Eval(Bin(op, l, r)) == Eval(l)
  {
  }

  /** A `+` or `*` node has a value exactly when both children have one, and
      that value combines theirs. */
  lemma EvalAddMult(op: BinOp, x: Expr, y: Expr)
    requires op == Add || op == Mult
    ensures Eval(Bin(op, x, y)).Ok? <==> Eval(x).Ok? && Eval(y).Ok?
    ensures op == Add && Eval(Bin(op, x, y)).Ok? ==>
              Eval(Bin(op, x, y)).value == Eval(x).value + Eval(y).value
    ensures op == Mult && Eval(Bin(op, x, y)).Ok? ==>
              Eval(Bin(op, x, y)).value == Product(Eval(x).value, Eval(y).value)
  {
    if Eval(x).Ok? && Eval(y).Ok? {
      assert Eval(Bin(op, x, y)) == Apply(op, Eval(x).value, Eval(y).value);
    }
  }

  /** Swapping the operands of `+` or `*` keeps the value. */
  lemma EvalCommutes(op: BinOp, a: Expr, b: Expr)
    requires op == Add || op == Mult
    ensures Eval(Bin(op, a, b)).Ok? <==> Eval(Bin(op, b, a)).Ok?
    ensures Eval(Bin(op, a, b)).Ok? ==> Eval(Bin(op, a, b)).value == Eval(Bin(op, b, a)).value
  {
    EvalAddMult(op, a, b);
    EvalAddMult(op, b, a);
    if op == Mult && Eval(a).Ok? && Eval(b).Ok? {
      MultCommutes(Eval(a).value, Eval(b).value);
    }
  }

  lemma MultCommutes(x: real, y: real)
    ensures Product(x, y) == Product(y, x)
  {
  }

  /** Regrouping a chain of `+` or `*` keeps the value. */
  lemma EvalRegroups(op: BinOp, a: Expr, b: Expr, c: Expr)
    requires op == Add || op == Mult
    ensures Eval(Bin(op, Bin(op, a, b), c)).Ok? <==> Eval(Bin(op, a, Bin(op, b, c))).Ok?
    ensures Eval(Bin(op, Bin(op, a, b), c)).Ok? ==>
              Eval(Bin(op, Bin(op, a, b), c)).value == Eval(Bin(op, a, Bin(op, b, c))).value
  {
    var ab, bc := Bin(op, a, b), Bin(op, b, c);
    EvalAddMult(op, a, b);
    EvalAddMult(op, b, c);
    EvalAddMult(op, ab, c);
    EvalAddMult(op, a, bc);
    if Eval(a).Ok? && Eval(b).Ok? && Eval(c).Ok? && op == Mult {
      MultAssociates(Eval(a).value, Eval(b).value, Eval(c).value);
    }
  }

  lemma MultAssociates(x: real, y: real, z: real)
    ensures Product(Product(x, y), z) == Product(x, Product(y, z))
  {
  }
}

=== FILE: generation.dfy ===
/** `generate_broken_buttons`: draw keys to break from those the target
    does not need, keep the draw when the target stays reachable, and
    otherwise retry with one key fewer, at most ten times in all. */
module Generation {
  import opened Text
  import opened Buttons
  import opened ButtonLaws
  import opened Sampling

  /** Each breakable key is a key of the calculator the target does not
      need, and the breakable keys are distinct. */
  lemma BreakableKeys(target: int)
    ensures forall c :: c in Breakable(target) <==> c in AllButtons && c !in RequiredWorking(target)
    ensures Distinct(Breakable(target))
  {
    AllButtonsDistinct();
    WithoutKeeps(AllButtons, RequiredWorking(target));
  }

  /** One draw: `min(count, len(pool))` distinct keys of `pool`. */
  function Draw(pool: seq<char>, count: int, seed: nat): (broken: seq<char>)
    ensures |broken| == if count < 0 then 0 else if count < |pool| then count else |pool|
    ensures forall c :: c in broken ==> c in pool
    ensures Distinct(pool) ==> Distinct(broken)
  {
    var k: nat := if count < 0 then 0 else if count < |pool| then count else |pool|;
    var broken := Sample(pool, k, seed);
    assert forall c :: c in broken ==> c in pool by {
      forall c | c in broken ensures c in pool {
        assert c in multiset(broken);
      }
    }
    if Distinct(pool) then SampleDistinct(pool, k, seed); broken else broken
  }

  /** The draws from attempt `attempts` on, breaking keys of `pool`: a draw
      that leaves the target reachable is returned, otherwise the next
      attempt asks for one key fewer. */
  function Retry(target: int, pool: seq<char>, count: int, attempts: nat, draws: nat -> nat): (r: seq<char>)
    ensures count <= 0 || attempts >= MaxAttempts ==> r == []
    ensures r == [] || ValidateSolvable(target, r)
    ensures r != [] ==> 1 <= |r| <= count
    ensures |r| <= |pool|
    ensures forall c :: c in r ==> c in pool
    ensures Distinct(pool) ==> Distinct(r)
    decreases MaxAttempts - attempts
  {
    if count <= 0 || attempts >= MaxAttempts then []
    else
      var broken := Draw(pool, count, draws(attempts));
      if !ValidateSolvable(target, broken) then Retry(target, pool, count - 1, attempts + 1, draws)
      else broken
  }

  /** The generator. `draws(a)` is the random choice made on attempt `a`;
      the breakable keys are the same on every attempt. The result is empty
      or a set of distinct keys the target does not need, no more than
      `count` of them, with which the target stays reachable. */
  function Generate(target: int, count: int, attempts: nat, draws: nat -> nat): (r: seq<char>)
    ensures count <= 0 || attempts >= MaxAttempts ==> r == []
    ensures r == [] || ValidateSolvable(target, r)
    ensures r != [] ==> 1 <= |r| <= count
    ensures |r| <= |Breakable(target)|
    ensures forall c :: c in r ==> c in AllButtons && c !in RequiredWorking(target)
    ensures Distinct(r)
  {
    BreakableKeys(target);
    Retry(target, Breakable(target), count, attempts, draws)
  }

  /** With every breakable key broken, only the required keys work, and they
      reach exactly the targets up to 10: `1` and `+` estimate 10, and `2`,
      `*` and `+` estimate 20, which no target above 50 is. So the required
      keys alone do not keep a target from 11 to 50 reachable. */
  lemma RequiredKeysAlone(target: int)
    ensures ValidateSolvable(target, Breakable(target)) <==> target <= 10
  {
    var w := Working(Breakable(target));
    var small := target <= SmallTargetThreshold;
    var key := if small then '1' else '2';
    OnlyRequiredWork(target);
    assert key in w;
    assert forall c :: c in w && IsDigit(c) ==> c == key;
    WorkingDigitsRising(Breakable(target));
    LoneDigit(w, key, if small then 1 else 2);
    OperatorsOfKeys(w);
    assert '+' in OperatorsOf(w);
    LoneDigitEstimate(if small then 1 else 2, OperatorsOf(w));
  }

  /** A list whose only digit key is `key` has the one digit value `k`. */
  lemma LoneDigit(w: seq<char>, key: char, k: nat)
    requires IsDigit(key) && DigitValue(key) == k && key in w
    requires forall c :: c in w && IsDigit(c) ==> c == key
    requires Rising(0, DigitsOf(w))
    ensures DigitsOf(w) == [k]
  {
    var d := DigitsOf(w);
    DigitsOfKeys(w);
    assert k in d;
    forall i | 0 <= i < |d| ensures d[i] == k {
      assert d[i] in d;
    }
    RisingConstant(0, d, k);
  }

  /** One digit with `+` available estimates ten times the digit. */
  lemma LoneDigitEstimate(k: nat, o: seq<char>)
    requires k >= 1 && '+' in o
    ensures Estimate([k], o) == 10 * k
  {
    assert MaxOf([k]) == k;
    assert [k][1..] == [] && SumOf([k]) == k;
  }

  /** The keys that work once every breakable key is broken are exactly the
      required ones. */
  lemma OnlyRequiredWork(target: int)
    ensures forall c :: c in Working(Breakable(target)) <==> c in AllButtons && c in RequiredWorking(target)
  {
    BreakableKeys(target);
    WithoutKeeps(AllButtons, set c | c in Breakable(target));
  }

  /** A target above 225 gets no broken keys. */
  lemma LargeTargetGetsNothing(target: int, count: int, attempts: nat, draws: nat -> nat)
    requires target > 225
    ensures Generate(target, count, attempts, draws) == []
  {
    var r := Generate(target, count, attempts, draws);
    if r != [] {
      SolvableAtMost225(target, r);
    }
  }

  /** A positive count always draws at least one key from a nonempty pool. */
  lemma DrawNotEmpty(pool: seq<char>, count: int, seed: nat)
    requires count >= 1 && pool != []
    ensures 1 <= |Draw(pool, count, seed)| <= count
  {
  }

  /** With at most five keys to draw and `+` not breakable, a small target
      stays reachable. */
  lemma FewKeysKept(target: int, pool: seq<char>, count: int, seed: nat)
    requires target <= SmallTargetThreshold && '+' !in pool && 1 <= count <= 5
    ensures ValidateSolvable(target, Draw(pool, count, seed))
  {
    var broken := Draw(pool, count, seed);
    assert '+' !in broken;
    SmallTargetSolvable(target, broken);
  }

  /** An attempt either returns its draw, which is not empty, or hands
      over to the next attempt. */
  lemma RetryStep(target: int, pool: seq<char>, count: int, attempts: nat, draws: nat -> nat)
    requires pool != [] && count >= 1 && attempts < MaxAttempts
    ensures var r := Retry(target, pool, count, attempts, draws);
      r != [] || r == Retry(target, pool, count - 1, attempts + 1, draws)
  {
    DrawNotEmpty(pool, count, draws(attempts));
  }

  /** With at most five keys to draw the first attempt returns keys. */
  lemma RetryFewKeys(target: int, pool: seq<char>, count: int, attempts: nat, draws: nat -> nat)
    requires target <= SmallTargetThreshold && '+' !in pool && pool != []
    requires 1 <= count <= 5 && attempts < MaxAttempts
    ensures Retry(target, pool, count, attempts, draws) != []
  {
    DrawNotEmpty(pool, count, draws(attempts));
    FewKeysKept(target, pool, count, draws(attempts));
  }

  lemma {:induction false} SmallTargetRetried(target: int, pool: seq<char>, count: int, attempts: nat, draws: nat -> nat)
    requires target <= SmallTargetThreshold && '+' !in pool && pool != []
    requires count >= 1
    requires attempts + (if count > 5 then count - 5 else 0) < MaxAttempts
    ensures Retry(target, pool, count, attempts, draws) != []
    decreases MaxAttempts - attempts
  {
    if count <= 5 {
      RetryFewKeys(target, pool, count, attempts, draws);
    } else {
      SmallTargetRetried(target, pool, count - 1, attempts + 1, draws);
      RetryStep(target, pool, count, attempts, draws);
    }
  }

  /** A small target always gets at least one broken key while the retries
      can bring the count down to five: at most five keys are drawn then,
      and `+` is never one of them. */
  lemma SmallTargetGetsKeys(target: int, count: int, attempts: nat, draws: nat -> nat)
    requires target <= SmallTargetThreshold && count >= 1
    requires attempts + (if count > 5 then count - 5 else 0) < MaxAttempts
    ensures Generate(target, count, attempts, draws) != []
  {
    BreakableKeys(target);
    assert '0' in Breakable(target);
    SmallTargetRetried(target, Breakable(target), count, attempts, draws);
  }

  /** Every outcome is possible: any reachable choice of
      `min(count, len(pool))` distinct keys of `pool` is what the first
      attempt returns for some random choice. */
  lemma FirstDrawReachesPool(target: int, pool: seq<char>, count: int, attempts: nat, t: seq<char>)
    requires count >= 1 && attempts < MaxAttempts
    requires Distinct(t) && forall c :: c in t ==> c in pool
    requires |t| == if count < |pool| then count else |pool|
    requires ValidateSolvable(target, t)
    ensures exists draws: nat -> nat :: Retry(target, pool, count, attempts, draws) == t
  {
    DistinctSubset(t, pool);
    SampleReaches(pool, t);
    var seed: nat :| Sample(pool, |t|, seed) == t;
    var draws := (a: nat) => seed;
    assert Draw(pool, count, draws(attempts)) == t;
    assert Retry(target, pool, count, attempts, draws) == t;
  }

  /** Every outcome is possible: any reachable choice of
      `min(count, len(breakable))` distinct keys the target does not need
      is what the first attempt returns for some random choice. */
  lemma FirstDrawReaches(target: int, count: int, attempts: nat, t: seq<char>)
    requires count >= 1 && attempts < MaxAttempts
    requires Distinct(t)
    requires forall c :: c in t ==> c in AllButtons && c !in RequiredWorking(target)
    requires |t| == if count < |Breakable(target)| then count else |Breakable(target)|
    requires ValidateSolvable(target, t)
    ensures exists draws: nat -> nat :: Generate(target, count, attempts, draws) == t
  {
    BreakableKeys(target);
    FirstDrawReachesPool(target, Breakable(target), count, attempts, t);
    var draws: nat -> nat :| Retry(target, Breakable(target), count, attempts, draws) == t;
    assert Generate(target, count, attempts, draws) == t;
  }

  /** Distinct keys all found in a list form a part of its multiset: each
      occurs once in `t` and at least once in `pool`. */
  lemma DistinctSubset(t: seq<char>, pool: seq<char>)
    requires Distinct(t)
    requires forall c :: c in t ==> c in pool
    ensures multiset(t) <= multiset(pool)
  {
    forall c ensures multiset(t)[c] <= multiset(pool)[c] {
      CountOnce(t, c);
      if c in t {
        assert c in multiset(pool);
      }
    }
  }
}

=== FILE: grammar.dfy ===
/** Facts about the parser: how a complete primary climbs the precedence
    levels, and how two or three numbers joined by operators group. */
module Grammar {
  import opened Wrappers
  import opened Syntax
  import opened Lexer
  import opened Parser

  predicate IsSign(t: Token) {
    t == TPlus || t == TMinus
  }

  predicate IsTermOp(t: Token) {
    t == TStar || t == TSlash || t == TDoubleSlash
  }

  /** Tokens that end an operand at every level: nothing, or `)`. */
  predicate Closes(rest: seq<Token>) {
    rest == [] || rest[0] == TRParen
  }

  /** A primary that is not followed by `**` is a whole factor; if no `*`,
      `/` or `//` follows it is a whole term, and if no `+` or `-` follows
      either it is a whole sum. */
  lemma Lift(t: seq<Token>, e: Expr, rest: seq<Token>)
    requires ParsePrimary(t) == Some((e, rest))
    requires t != [] && !IsSign(t[0])
    requires rest == [] || rest[0] != TDoubleStar
    ensures ParseFactor(t) == Some((e, rest))
    ensures (rest == [] || !IsTermOp(rest[0])) ==> ParseTerm(t) == Some((e, rest))
    ensures (rest == [] || (!IsTermOp(rest[0]) && !IsSign(rest[0]))) ==>
              ParseSum(t) == Some((e, rest))
  {
    assert ParsePower(t) == Some((e, rest));
  }

  /** A number not followed by a call trailer is a primary. */
  lemma NumberPrimary(n: nat, rest: seq<Token>)
    requires rest == [] || rest[0] != TLParen
    ensures ParsePrimary([TNum(n)] + rest) == Some((Num(n), rest))
  {
    assert ([TNum(n)] + rest)[1..] == rest;
  }

  /** A sign in front of a factor makes a unary node. */
  lemma SignFactor(s: Token, t: seq<Token>, e: Expr, rest: seq<Token>)
    requires IsSign(s)
    requires ParseFactor(t) == Some((e, rest))
    ensures ParseFactor([s] + t) ==
              Some((Unary(if s == TPlus then UAdd else USub, e), rest))
  {
    assert ([s] + t)[1..] == t;
  }

  /** A unary node standing alone before a closing token is a whole sum. */
  lemma FactorIsSum(t: seq<Token>, e: Expr, rest: seq<Token>)
    requires ParseFactor(t) == Some((e, rest))
    requires Closes(rest)
    ensures ParseSum(t) == Some((e, rest))
  {
    assert ParseTerm(t) == Some((e, rest));
  }

  /** `(` inner `)`: a parenthesised sum is a primary. */
  lemma Parenthesised(inner: seq<Token>, e: Expr, rest: seq<Token>)
    requires inner != [] && inner[0] != TRParen
    requires ParseSum(inner + [TRParen] + rest) == Some((e, [TRParen] + rest))
    requires rest == [] || rest[0] != TLParen
    ensures ParsePrimary([TLParen] + inner + [TRParen] + rest) == Some((e, rest))
  {
    ParenthesisedAtom(inner, e, rest);
  }

  lemma ParenthesisedAtom(inner: seq<Token>, e: Expr, rest: seq<Token>)
    requires inner != [] && inner[0] != TRParen
    requires ParseSum(inner + [TRParen] + rest) == Some((e, [TRParen] + rest))
    ensures ParseAtom([TLParen] + inner + [TRParen] + rest) == Some((e, rest))
  {
    var t := [TLParen] + inner + [TRParen] + rest;
    assert t[1..] == inner + [TRParen] + rest;
    assert t[1] == inner[0];
    assert ([TRParen] + rest)[1..] == rest;
  }

  /** Binary operator tokens and the nodes they make. */
  function OpToken(op: BinOp): Token
  {
    match op
    case Add => TPlus
    case Sub => TMinus
    case Mult => TStar
    case Div => TSlash
    case Pow => TDoubleStar
    case FloorDiv => TDoubleSlash
  }

  /** Binding strength: `**` above `*` `/` `//` above `+` `-`. */
  function Precedence(op: BinOp): nat
  {
    match op
    case Add => 1
    case Sub => 1
    case Mult => 2
    case Div => 2
    case FloorDiv => 2
    case Pow => 3
  }

  /** `l + r` and `l - r` with whole terms on both sides. */
  lemma SumOfTerms(op: BinOp, t: seq<Token>, l: Expr, v: seq<Token>, r: Expr, rest: seq<Token>)
    requires op == Add || op == Sub
    requires ParseTerm(t) == Some((l, [OpToken(op)] + v))
    requires ParseTerm(v) == Some((r, rest))
    requires Closes(rest)
    ensures ParseSum(t) == Some((Bin(op, l, r), rest))
  {
    assert ([OpToken(op)] + v)[1..] == v;
    assert SumTail(Bin(op, l, r), rest) == Some((Bin(op, l, r), rest));
  }

  /** `l * r`, `l / r` and `l // r` with whole factors on both sides. */
  lemma TermOfFactors(op: BinOp, t: seq<Token>, l: Expr, v: seq<Token>, r: Expr, rest: seq<Token>)
    requires op == Mult || op == Div || op == FloorDiv
    requires ParseFactor(t) == Some((l, [OpToken(op)] + v))
    requires ParseFactor(v) == Some((r, rest))
    requires Closes(rest)
    ensures ParseTerm(t) == Some((Bin(op, l, r), rest))
    ensures ParseSum(t) == Some((Bin(op, l, r), rest))
  {
    assert ([OpToken(op)] + v)[1..] == v;
    assert TermTail(Bin(op, l, r), rest) == Some((Bin(op, l, r), rest));
    assert ParseTerm(t) == Some((Bin(op, l, r), rest));
  }

  /** `l ** r` with a whole primary on the left and a whole factor on the right. */
  lemma PowerOfPrimary(t: seq<Token>, l: Expr, v: seq<Token>, r: Expr, rest: seq<Token>)
    requires t != [] && !IsSign(t[0])
    requires ParsePrimary(t) == Some((l, [TDoubleStar] + v))
    requires ParseFactor(v) == Some((r, rest))
    requires Closes(rest)
    ensures ParseFactor(t) == Some((Bin(Pow, l, r), rest))
    ensures ParseSum(t) == Some((Bin(Pow, l, r), rest))
  {
    assert ([TDoubleStar] + v)[1..] == v;
    assert ParsePower(t) == Some((Bin(Pow, l, r), rest));
    FactorIsSum(t, Bin(Pow, l, r), rest);
  }

  /** `l op r` where both sides are whole primaries parses as one binary
      node, for every operator. */
  lemma BinaryOfPrimaries(op: BinOp, t: seq<Token>, l: Expr, v: seq<Token>, r: Expr,
                          rest: seq<Token>)
    requires t != [] && !IsSign(t[0]) && v != [] && !IsSign(v[0])
    requires ParsePrimary(t) == Some((l, [OpToken(op)] + v))
    requires ParsePrimary(v) == Some((r, rest))
    requires Closes(rest)
    ensures ParseSum(t) == Some((Bin(op, l, r), rest))
  {
    Lift(v, r, rest);
    if op == Pow {
      PowerOfPrimary(t, l, v, r, rest);
    } else {
      Lift(t, l, [OpToken(op)] + v);
      if op == Add || op == Sub {
        SumOfTerms(op, t, l, v, r, rest);
      } else {
        TermOfFactors(op, t, l, v, r, rest);
      }
    }
  }

  /** A number followed by an operator or by nothing, read at each level. */
  lemma NumberAtEveryLevel(n: nat, rest: seq<Token>)
    requires rest == [] || (rest[0] != TLParen && rest[0] != TDoubleStar)
    ensures ParseFactor([TNum(n)] + rest) == Some((Num(n), rest))
    ensures (rest == [] || !IsTermOp(rest[0])) ==> ParseTerm([TNum(n)] + rest) == Some((Num(n), rest))
  {
    NumberPrimary(n, rest);
    Lift([TNum(n)] + rest, Num(n), rest);
  }

  /** `n1 op1 n2 op2 n3` without `**`: the second operator takes the middle
      number first exactly when it binds more strongly than the first;
      otherwise the two group from the left. */
  lemma ThreeNumbers(n1: nat, op1: BinOp, n2: nat, op2: BinOp, n3: nat)
    requires op1 != Pow && op2 != Pow
    ensures ParseSum([TNum(n1), OpToken(op1), TNum(n2), OpToken(op2), TNum(n3)]) ==
              Some((if Precedence(op2) > Precedence(op1)
                    then Bin(op1, Num(n1), Bin(op2, Num(n2), Num(n3)))
                    else Bin(op2, Bin(op1, Num(n1), Num(n2)), Num(n3)), []))
  {
    var t1, t2, t3 := OpToken(op1), OpToken(op2), [TNum(n3)];
    var u := [TNum(n2), t2, TNum(n3)];
    var ts := [TNum(n1), t1] + u;
    assert ts == [TNum(n1), OpToken(op1), TNum(n2), OpToken(op2), TNum(n3)];
    assert ts == [TNum(n1)] + ([t1] + u);
    assert u == [TNum(n2)] + ([t2] + t3);
    assert t3 == [TNum(n3)] + [];
    NumberAtEveryLevel(n1, [t1] + u);
    NumberAtEveryLevel(n2, [t2] + t3);
    NumberAtEveryLevel(n3, []);
    assert ([t1] + u)[1..] == u && ([t2] + t3)[1..] == t3;
    if Precedence(op1) == 1 {
      assert ParseTerm(ts) == Some((Num(n1), [t1] + u));
      assert ParseSum(ts) == SumTail(Num(n1), [t1] + u);
      if Precedence(op2) == 1 {
        assert ParseTerm(u) == Some((Num(n2), [t2] + t3));
        assert ParseTerm(t3) == Some((Num(n3), []));
        assert SumTail(Bin(op2, Bin(op1, Num(n1), Num(n2)), Num(n3)), []) ==
               Some((Bin(op2, Bin(op1, Num(n1), Num(n2)), Num(n3)), []));
        assert SumTail(Bin(op1, Num(n1), Num(n2)), [t2] + t3) ==
               Some((Bin(op2, Bin(op1, Num(n1), Num(n2)), Num(n3)), []));
        assert SumTail(Num(n1), [t1] + u) == SumTail(Bin(op1, Num(n1), Num(n2)), [t2] + t3);
      } else {
        assert TermTail(Num(n2), [t2] + t3) == Some((Bin(op2, Num(n2), Num(n3)), []));
        assert ParseTerm(u) == Some((Bin(op2, Num(n2), Num(n3)), []));
        assert SumTail(Num(n1), [t1] + u) == Some((Bin(op1, Num(n1), Bin(op2, Num(n2), Num(n3))), []));
      }
    } else {
      if Precedence(op2) == 1 {
        assert TermTail(Num(n1), [t1] + u) == Some((Bin(op1, Num(n1), Num(n2)), [t2] + t3));
        assert ParseTerm(ts) == Some((Bin(op1, Num(n1), Num(n2)), [t2] + t3));
        assert ParseSum(ts) == SumTail(Bin(op1, Num(n1), Num(n2)), [t2] + t3);
        assert ParseTerm(t3) == Some((Num(n3), []));
        assert SumTail(Bin(op2, Bin(op1, Num(n1), Num(n2)), Num(n3)), []) ==
               Some((Bin(op2, Bin(op1, Num(n1), Num(n2)), Num(n3)), []));
      } else {
        assert TermTail(Bin(op1, Num(n1), Num(n2)), [t2] + t3) ==
               Some((Bin(op2, Bin(op1, Num(n1), Num(n2)), Num(n3)), []));
        assert ParseTerm(ts) == Some((Bin(op2, Bin(op1, Num(n1), Num(n2)), Num(n3)), []));
      }
    }
  }
}

=== FILE: laws.dfy ===
/** Equivalence of written trees: the promises `are_equations_equivalent`
    makes about commutativity, grouping and order-sensitive operators,
    stated for every pair of trees rather than for sample strings. */
module Laws {
  import opened Wrappers
  import opened Text
  import opened Syntax
  import opened Parser
  import opened Canonical
  import opened Equivalence
  import opened Printer
  import opened Written

  /** Two written trees are equivalent exactly when they are the same tree,
      or they agree on operands, operators and a non-empty canonical
      string. */
  lemma ShownEquivalentIff(x: Expr, y: Expr)
    ensures Equivalent(Show(x), Show(y)) <==> x == y || SameEquation(x, y)
  {
    ShowFacts(x, y);
    ShowFacts(y, x);
    ParseShow(x);
    ParseShow(y);
    EquivalentIff(Show(x), Show(y));
  }

  /** `a + b` is equivalent to `b + a`, and `a * b` to `b * a`. */
  lemma SwapEquivalent(op: BinOp, a: Expr, b: Expr)
    requires Commutative(op)
    ensures Equivalent(Show(Bin(op, a, b)), Show(Bin(op, b, a)))
  {
    CanonCommutes(op, a, b);
    ShownEquivalentIff(Bin(op, a, b), Bin(op, b, a));
  }

  /** `(a + b) + c` is equivalent to `a + (b + c)`, and likewise for `*`. */
  lemma RegroupEquivalent(op: BinOp, a: Expr, b: Expr, c: Expr)
    requires Commutative(op)
    ensures Equivalent(Show(Bin(op, Bin(op, a, b), c)), Show(Bin(op, a, Bin(op, b, c))))
  {
    var x, y := Bin(op, Bin(op, a, b), c), Bin(op, a, Bin(op, b, c));
    RegroupSame(op, a, b, c);
    ShownEquivalentIff(x, y);
  }

  lemma RegroupSame(op: BinOp, a: Expr, b: Expr, c: Expr)
    requires Commutative(op)
    ensures SameEquation(Bin(op, Bin(op, a, b), c), Bin(op, a, Bin(op, b, c)))
  {
    CanonRegroups(op, a, b, c);
  }

  /** `n - m` is not equivalent to `m - n`, nor `n / m` to `m / n`, unless
      the numbers are equal. */
  lemma SwapDistinguishes(op: BinOp, n: nat, m: nat)
    requires op == Sub || op == Div
    ensures Equivalent(Show(Bin(op, Num(n), Num(m))), Show(Bin(op, Num(m), Num(n)))) <==> n == m
  {
    ShownEquivalentIff(Bin(op, Num(n), Num(m)), Bin(op, Num(m), Num(n)));
    if n != m && Canon(Bin(op, Num(n), Num(m))) == Canon(Bin(op, Num(m), Num(n))) {
      CanonOrderSensitive(op, n, m);
    }
  }

  /** Different written trees with different operand multisets, or
      different operator multisets, are never equivalent. */
  lemma CountsMustAgree(x: Expr, y: Expr)
    requires x != y
    requires Operands(x) != Operands(y) || Operators(x) != Operators(y)
    ensures !Equivalent(Show(x), Show(y))
  {
    ShownEquivalentIff(x, y);
  }

  /** A tuple or call written out is equivalent only to itself. */
  lemma OpaqueOnlyItself(x: Expr, y: Expr)
    requires x.Other?
    ensures Equivalent(Show(x), Show(y)) <==> x == y
  {
    ShownEquivalentIff(x, y);
  }

  /** Texts that read as trees agreeing on operands, operators and a
      non-empty canonical string are equivalent, whatever else differs. */
  lemma ParsedEquivalent(s1: string, s2: string, x: Expr, y: Expr)
    requires Parse(s1) == Some(x) && Parse(s2) == Some(y)
    requires SameEquation(x, y)
    ensures Equivalent(s1, s2)
  {
    EquivalentIff(s1, s2);
  }

  /** Texts that read as trees disagreeing on operands, operators or
      canonical string are not equivalent unless they differ only in
      spaces. */
  lemma ParsedDistinct(s1: string, s2: string, x: Expr, y: Expr)
    requires Parse(s1) == Some(x) && Parse(s2) == Some(y)
    requires !SameEquation(x, y)
    requires ' ' !in s1 && ' ' !in s2 && s1 != s2
    ensures !Equivalent(s1, s2)
  {
    EquivalentIff(s1, s2);
  }
}

=== FILE: lexer.dfy ===
/** The part of Python's tokenizer that text over the calculator alphabet
    reaches: integer literals, the operator tokens `+ - * ** / //`, parentheses,
    blanks, and the logical-line and indentation rules of eval input. Whatever
    the tokenizer would reject becomes a final `Bad` token, which no grammar
    rule consumes. */
module Lexer {
  import opened Text

  datatype Token =
    | TNum(value: nat)
    | TPlus | TMinus | TStar | TDoubleStar | TSlash | TDoubleSlash
    | TLParen | TRParen
    | Bad

  /** Blanks inside a line: space, tab and form feed. */
  predicate IsBlank(c: char) {
    c == ' ' || c == '\t' || c == '\U{C}'
  }

  /** Both line ends; the tokenizer turns "\r\n" and a lone "\r" into "\n". */
  predicate IsNewline(c: char) {
    c == '\n' || c == '\r'
  }

  /** Lexing stops at the first error: only the last token can be `Bad`. */
  predicate BadOnlyLast(r: seq<Token>) {
    forall k :: 0 <= k < |r| - 1 ==> r[k] != Bad
  }

  /** Skips the indentation of a line. The result tells whether the line is
      indented: a form feed resets the column to zero. */
  function SkipIndent(s: string, indented: bool): (r: (string, bool))
    ensures |r.0| <= |s| && r.0 == s[|s| - |r.0|..]
    ensures r.0 == [] || !IsBlank(r.0[0])
  {
    if s == [] || !IsBlank(s[0]) then (s, indented)
    else SkipIndent(s[1..], s[0] != '\U{C}')
  }

  /** Length of the run of digits that starts `s`. */
  function DigitRun(s: string): (n: nat)
    ensures n <= |s|
    ensures forall k :: 0 <= k < n ==> IsDigit(s[k])
    ensures n < |s| ==> !IsDigit(s[n])
  {
    if s == [] || !IsDigit(s[0]) then 0 else 1 + DigitRun(s[1..])
  }

  /** Python rejects a decimal literal with a leading zero unless every digit
      is zero ("00" is 0, "07" is a syntax error). */
  predicate LeadingZeroLiteral(lit: string)
  {
    |lit| > 1 && lit[0] == '0' && !AllZeros(lit)
  }

  predicate AllZeros(lit: string)
  {
    lit == [] || (lit[0] == '0' && AllZeros(lit[1..]))
  }

  /** Tokens of an eval-mode source. */
  function Lex(s: string): (r: seq<Token>)
    ensures BadOnlyLast(r)
  {
    LexLineStart(s)
  }

  /** At the start of a physical line before the expression has begun: blank
      lines are skipped and the first non-blank line must not be indented. */
  function LexLineStart(s: string): (r: seq<Token>)
    ensures BadOnlyLast(r)
    decreases |s|, 1
  {
    var (rest, indented) := SkipIndent(s, false);
    if rest == [] then []
    else if IsNewline(rest[0]) then LexLineStart(rest[1..])
    else if indented then [Bad]
    else LexMid(rest, 0)
  }

  /** Inside the logical line, `depth` parentheses deep. Line ends inside
      parentheses are blanks; a line end outside them ends the expression. */
  function LexMid(s: string, depth: nat): (r: seq<Token>)
    ensures BadOnlyLast(r)
    decreases |s|, 0
  {
    if s == [] then []
    else
      var c := s[0];
      if IsBlank(c) then LexMid(s[1..], depth)
      else if IsNewline(c) then
        if depth > 0 then LexMid(s[1..], depth) else LexDone(s[1..])
      else if IsDigit(c) then
        var n := DigitRun(s);
        var lit := s[..n];
        if LeadingZeroLiteral(lit) then [Bad]
        else [TNum(DecimalValue(lit))] + LexMid(s[n..], depth)
      else if c == '+' then [TPlus] + LexMid(s[1..], depth)
      else if c == '-' then [TMinus] + LexMid(s[1..], depth)
      else if c == '*' then
        if |s| > 1 && s[1] == '*' then [TDoubleStar] + LexMid(s[2..], depth)
        else [TStar] + LexMid(s[1..], depth)
      else if c == '/' then
        if |s| > 1 && s[1] == '/' then [TDoubleSlash] + LexMid(s[2..], depth)
        else [TSlash] + LexMid(s[1..], depth)
      else if c == '(' then [TLParen] + LexMid(s[1..], depth + 1)
      else if c == ')' then
        if depth == 0 then [Bad] else [TRParen] + LexMid(s[1..], depth - 1)
      else [Bad]
  }

  /** After the logical line has ended only blank lines may follow. */
  function LexDone(s: string): (r: seq<Token>)
    ensures r == [] || r == [Bad]
  {
    if s == [] then []
    else if IsBlank(s[0]) || IsNewline(s[0]) then LexDone(s[1..])
    else [Bad]
  }
}

/** The inverse of the tokenizer: the shortest text for a token list. */
module Spelling {
  import opened Text
  import opened Lexer

  function SpellOne(t: Token): string
  {
    match t
    case TNum(n) => NatToString(n)
    case TPlus => "+"
    case TMinus => "-"
    case TStar => "*"
    case TDoubleStar => "**"
    case TSlash => "/"
    case TDoubleSlash => "//"
    case TLParen => "("
    case TRParen => ")"
    case Bad => "."
  }

  function Spell(ts: seq<Token>): string
  {
    if ts == [] then [] else SpellOne(ts[0]) + Spell(ts[1..])
  }

  /** Two tokens written side by side are read back as the same two tokens. */
  predicate Separable(a: Token, b: Token) {
    && !(a.TNum? && b.TNum?)
    && !(a == TStar && (b == TStar || b == TDoubleStar))
    && !(a == TSlash && (b == TSlash || b == TDoubleSlash))
  }

  /** The list can be written without blanks and read back token for token:
      no `Bad`, no closing parenthesis without an open one, and no two
      neighbours that would merge. */
  predicate Spellable(ts: seq<Token>, depth: nat)
  {
    ts == [] ||
    (&& (|ts| > 1 ==> Separable(ts[0], ts[1]))
     && match ts[0]
        case Bad => false
        case TLParen => Spellable(ts[1..], depth + 1)
        case TRParen => depth > 0 && Spellable(ts[1..], depth - 1)
        case _ => Spellable(ts[1..], depth))
  }

  lemma {:induction false} DigitRunOfDigits(a: string, rest: string)
    requires forall k :: 0 <= k < |a| ==> IsDigit(a[k])
    requires rest == [] || !IsDigit(rest[0])
    ensures DigitRun(a + rest) == |a|
  {
    if a != [] {
      assert (a + rest)[1..] == a[1..] + rest;
      DigitRunOfDigits(a[1..], rest);
    }
  }

  /** Depth after reading one token. */
  function DepthAfter(t: Token, depth: nat): nat
  {
    if t == TLParen then depth + 1
    else if t == TRParen && depth > 0 then depth - 1
    else depth
  }

  /** One token's spelling, followed by text it cannot merge with, is read
      back as that token. */
  lemma LexStep(t: Token, rest: string, depth: nat)
    requires t != Bad && (t == TRParen ==> depth > 0)
    requires t.TNum? && rest != [] ==> !IsDigit(rest[0])
    requires (t == TStar || t == TSlash) && rest != [] ==> rest[0] != SpellOne(t)[0]
    ensures LexMid(SpellOne(t) + rest, depth) == [t] + LexMid(rest, DepthAfter(t, depth))
  {
    var s := SpellOne(t) + rest;
    if t.TNum? {
      var lit := NatToString(t.value);
      DigitRunOfDigits(lit, rest);
      assert s[..|lit|] == lit;
      assert s[|lit|..] == rest;
    } else if t == TDoubleStar || t == TDoubleSlash {
      assert s[2..] == rest;
    } else {
      assert s[1..] == rest;
    }
  }

  /** Tokenizing the spelling of a spellable list gives the list back. */
  lemma {:induction false} LexSpell(ts: seq<Token>, depth: nat)
    requires Spellable(ts, depth)
    ensures LexMid(Spell(ts), depth) == ts
  {
    if ts != [] {
      var rest := Spell(ts[1..]);
      assert Spell(ts) == SpellOne(ts[0]) + rest;
      if ts[1..] != [] {
        FirstCharOfSpelling(ts[1..]);
      }
      LexStep(ts[0], rest, depth);
      LexSpell(ts[1..], DepthAfter(ts[0], depth));
      assert ts == [ts[0]] + ts[1..];
    }
  }

  /** The first character of a spelling tells the first token's class. */
  lemma FirstCharOfSpelling(ts: seq<Token>)
    requires ts != [] && ts[0] != Bad
    ensures Spell(ts) != []
    ensures Spell(ts)[0] == SpellOne(ts[0])[0]
    ensures IsDigit(Spell(ts)[0]) <==> ts[0].TNum?
    ensures Spell(ts)[0] == '*' <==> ts[0] == TStar || ts[0] == TDoubleStar
    ensures Spell(ts)[0] == '/' <==> ts[0] == TSlash || ts[0] == TDoubleSlash
    ensures !IsBlank(Spell(ts)[0]) && !IsNewline(Spell(ts)[0])
  {
    assert Spell(ts) == SpellOne(ts[0]) + Spell(ts[1..]);
  }

  /** The whole tokenizer reads a spellable list back from its spelling. */
  lemma LexOfSpelling(ts: seq<Token>)
    requires Spellable(ts, 0)
    ensures Lex(Spell(ts)) == ts
  {
    LexSpell(ts, 0);
    if ts != [] {
      FirstCharOfSpelling(ts);
    }
  }
}

=== FILE: ordering.dfy ===
/** Python's ordering of `str` values (code point by code point, a proper
    prefix first), the in-place `list.sort()` on lists of strings, and
    `str.join`. */
module Ordering {

  /** `a <= b` on Python strings. */
  predicate Below(a: string, b: string)
  {
    if a == [] then true
    else if b == [] then false
    else if a[0] != b[0] then a[0] < b[0]
    else Below(a[1..], b[1..])
  }

  lemma {:induction false} BelowReflexive(a: string)
    ensures Below(a, a)
  {
    if a != [] {
      BelowReflexive(a[1..]);
    }
  }

  lemma {:induction false} BelowTotal(a: string, b: string)
    ensures Below(a, b) || Below(b, a)
  {
    if a != [] && b != [] && a[0] == b[0] {
      BelowTotal(a[1..], b[1..]);
    }
  }

  lemma {:induction false} BelowAntisymmetric(a: string, b: string)
    requires Below(a, b) && Below(b, a)
    ensures a == b
  {
    if a != [] && b != [] {
      BelowAntisymmetric(a[1..], b[1..]);
      assert a == [a[0]] + a[1..];
      assert b == [b[0]] + b[1..];
    }
  }

  lemma {:induction false} BelowTransitive(a: string, b: string, c: string)
    requires Below(a, b) && Below(b, c)
    ensures Below(a, c)
  {
    if a != [] && b != [] && c != [] && a[0] == b[0] && b[0] == c[0] {
      BelowTransitive(a[1..], b[1..], c[1..]);
    }
  }

  predicate Sorted(xs: seq<string>)
  {
    forall i, j :: 0 <= i < j < |xs| ==> Below(xs[i], xs[j])
  }

  /** Places `x` before the first element it is below; the rest keep their order. */
  function Insert(x: string, xs: seq<string>): seq<string>
  {
    if xs == [] then [x]
    else if Below(x, xs[0]) then [x] + xs
    else [xs[0]] + Insert(x, xs[1..])
  }

  /** Inserting into a sorted list keeps it sorted and adds exactly `x`. */
  lemma {:induction false} InsertSorted(x: string, xs: seq<string>)
    requires Sorted(xs)
    ensures Sorted(Insert(x, xs))
    ensures multiset(Insert(x, xs)) == multiset(xs) + multiset{x}
  {
    if xs == [] {
    } else if Below(x, xs[0]) {
      InsertFront(x, xs);
    } else {
      InsertSorted(x, xs[1..]);
      InsertBehind(x, xs);
    }
  }

  /** `x` below the head goes in front. */
  lemma InsertFront(x: string, xs: seq<string>)
    requires Sorted(xs) && xs != [] && Below(x, xs[0])
    ensures Sorted([x] + xs)
  {
    forall j | 0 <= j < |xs| ensures Below(x, xs[j]) {
      if j > 0 { BelowTransitive(x, xs[0], xs[j]); }
    }
  }

  /** `x` above the head goes into the tail, behind the head. */
  lemma InsertBehind(x: string, xs: seq<string>)
    requires Sorted(xs) && xs != [] && !Below(x, xs[0])
    requires Sorted(Insert(x, xs[1..]))
    requires multiset(Insert(x, xs[1..])) == multiset(xs[1..]) + multiset{x}
    ensures Sorted(Insert(x, xs))
    ensures multiset(Insert(x, xs)) == multiset(xs) + multiset{x}
  {
    BelowTotal(x, xs[0]);
    var rest := Insert(x, xs[1..]);
    assert forall k :: 0 <= k < |xs[1..]| ==> Below(xs[0], xs[1..][k]);
    AboveAll(xs[0], x, xs[1..], rest);
    ConsSorted(xs[0], rest);
    assert xs == [xs[0]] + xs[1..];
  }

  /** What lies above `h` stays above it with `x` added, when `h <= x`. */
  lemma AboveAll(h: string, x: string, ys: seq<string>, rest: seq<string>)
    requires Below(h, x)
    requires forall k :: 0 <= k < |ys| ==> Below(h, ys[k])
    requires multiset(rest) == multiset(ys) + multiset{x}
    ensures forall y :: y in multiset(rest) ==> Below(h, y)
  {
    forall y | y in multiset(rest) ensures Below(h, y) {
      if y != x {
        assert y in multiset(ys);
        var j :| 0 <= j < |ys| && ys[j] == y;
      }
    }
  }

  /** A sorted list behind a head below all of it is sorted. */
  lemma ConsSorted(h: string, rest: seq<string>)
    requires Sorted(rest)
    requires forall y :: y in multiset(rest) ==> Below(h, y)
    ensures Sorted([h] + rest)
  {
    forall i, j | 0 <= i < j < |rest| + 1 ensures Below(([h] + rest)[i], ([h] + rest)[j]) {
      if i == 0 {
        assert rest[j - 1] in multiset(rest);
      }
    }
  }

  /** `sorted(xs)`, by insertion. */
  function Sort(xs: seq<string>): seq<string>
  {
    if xs == [] then [] else Insert(xs[0], Sort(xs[1..]))
  }

  /** Sorting gives a sorted permutation of the input. */
  lemma {:induction false} SortSorts(xs: seq<string>)
    ensures Sorted(Sort(xs))
    ensures multiset(Sort(xs)) == multiset(xs)
  {
    if xs != [] {
      SortSorts(xs[1..]);
      InsertSorted(xs[0], Sort(xs[1..]));
      assert xs == [xs[0]] + xs[1..];
    }
  }

  /** The head of a sorted list is below every element. */
  lemma SortedHeadFirst(a: seq<string>, x: string)
    requires Sorted(a) && x in multiset(a)
    ensures Below(a[0], x)
  {
    var k :| 0 <= k < |a| && a[k] == x;
    if k == 0 { BelowReflexive(x); }
  }

  /** Two sorted lists with the same elements start alike. */
  lemma SortedSameHead(a: seq<string>, b: seq<string>)
    requires Sorted(a) && Sorted(b) && a != []
    requires multiset(a) == multiset(b)
    ensures b != [] && a[0] == b[0]
    ensures multiset(a[1..]) == multiset(b[1..])
  {
    assert a[0] in multiset(b);
    assert b[0] in multiset(a);
    SortedHeadFirst(b, a[0]);
    SortedHeadFirst(a, b[0]);
    BelowAntisymmetric(a[0], b[0]);
    assert a == [a[0]] + a[1..];
    assert b == [b[0]] + b[1..];
    assert multiset(a[1..]) == multiset(a) - multiset{a[0]};
    assert multiset(b[1..]) == multiset(b) - multiset{b[0]};
  }

  /** A multiset has exactly one sorted arrangement, so sorting forgets the
      original order and nothing else. */
  lemma {:induction false} SortedUnique(a: seq<string>, b: seq<string>)
    requires Sorted(a) && Sorted(b)
    requires multiset(a) == multiset(b)
    ensures a == b
  {
    if a == [] {
      assert |b| == |multiset(b)| == 0;
    } else {
      SortedSameHead(a, b);
      SortedUnique(a[1..], b[1..]);
      assert a == [a[0]] + a[1..];
      assert b == [b[0]] + b[1..];
    }
  }

  /** Sorting depends only on the multiset of the input. */
  lemma SortPermutationInvariant(xs: seq<string>, ys: seq<string>)
    requires multiset(xs) == multiset(ys)
    ensures Sort(xs) == Sort(ys)
  {
    SortSorts(xs);
    SortSorts(ys);
    SortedUnique(Sort(xs), Sort(ys));
  }

  /** Sorting an already sorted list changes nothing. */
  lemma SortOfSorted(xs: seq<string>)
    requires Sorted(xs)
    ensures Sort(xs) == xs
  {
    SortSorts(xs);
    SortedUnique(Sort(xs), xs);
  }

  /** `sep.join(xs)`. */
  function Join(xs: seq<string>, sep: string): (r: string)
    ensures xs == [] ==> r == []
    ensures |xs| == 1 ==> r == xs[0]
  {
    if xs == [] then []
    else if |xs| == 1 then xs[0]
    else xs[0] + sep + Join(xs[1..], sep)
  }
}

=== FILE: parser.dfy ===
/** Recursive descent over the token stream, following the expression grammar
    of the Python Language Reference (chapter 6, "Expressions") restricted to
    what the tokens can spell:

      sum     ::= sum ("+" | "-") term | term
      term    ::= term ("*" | "/" | "//") factor | factor
      factor  ::= ("+" | "-") factor | power
      power   ::= primary ["**" factor]
      primary ::= primary "(" [["*" | "**"] sum] ")" | atom
      atom    ::= number | "(" ")" | "(" sum ")"

    Binary levels are left-associative; `**` binds its right operand as a
    factor, so it groups to the right and `-2**2` is `-(2**2)`. Each parser
    returns the tree it built and the tokens it did not consume. */
module Parser {
  import opened Wrappers
  import opened Syntax
  import opened Lexer

  type Parsed = Option<(Expr, seq<Token>)>

  /** Every successful parse consumes at least one token. */
  predicate Consumes(t: seq<Token>, r: Parsed) {
    r.Some? ==> |r.value.1| < |t|
  }

  /** Every successful tail parse consumes nothing or more. */
  predicate Keeps(t: seq<Token>, r: Parsed) {
    r.Some? ==> |r.value.1| <= |t|
  }

  function ParseSum(t: seq<Token>): (r: Parsed)
    ensures Consumes(t, r)
    decreases |t|, 6
  {
    match ParseTerm(t)
    case None => None
    case Some((e, rest)) => SumTail(e, rest)
  }

  function SumTail(acc: Expr, t: seq<Token>): (r: Parsed)
    ensures Keeps(t, r)
    decreases |t|, 7
  {
    if t != [] && (t[0] == TPlus || t[0] == TMinus) then
      var op := if t[0] == TPlus then Add else Sub;
      match ParseTerm(t[1..])
      case None => None
      case Some((e, rest)) => SumTail(Bin(op, acc, e), rest)
    else Some((acc, t))
  }

  function ParseTerm(t: seq<Token>): (r: Parsed)
    ensures Consumes(t, r)
    decreases |t|, 5
  {
    match ParseFactor(t)
    case None => None
    case Some((e, rest)) => TermTail(e, rest)
  }

  function TermTail(acc: Expr, t: seq<Token>): (r: Parsed)
    ensures Keeps(t, r)
    decreases |t|, 7
  {
    if t != [] && (t[0] == TStar || t[0] == TSlash || t[0] == TDoubleSlash) then
      var op := if t[0] == TStar then Mult else if t[0] == TSlash then Div else FloorDiv;
      match ParseFactor(t[1..])
      case None => None
      case Some((e, rest)) => TermTail(Bin(op, acc, e), rest)
    else Some((acc, t))
  }

  function ParseFactor(t: seq<Token>): (r: Parsed)
    ensures Consumes(t, r)
    decreases |t|, 4
  {
    if t != [] && (t[0] == TPlus || t[0] == TMinus) then
      var uop := if t[0] == TPlus then UAdd else USub;
      match ParseFactor(t[1..])
      case None => None
      case Some((e, rest)) => Some((Unary(uop, e), rest))
    else ParsePower(t)
  }

  function ParsePower(t: seq<Token>): (r: Parsed)
    ensures Consumes(t, r)
    decreases |t|, 3
  {
    match ParsePrimary(t)
    case None => None
    case Some((base, rest)) =>
      if rest != [] && rest[0] == TDoubleStar then
        match ParseFactor(rest[1..])
        case None => None
        case Some((exponent, rest')) => Some((Bin(Pow, base, exponent), rest'))
      else Some((base, rest))
  }

  function ParsePrimary(t: seq<Token>): (r: Parsed)
    ensures Consumes(t, r)
    decreases |t|, 2
  {
    match ParseAtom(t)
    case None => None
    case Some((e, rest)) => CallTail(e, rest)
  }

  /** Call trailers `(...)` after a primary; the callee and the argument are
      parsed and then dropped. */
  function CallTail(callee: Expr, t: seq<Token>): (r: Parsed)
    ensures Keeps(t, r)
    decreases |t|, 7
  {
    if t != [] && t[0] == TLParen then
      match CallArgument(t[1..])
      case None => None
      case Some(rest) => CallTail(Other(Call), rest)
    else Some((callee, t))
  }

  /** The argument list of a call through its closing parenthesis: empty, one
      argument, a `*`-unpacked one or a `**`-unpacked one. */
  function CallArgument(t: seq<Token>): (r: Option<seq<Token>>)
    ensures r.Some? ==> |r.value| < |t|
    decreases |t|, 7
  {
    if t == [] then None
    else if t[0] == TRParen then Some(t[1..])
    else
      var u := if t[0] == TStar || t[0] == TDoubleStar then t[1..] else t;
      match ParseSum(u)
      case None => None
      case Some((_, rest)) =>
        if rest != [] && rest[0] == TRParen then Some(rest[1..]) else None
  }

  function ParseAtom(t: seq<Token>): (r: Parsed)
    ensures Consumes(t, r)
    decreases |t|, 1
  {
    if t == [] then None
    else match t[0]
      case TNum(n) => Some((Num(n), t[1..]))
      case TLParen =>
        if |t| > 1 && t[1] == TRParen then Some((Other(Tuple), t[2..]))
        else (
          match ParseSum(t[1..])
          case None => None
          case Some((e, rest)) =>
            if rest != [] && rest[0] == TRParen then Some((e, rest[1..])) else None)
      case _ => None
  }

  /** `ast.parse(text, mode="eval").body`, or None where Python raises. */
  function Parse(s: string): Option<Expr>
  {
    match ParseSum(Lex(s))
    case Some((e, rest)) => if rest == [] then Some(e) else None
    case None => None
  }
}

/** Reading a text whose tokens are known. */
module Reading {
  import opened Wrappers
  import opened Syntax
  import opened Lexer
  import opened Spelling
  import opened Parser

  /** A text that is the spelling of a token list parses as that list does. */
  lemma ParseOfSpelling(s: string, ts: seq<Token>, e: Expr)
    requires Spellable(ts, 0) && Spell(ts) == s
    requires ParseSum(ts) == Some((e, []))
    ensures Parse(s) == Some(e)
  {
    LexOfSpelling(ts);
  }
}

=== FILE: printer.dfy ===
/** Writing an expression tree back as text, fully parenthesised, and the
    proof that the parser reads every such text back as the same tree. */
module Printer {
  import opened Wrappers
  import opened Syntax
  import opened Lexer
  import opened Spelling
  import opened Parser
  import opened Grammar
  import opened Reading

  /** Nesting depth after reading a whole token list. */
  function DepthAll(ts: seq<Token>, depth: nat): nat
  {
    if ts == [] then depth else DepthAll(ts[1..], DepthAfter(ts[0], depth))
  }

  /** Two spellable lists written one after the other stay spellable when
      the tokens at the seam do not merge. */
  lemma {:induction false} SpellableAppend(a: seq<Token>, b: seq<Token>, depth: nat)
    requires Spellable(a, depth) && Spellable(b, DepthAll(a, depth))
    requires a != [] && b != [] ==> Separable(a[|a| - 1], b[0])
    ensures Spellable(a + b, depth)
  {
    if a == [] {
      assert a + b == b;
    } else {
      var ab := a + b;
      assert ab[0] == a[0];
      assert ab[1..] == a[1..] + b;
      if |a| == 1 && b != [] {
        assert ab[1] == b[0];
      }
      if a[1..] != [] && b != [] {
        assert a[1..][|a[1..]| - 1] == a[|a| - 1];
      }
      SpellableAppend(a[1..], b, DepthAfter(a[0], depth));
    }
  }

  lemma {:induction false} DepthAllAppend(a: seq<Token>, b: seq<Token>, depth: nat)
    ensures DepthAll(a + b, depth) == DepthAll(b, DepthAll(a, depth))
  {
    if a == [] {
      assert a + b == b;
    } else {
      assert (a + b)[0] == a[0];
      assert (a + b)[1..] == a[1..] + b;
      DepthAllAppend(a[1..], b, DepthAfter(a[0], depth));
    }
  }

  lemma DepthAllOne(t: Token, depth: nat)
    ensures DepthAll([t], depth) == DepthAfter(t, depth)
  {
    assert [t][1..] == [];
  }

  function SignToken(u: UnaryOp): Token
  {
    if u == UAdd then TPlus else TMinus
  }

  /** The tokens of a tree with every operator node in parentheses. A
      tuple is written `()` and a call `0()`. */
  function ShowTokens(e: Expr): seq<Token>
  {
    match e
    case Num(n) => [TNum(n)]
    case Unary(u, x) => [TLParen, SignToken(u)] + ShowTokens(x) + [TRParen]
    case Bin(op, l, r) => [TLParen] + ShowTokens(l) + [OpToken(op)] + ShowTokens(r) + [TRParen]
    case Other(Tuple) => [TLParen, TRParen]
    case Other(Call) => [TNum(0), TLParen, TRParen]
  }

  function Show(e: Expr): string
  {
    Spell(ShowTokens(e))
  }

  /** The shape facts below, for a list wrapped as `(` front body `)`. */
  predicate Shaped(ts: seq<Token>, depth: nat)
  {
    && ts != []
    && (ts[0].TNum? || ts[0] == TLParen)
    && (ts[|ts| - 1].TNum? || ts[|ts| - 1] == TRParen)
    && Spellable(ts, depth)
    && DepthAll(ts, depth) == depth
  }

  /** Appending a balanced list that opens with a number or `(` to a
      spellable prefix ending in an operator or `(`. */
  lemma AppendShaped(a: seq<Token>, b: seq<Token>, depth: nat)
    requires a != [] && Spellable(a, depth) && DepthAll(a, depth) == depth + 1
    requires a[|a| - 1] != Bad && !a[|a| - 1].TNum?
    requires Shaped(b, depth + 1)
    ensures Spellable(a + b, depth) && DepthAll(a + b, depth) == depth + 1
    ensures (a + b)[|a + b| - 1] == b[|b| - 1]
  {
    SpellableAppend(a, b, depth);
    DepthAllAppend(a, b, depth);
  }

  /** Closing a list at depth one with `)`. */
  lemma CloseShaped(a: seq<Token>, depth: nat)
    requires a != [] && a[0] == TLParen
    requires Spellable(a, depth) && DepthAll(a, depth) == depth + 1
    requires a[|a| - 1].TNum? || a[|a| - 1] == TRParen
    ensures Shaped(a + [TRParen], depth)
  {
    DepthAllOne(TRParen, depth + 1);
    assert Spellable([TRParen], depth + 1);
    SpellableAppend(a, [TRParen], depth);
    DepthAllAppend(a, [TRParen], depth);
  }

  lemma UnaryShape(u: UnaryOp, x: Expr, depth: nat)
    requires Shaped(ShowTokens(x), depth + 1)
    ensures Shaped(ShowTokens(Unary(u, x)), depth)
  {
    var front := [TLParen, SignToken(u)];
    assert front[1..] == [SignToken(u)] && [SignToken(u)][1..] == [];
    assert Spellable(front, depth);
    DepthAllOne(SignToken(u), depth + 1);
    assert DepthAll(front, depth) == depth + 1;
    AppendShaped(front, ShowTokens(x), depth);
    CloseShaped(front + ShowTokens(x), depth);
  }

  /** `(` left operator: spellable, one level deep, ending in the operator. */
  lemma FrontShaped(op: BinOp, ls: seq<Token>, depth: nat)
    requires Shaped(ls, depth + 1)
    ensures var b := [TLParen] + ls + [OpToken(op)];
      Spellable(b, depth) && DepthAll(b, depth) == depth + 1 && b[0] == TLParen
  {
    DepthAllOne(TLParen, depth);
    assert Spellable([TLParen], depth);
    AppendShaped([TLParen], ls, depth);
    var a := [TLParen] + ls;
    DepthAllOne(OpToken(op), depth + 1);
    assert Spellable([OpToken(op)], depth + 1);
    SpellableAppend(a, [OpToken(op)], depth);
    DepthAllAppend(a, [OpToken(op)], depth);
  }

  lemma BinShape(op: BinOp, l: Expr, r: Expr, depth: nat)
    requires Shaped(ShowTokens(l), depth + 1) && Shaped(ShowTokens(r), depth + 1)
    ensures Shaped(ShowTokens(Bin(op, l, r)), depth)
  {
    var ls, rs := ShowTokens(l), ShowTokens(r);
    FrontShaped(op, ls, depth);
    var b := [TLParen] + ls + [OpToken(op)];
    assert b[|b| - 1] == OpToken(op);
    AppendShaped(b, rs, depth);
    CloseShaped(b + rs, depth);
  }

  /** A written tree opens with a number or `(`, closes with a number or
      `)`, and is balanced. */
  lemma {:induction false} ShowShape(e: Expr, depth: nat)
    ensures ShowTokens(e) != []
    ensures ShowTokens(e)[0].TNum? || ShowTokens(e)[0] == TLParen
    ensures ShowTokens(e)[|ShowTokens(e)| - 1].TNum? || ShowTokens(e)[|ShowTokens(e)| - 1] == TRParen
    ensures Spellable(ShowTokens(e), depth)
    ensures DepthAll(ShowTokens(e), depth) == depth
  {
    match e
    case Num(n) =>
    case Unary(u, x) =>
      ShowShape(x, depth + 1);
      UnaryShape(u, x, depth);
    case Bin(op, l, r) =>
      ShowShape(l, depth + 1);
      ShowShape(r, depth + 1);
      BinShape(op, l, r, depth);
    case Other(Tuple) =>
      var ts := [TLParen, TRParen];
      assert ts[1..] == [TRParen] && [TRParen][1..] == [];
      DepthAllOne(TRParen, depth + 1);
    case Other(Call) =>
      var ts := [TNum(0), TLParen, TRParen];
      assert ts[1..] == [TLParen, TRParen];
      assert [TLParen, TRParen][1..] == [TRParen] && [TRParen][1..] == [];
      DepthAllOne(TRParen, depth + 1);
      assert DepthAll([TLParen, TRParen], depth) == depth;
      assert Spellable([TLParen, TRParen], depth);
  }

  /** A written tree opens with a number or `(`. */
  lemma ShownOpens(e: Expr)
    ensures ShowTokens(e) != [] && !IsSign(ShowTokens(e)[0]) && ShowTokens(e)[0] != TRParen
  {
    ShowShape(e, 0);
  }

  /** A sign before a whole primary, closed by `)`, is a whole sum. */
  lemma SignedSum(s: Token, v: seq<Token>, x: Expr, closing: seq<Token>)
    requires IsSign(s) && v != [] && !IsSign(v[0])
    requires closing != [] && closing[0] == TRParen
    requires ParsePrimary(v) == Some((x, closing))
    ensures ParseSum([s] + v) == Some((Unary(if s == TPlus then UAdd else USub, x), closing))
  {
    Lift(v, x, closing);
    SignFactor(s, v, x, closing);
    FactorIsSum([s] + v, Unary(if s == TPlus then UAdd else USub, x), closing);
  }

  /** `(` sign xs `)` is read as a signed node when xs is read as a whole
      primary up to the `)`. */
  lemma ParenthesisedSign(s: Token, xs: seq<Token>, x: Expr, rest: seq<Token>)
    requires IsSign(s) && xs != [] && !IsSign(xs[0])
    requires rest == [] || rest[0] != TLParen
    requires ParsePrimary(xs + [TRParen] + rest) == Some((x, [TRParen] + rest))
    ensures ParsePrimary([TLParen] + ([s] + xs) + [TRParen] + rest)
              == Some((Unary(if s == TPlus then UAdd else USub, x), rest))
  {
    var v := xs + [TRParen] + rest;
    assert v[0] == xs[0];
    SignedSum(s, v, x, [TRParen] + rest);
    var inner := [s] + xs;
    assert inner + [TRParen] + rest == [s] + v;
    Parenthesised(inner, Unary(if s == TPlus then UAdd else USub, x), rest);
  }

  lemma UnaryTokens(u: UnaryOp, x: Expr, rest: seq<Token>)
    ensures ShowTokens(Unary(u, x)) + rest == [TLParen] + ([SignToken(u)] + ShowTokens(x)) + [TRParen] + rest
  {
  }

  /** A written unary node is read as that node, given its operand is. */
  lemma UnaryShown(u: UnaryOp, x: Expr, rest: seq<Token>)
    requires rest == [] || rest[0] != TLParen
    requires ParsePrimary(ShowTokens(x) + [TRParen] + rest) == Some((x, [TRParen] + rest))
    ensures ParsePrimary(ShowTokens(Unary(u, x)) + rest) == Some((Unary(u, x), rest))
  {
    ShownOpens(x);
    ParenthesisedSign(SignToken(u), ShowTokens(x), x, rest);
    UnaryTokens(u, x, rest);
  }

  /** `(` ls op rs `)` is read as one binary node when ls and rs are read
      as whole primaries. */
  lemma ParenthesisedBinary(op: BinOp, ls: seq<Token>, l: Expr, rs: seq<Token>, r: Expr,
                            rest: seq<Token>)
    requires ls != [] && !IsSign(ls[0]) && ls[0] != TRParen
    requires rs != [] && !IsSign(rs[0])
    requires rest == [] || rest[0] != TLParen
    requires ParsePrimary(ls + ([OpToken(op)] + (rs + ([TRParen] + rest))))
               == Some((l, [OpToken(op)] + (rs + ([TRParen] + rest))))
    requires ParsePrimary(rs + ([TRParen] + rest)) == Some((r, [TRParen] + rest))
    ensures ParsePrimary([TLParen] + (ls + [OpToken(op)] + rs) + [TRParen] + rest)
              == Some((Bin(op, l, r), rest))
  {
    var inner := ls + [OpToken(op)] + rs;
    assert inner[0] == ls[0];
    InnerBinary(op, ls, l, rs, r, rest);
    Nest(ls, OpToken(op), rs, rest);
    Parenthesised(inner, Bin(op, l, r), rest);
  }

  /** ls op rs `)`: the binary node, read up to the `)`. */
  lemma InnerBinary(op: BinOp, ls: seq<Token>, l: Expr, rs: seq<Token>, r: Expr,
                    rest: seq<Token>)
    requires ls != [] && !IsSign(ls[0])
    requires rs != [] && !IsSign(rs[0])
    requires ParsePrimary(ls + ([OpToken(op)] + (rs + ([TRParen] + rest))))
               == Some((l, [OpToken(op)] + (rs + ([TRParen] + rest))))
    requires ParsePrimary(rs + ([TRParen] + rest)) == Some((r, [TRParen] + rest))
    ensures ParseSum(ls + ([OpToken(op)] + (rs + ([TRParen] + rest)))) == Some((Bin(op, l, r), [TRParen] + rest))
  {
    var closing := [TRParen] + rest;
    var v := rs + closing;
    var t := ls + ([OpToken(op)] + v);
    assert t[0] == ls[0] && v[0] == rs[0];
    BinaryOfPrimaries(op, t, l, v, r, closing);
  }

  lemma Nest(ls: seq<Token>, o: Token, rs: seq<Token>, rest: seq<Token>)
    ensures ls + [o] + rs + [TRParen] + rest == ls + ([o] + (rs + ([TRParen] + rest)))
  {
  }

  lemma Regroup(ls: seq<Token>, o: Token, rs: seq<Token>, rest: seq<Token>)
    ensures [TLParen] + ls + [o] + rs + [TRParen] + rest
         == [TLParen] + (ls + [o] + rs) + [TRParen] + rest
  {
  }

  /** A written binary node is read as that node, given its operands are. */
  lemma BinShown(op: BinOp, l: Expr, r: Expr, rest: seq<Token>)
    requires rest == [] || rest[0] != TLParen
    requires ParsePrimary(ShowTokens(l) + ([OpToken(op)] + (ShowTokens(r) + ([TRParen] + rest))))
               == Some((l, [OpToken(op)] + (ShowTokens(r) + ([TRParen] + rest))))
    requires ParsePrimary(ShowTokens(r) + ([TRParen] + rest)) == Some((r, [TRParen] + rest))
    ensures ParsePrimary(ShowTokens(Bin(op, l, r)) + rest) == Some((Bin(op, l, r), rest))
  {
    var ls, rs := ShowTokens(l), ShowTokens(r);
    ShownOpens(l);
    ShownOpens(r);
    ParenthesisedBinary(op, ls, l, rs, r, rest);
    Regroup(ls, OpToken(op), rs, rest);
  }

  /** Every written tree is read back as a whole primary. */
  lemma {:induction false} ParseShown(e: Expr, rest: seq<Token>)
    requires rest == [] || rest[0] != TLParen
    ensures ParsePrimary(ShowTokens(e) + rest) == Some((e, rest))
  {
    match e
    case Num(n) =>
      NumberPrimary(n, rest);
    case Unary(u, x) =>
      ParseShown(x, [TRParen] + rest);
      assert ShowTokens(x) + ([TRParen] + rest) == ShowTokens(x) + [TRParen] + rest;
      UnaryShown(u, x, rest);
    case Bin(op, l, r) =>
      ParseShown(l, [OpToken(op)] + (ShowTokens(r) + ([TRParen] + rest)));
      ParseShown(r, [TRParen] + rest);
      BinShown(op, l, r, rest);
    case Other(Tuple) =>
      TupleShown(rest);
    case Other(Call) =>
      CallShown(rest);
  }

  lemma TupleShown(rest: seq<Token>)
    requires rest == [] || rest[0] != TLParen
    ensures ParsePrimary([TLParen, TRParen] + rest) == Some((Other(Tuple), rest))
  {
    var t := [TLParen, TRParen] + rest;
    assert t[2..] == rest;
  }

  lemma CallShown(rest: seq<Token>)
    requires rest == [] || rest[0] != TLParen
    ensures ParsePrimary([TNum(0), TLParen, TRParen] + rest) == Some((Other(Call), rest))
  {
    var t := [TNum(0), TLParen, TRParen] + rest;
    assert t[1..] == [TLParen, TRParen] + rest;
    assert t[1..][1..] == [TRParen] + rest;
    assert ([TRParen] + rest)[1..] == rest;
    assert CallArgument([TRParen] + rest) == Some(rest);
    assert CallTail(Other(Call), rest) == Some((Other(Call), rest));
  }

  /** Reading a written tree gives the tree back. */
  lemma ParseShow(e: Expr)
    ensures Parse(Show(e)) == Some(e)
  {
    var ts := ShowTokens(e);
    ShowShape(e, 0);
    ParseShown(e, []);
    assert ts + [] == ts;
    Lift(ts, e, []);
    ParseOfSpelling(Show(e), ts, e);
  }
}

/** What the round trip says about written texts. */
module Written {
  import opened Wrappers
  import opened Text
  import opened Syntax
  import opened Lexer
  import opened Spelling
  import opened Parser
  import opened Grammar
  import opened Printer

  lemma {:induction false} SpellHasNoSpaces(ts: seq<Token>)
    ensures ' ' !in Spell(ts)
  {
    if ts != [] {
      var w := SpellOne(ts[0]);
      assert ' ' !in w by {
        if ts[0].TNum? {
          assert forall k :: 0 <= k < |w| ==> IsDigit(w[k]);
        }
      }
      SpellHasNoSpaces(ts[1..]);
    }
  }

  /** Written trees contain no spaces, and different trees are written
      differently. */
  lemma ShowFacts(x: Expr, y: Expr)
    ensures RemoveSpaces(Show(x)) == Show(x)
    ensures Show(x) == Show(y) <==> x == y
  {
    SpellHasNoSpaces(ShowTokens(x));
    if Show(x) == Show(y) {
      ParseShow(x);
      ParseShow(y);
    }
  }

  lemma {:induction false} SpellAppend(a: seq<Token>, b: seq<Token>)
    ensures Spell(a + b) == Spell(a) + Spell(b)
  {
    if a == [] {
      assert a + b == b;
    } else {
      assert (a + b)[0] == a[0];
      assert (a + b)[1..] == a[1..] + b;
      SpellAppend(a[1..], b);
      var h, t := SpellOne(a[0]), Spell(a[1..]);
      assert Spell(a + b) == h + (t + Spell(b));
      assert h + (t + Spell(b)) == (h + t) + Spell(b);
    }
  }

  lemma SpellTwo(x: seq<Token>, y: seq<Token>, z: seq<Token>, w: seq<Token>)
    ensures Spell(x + y + z + w) == Spell(x) + Spell(y) + Spell(z) + Spell(w)
  {
    SpellAppend(x + y + z, w);
    SpellAppend(x + y, z);
    SpellAppend(x, y);
  }

  lemma SpellSingle(t: Token)
    ensures Spell([t]) == SpellOne(t)
  {
    assert [t][1..] == [];
  }

  lemma ShowUnary(u: UnaryOp, x: Expr)
    ensures Show(Unary(u, x)) == "(" + SpellOne(SignToken(u)) + Show(x) + ")"
  {
    SpellTwo([TLParen], [SignToken(u)], ShowTokens(x), [TRParen]);
    assert [TLParen, SignToken(u)] == [TLParen] + [SignToken(u)];
    SpellSingle(TLParen);
    SpellSingle(SignToken(u));
    SpellSingle(TRParen);
  }

  lemma ShowBin(op: BinOp, l: Expr, r: Expr)
    ensures Show(Bin(op, l, r)) == "(" + Show(l) + SpellOne(OpToken(op)) + Show(r) + ")"
  {
    var ls, rs := ShowTokens(l), ShowTokens(r);
    var front := [TLParen] + ls;
    assert ShowTokens(Bin(op, l, r)) == front + [OpToken(op)] + rs + [TRParen];
    SpellTwo(front, [OpToken(op)], rs, [TRParen]);
    SpellAppend([TLParen], ls);
    SpellSingle(TLParen);
    SpellSingle(OpToken(op));
    SpellSingle(TRParen);
  }

  /** A written tree as text: a numeral, `(` sign operand `)`, or `(` left
      operator right `)`. */
  lemma ShowText(e: Expr)
    ensures e.Num? ==> Show(e) == NatToString(e.n)
    ensures e.Unary? ==> Show(e) == "(" + SpellOne(SignToken(e.uop)) + Show(e.operand) + ")"
    ensures e.Bin? ==> Show(e) == "(" + Show(e.left) + SpellOne(OpToken(e.op)) + Show(e.right) + ")"
    ensures e == Other(Tuple) ==> Show(e) == "()"
    ensures e == Other(Call) ==> Show(e) == "0()"
  {
    match e
    case Num(n) =>
      SpellSingle(TNum(n));
    case Unary(u, x) =>
      ShowUnary(u, x);
    case Bin(op, l, r) =>
      ShowBin(op, l, r);
    case Other(Tuple) =>
      assert [TLParen, TRParen][1..] == [TRParen] && [TRParen][1..] == [];
    case Other(Call) =>
      assert [TNum(0), TLParen, TRParen][1..] == [TLParen, TRParen];
      assert [TLParen, TRParen][1..] == [TRParen] && [TRParen][1..] == [];
  }
}

=== FILE: sampling.dfy ===
/** `random.sample(pool, k)`: `k` entries of `pool` drawn without
    replacement, in the order drawn. The random source becomes a number
    `seed` whose digits in base `|pool|`, `|pool| - 1`, ... pick the
    positions, so every draw the library can make is the result of some
    seed. */
module Sampling {

  /** No entry occurs twice. */
  predicate Distinct<T(==)>(s: seq<T>)
  {
    forall i, j :: 0 <= i < j < |s| ==> s[i] != s[j]
  }

  /** The entry at `i` taken out of `pool`. */
  function Remove<T>(pool: seq<T>, i: nat): (r: seq<T>)
    requires i < |pool|
    ensures |r| == |pool| - 1
    ensures multiset(r) + multiset{pool[i]} == multiset(pool)
  {
    assert pool == pool[..i] + [pool[i]] + pool[i + 1..];
    pool[..i] + pool[i + 1..]
  }

  /** Draws `k` entries: the entry at `seed % |pool|`, then `k - 1` more
      from what is left with `seed / |pool|`. */
  function Sample<T>(pool: seq<T>, k: nat, seed: nat): (r: seq<T>)
    requires k <= |pool|
    ensures |r| == k
    ensures multiset(r) <= multiset(pool)
    decreases k
  {
    if k == 0 then []
    else
      var i := seed % |pool|;
      [pool[i]] + Sample(Remove(pool, i), k - 1, seed / |pool|)
  }

  /** Base-`n` digits: `i + n * q` has last digit `i` and leaves `q`. */
  lemma DigitSplit(n: nat, i: nat, q: nat)
    requires i < n
    ensures (i + n * q) % n == i
    ensures (i + n * q) / n == q
  {
    var a := i + n * q;
    var d, m := a / n, a % n;
    assert n * d + m == n * q + i;
    MulBounds(n, d - q);
    assert n * (d - q) == n * d - n * q;
  }

  lemma MulBounds(n: int, k: int)
    requires n > 0
    ensures k >= 1 ==> n * k >= n
    ensures k <= -1 ==> n * k <= -n
  {
  }

  /** The seed whose first draw is `i` and whose later draws come from `q`. */
  function Combine(n: nat, i: nat, q: nat): (s: nat)
    requires i < n
    ensures s % n == i && s / n == q
  {
    DigitSplit(n, i, q);
    i + n * q
  }

  /** The seed `Combine(|pool|, i, q)` draws the entry at `i` first and
      continues as `q` does on the rest. */
  lemma SampleCombined<T>(pool: seq<T>, k: nat, i: nat, q: nat)
    requires 0 < k <= |pool| && i < |pool|
    ensures Sample(pool, k, Combine(|pool|, i, q)) == [pool[i]] + Sample(Remove(pool, i), k - 1, q)
  {
  }

  /** Every draw is possible: any `k` entries of `pool`, taken without
      replacement in any order, are what `Sample` gives for some seed. */
  lemma {:induction false} SampleReaches<T>(pool: seq<T>, t: seq<T>)
    requires multiset(t) <= multiset(pool)
    ensures |t| <= |pool|
    ensures exists seed: nat :: Sample(pool, |t|, seed) == t
    decreases |t|
  {
    if t == [] {
      assert Sample(pool, 0, 0) == t;
    } else {
      var x, tail := t[0], t[1..];
      assert t == [x] + tail;
      assert x in multiset(t);
      assert x in pool;
      var i :| 0 <= i < |pool| && pool[i] == x;
      var rest := Remove(pool, i);
      TakeOne(t, pool, rest, x);
      SampleReaches(rest, tail);
      var q: nat :| Sample(rest, |tail|, q) == tail;
      SampleCombined(pool, |t|, i, q);
      assert Sample(pool, |t|, Combine(|pool|, i, q)) == t;
    }
  }

  /** Taking the same entry out of both sides keeps the inclusion. */
  lemma TakeOne<T>(t: seq<T>, pool: seq<T>, rest: seq<T>, x: T)
    requires t != [] && t[0] == x
    requires multiset(t) <= multiset(pool)
    requires multiset(rest) + multiset{x} == multiset(pool)
    ensures multiset(t[1..]) <= multiset(rest)
  {
    assert t == [x] + t[1..];
    var a := multiset(t[1..]);
    assert a + multiset{x} == multiset(t);
    forall y ensures a[y] <= multiset(rest)[y] {
      assert a[y] + multiset{x}[y] == multiset(t)[y];
    }
  }

  /** Drawing from entries that are pairwise distinct gives distinct
      entries. */
  lemma SampleDistinct<T>(pool: seq<T>, k: nat, seed: nat)
    requires k <= |pool|
    requires Distinct(pool)
    ensures Distinct(Sample(pool, k, seed))
  {
    var r := Sample(pool, k, seed);
    forall i, j | 0 <= i < j < |r| ensures r[i] != r[j] {
      if r[i] == r[j] {
        var m := multiset(r);
        assert r == r[..i] + [r[i]] + r[i + 1..j] + [r[j]] + r[j + 1..];
        assert m[r[i]] >= 2;
        CountOnce(pool, r[i]);
      }
    }
  }

  /** An entry occurs at most once among distinct entries. */
  lemma {:induction false} CountOnce<T>(pool: seq<T>, x: T)
    requires Distinct(pool)
    ensures multiset(pool)[x] <= 1
    decreases |pool|
  {
    if pool != [] {
      CountOnce(pool[1..], x);
      assert pool == [pool[0]] + pool[1..];
      if pool[0] == x {
        assert x !in pool[1..];
      }
    }
  }
}

=== FILE: syntax.dfy ===
/** The expression trees `ast.parse(text, mode="eval")` yields for text over the
    calculator alphabet: numbers, unary and binary operators, and the two other
    node kinds that alphabet can spell. */
module Syntax {

  /** Binary operator classes, named as Python's `ast` module names them. */
  datatype BinOp = Add | Sub | Mult | Div | Pow | FloorDiv

  /** Unary operator classes: `-x` is USub, `+x` is UAdd. */
  datatype UnaryOp = USub | UAdd

  /** Nodes that are neither numbers nor operators: `()` is an empty Tuple and
      `2(3)` a Call. Nothing in the system looks inside them, so their
      children are not kept. */
  datatype OtherKind = Tuple | Call

  datatype Expr =
    | Num(n: nat)
    | Unary(uop: UnaryOp, operand: Expr)
    | Bin(op: BinOp, left: Expr, right: Expr)
    | Other(kind: OtherKind)

  /** An operator occurrence as the signature counts it: a unary minus
      (`unary_USub`) is a different kind from a binary minus (`Sub`). */
  datatype OperatorKind = BinKind(bop: BinOp) | UnaryKind(u: UnaryOp)

  /** The operator kinds a tree uses, with multiplicity. The insides of a
      Tuple or Call are not visited. */
  function Operators(e: Expr): multiset<OperatorKind>
  {
    match e
    case Num(_) => multiset{}
    case Unary(u, x) => multiset{UnaryKind(u)} + Operators(x)
    case Bin(op, l, r) => multiset{BinKind(op)} + Operators(l) + Operators(r)
    case Other(_) => multiset{}
  }

  /** The numbers a tree uses, with multiplicity. */
  function Operands(e: Expr): multiset<nat>
  {
    match e
    case Num(n) => multiset{n}
    case Unary(_, x) => Operands(x)
    case Bin(_, l, r) => Operands(l) + Operands(r)
    case Other(_) => multiset{}
  }
}

=== FILE: text.dfy ===
/** Character classes and string helpers with the meaning Python gives them. */
module Text {

  predicate IsDigit(c: char) {
    '0' <= c <= '9'
  }

  function DigitValue(c: char): (d: nat)
    requires IsDigit(c)
    ensures d < 10
  {
    (c as int - '0' as int) as nat
  }

  function DigitChar(d: nat): (c: char)
    requires d < 10
    ensures IsDigit(c) && DigitValue(c) == d
  {
    (d + '0' as int) as char
  }

  /** Python's `str.isspace`, which is also what `\s` matches in a `str` pattern
      and what `str.strip()` removes: the ASCII controls 9-13 and 28-31, the
      space, NEL, NBSP and the Unicode space separators. */
  predicate IsSpace(c: char) {
    || '\t' <= c <= '\r'
    || '\U{1C}' <= c <= '\U{1F}'
    || c == ' '
    || c == '\U{85}'
    || c == '\U{A0}'
    || c == '\U{1680}'
    || '\U{2000}' <= c <= '\U{200A}'
    || c == '\U{2028}' || c == '\U{2029}'
    || c == '\U{202F}' || c == '\U{205F}'
    || c == '\U{3000}'
  }

  /** `s.lstrip()`: drops the longest all-space prefix. */
  function TrimStart(s: string): (r: string)
    ensures |r| <= |s| && r == s[|s| - |r|..]
    ensures forall k :: 0 <= k < |s| - |r| ==> IsSpace(s[k])
    ensures r == [] || !IsSpace(r[0])
  {
    if s != [] && IsSpace(s[0]) then TrimStart(s[1..]) else s
  }

  /** `s.rstrip()`: drops the longest all-space suffix. */
  function TrimEnd(s: string): (r: string)
    ensures |r| <= |s| && r == s[..|r|]
    ensures forall k :: |r| <= k < |s| ==> IsSpace(s[k])
    ensures r == [] || !IsSpace(r[|r| - 1])
  {
    if s != [] && IsSpace(s[|s| - 1]) then TrimEnd(s[..|s| - 1]) else s
  }

  /** `s.strip()`: the slice of `s` between its leading and trailing spaces. */
  function Strip(s: string): (r: string)
    ensures r == [] <==> forall k :: 0 <= k < |s| ==> IsSpace(s[k])
    ensures r != [] ==> !IsSpace(r[0]) && !IsSpace(r[|r| - 1])
  {
    var t := TrimStart(s);
    var r := TrimEnd(t);
    if r == [] then
      AllSpace(s, t);
      r
    else
      assert r[0] == t[0] && s[|s| - |t|] == t[0];
      r
  }

  /** What `strip` keeps is a contiguous piece of the text. */
  lemma StripIsSlice(s: string)
    ensures var a, r := |s| - |TrimStart(s)|, Strip(s); a + |r| <= |s| && r == s[a..a + |r|]
  {
  }

  /** Text without leading or trailing space is its own strip. */
  lemma StripUnchanged(s: string)
    requires s != [] && !IsSpace(s[0]) && !IsSpace(s[|s| - 1])
    ensures Strip(s) == s
  {
    var t := TrimStart(s);
    assert t == s;
    var r := TrimEnd(t);
    assert r == t;
  }

  lemma AllSpace(s: string, t: string)
    requires |t| <= |s| && t == s[|s| - |t|..]
    requires forall k :: 0 <= k < |s| - |t| ==> IsSpace(s[k])
    requires forall k :: 0 <= k < |t| ==> IsSpace(t[k])
    ensures forall k :: 0 <= k < |s| ==> IsSpace(s[k])
  {
    forall k | |s| - |t| <= k < |s| ensures IsSpace(s[k]) {
      assert s[k] == t[k - (|s| - |t|)];
    }
  }

  /** `s.replace(" ", "")`: only the space character itself is removed. */
  function RemoveSpaces(s: string): (r: string)
    ensures ' ' !in r
    ensures forall c :: c in r <==> c in s && c != ' '
    ensures ' ' !in s ==> r == s
    ensures |r| <= |s|
  {
    if s == [] then []
    else if s[0] == ' ' then RemoveSpaces(s[1..])
    else [s[0]] + RemoveSpaces(s[1..])
  }

  /** The number a run of decimal digits denotes (leading zeros add nothing). */
  function DecimalValue(s: string): nat
    requires forall k :: 0 <= k < |s| ==> IsDigit(s[k])
  {
    if s == [] then 0 else DecimalValue(s[..|s| - 1]) * 10 + DigitValue(s[|s| - 1])
  }

  /** Python's `str(n)` for a non-negative int: digits without leading zeros. */
  function NatToString(n: nat): (r: string)
    ensures r != []
    ensures forall k :: 0 <= k < |r| ==> IsDigit(r[k])
    ensures r[0] == '0' ==> r == "0"
    ensures DecimalValue(r) == n
  {
    if n < 10 then [DigitChar(n)]
    else
      var r := NatToString(n / 10) + [DigitChar(n % 10)];
      assert r[..|r| - 1] == NatToString(n / 10);
      r
  }
}

=== FILE: validation_cases.dfy ===
/** `validate` on concrete equations: accepted sums and quotients, a wrong
    result, a division by zero, and the three text checks. */
module ValidationCases {
  import opened Wrappers
  import opened Text
  import opened Syntax
  import opened Lexer
  import opened Spelling
  import opened Parser
  import opened Reading
  import opened Grammar
  import opened Evaluator
  import opened Validator
  import opened Cases

  /** Literal texts with no space at either end that pass both checks. */
  lemma Clean3Plus2Times4()
    ensures var s := "3+2*4"; !IsSpace(s[0]) && !IsSpace(s[|s| - 1]) && AllPermitted(s) && PlusFree(s)
  {
  }

  lemma Clean6Over2()
    ensures var s := "6/2"; !IsSpace(s[0]) && !IsSpace(s[|s| - 1]) && AllPermitted(s) && PlusFree(s)
  {
  }

  lemma Clean10Minus5()
    ensures var s := "10-5"; !IsSpace(s[0]) && !IsSpace(s[|s| - 1]) && AllPermitted(s) && PlusFree(s)
  {
  }

  lemma Clean5Over0()
    ensures var s := "5/0"; !IsSpace(s[0]) && !IsSpace(s[|s| - 1]) && AllPermitted(s) && PlusFree(s)
  {
  }

  /** `3+2*4` is 11: multiplication binds tighter. */
  lemma ProductBindsTighter()
    ensures Validate("3+2*4", 11).valid
    ensures !Validate("3+2*4", 20).valid
  {
    var e := Bin(Add, Num(3), Bin(Mult, Num(2), Num(4)));
    Clean3Plus2Times4();
    Read3Plus2Times4();
    assert Eval(Bin(Mult, Num(2), Num(4))) == Ok(8.0);
    assert Eval(e) == Ok(11.0);
    CleanTextValidated("3+2*4", 11, e);
    CleanTextValidated("3+2*4", 20, e);
  }

  /** `6/2` is 3 by true division. */
  lemma QuotientAccepted()
    ensures Validate("6/2", 3).valid
    ensures Validate("6/2", 3).value == Some(3.0)
  {
    var e := Bin(Div, Num(6), Num(2));
    Clean6Over2();
    Read6Over2();
    SixOverTwo();
    CleanTextValidated("6/2", 3, e);
  }

  lemma SixOverTwo()
    ensures Eval(Bin(Div, Num(6), Num(2))) == Ok(3.0)
  {
  }

  /** A wrong result is reported with the value reached. */
  lemma WrongResultReported()
    ensures Validate("10-5", 4).error == Some(WrongResult(5.0, 4))
    ensures Validate("10-5", 4).value == Some(5.0)
  {
    var e := Bin(Sub, Num(10), Num(5));
    Clean10Minus5();
    Read10Minus5();
    assert Eval(e) == Ok(5.0);
    CleanTextValidated("10-5", 4, e);
  }

  lemma Spell5Over0() ensures Spell([TNum(5), OpToken(Div), TNum(0)]) == "5/0" {}

  lemma Read5Over0()
    ensures Parse("5/0") == Some(Bin(Div, Num(5), Num(0)))
  {
    ReadsBinary(5, Div, 0);
    Spell5Over0();
  }

  /** `5/0` is a division by zero, with no value. */
  lemma DivisionByZeroReported()
    ensures Validate("5/0", 0).error == Some(DivisionByZero)
    ensures Validate("5/0", 0).value.None?
  {
    var e := Bin(Div, Num(5), Num(0));
    Clean5Over0();
    Read5Over0();
    assert Eval(e) == Err(ZeroDivision);
    CleanTextValidated("5/0", 0, e);
  }

  /** Blank text is empty once stripped. */
  lemma BlankIsEmpty()
    ensures Validate(" \t ", 0).error == Some(EmptyEquation)
  {
  }

  /** Literal texts that fail a character check. */
  lemma FailingTexts()
    ensures var s := "2x3"; !IsSpace(s[0]) && !IsSpace(s[|s| - 1]) && !Permitted(s[1])
    ensures var s := "+9"; !IsSpace(s[0]) && !IsSpace(s[|s| - 1]) && AllPermitted(s) && UnaryPlusAt(s, 0)
    ensures var s := "9 + 1"; !IsSpace(s[0]) && !IsSpace(s[|s| - 1]) && AllPermitted(s) && UnaryPlusAt(s, 2)
  {
  }

  /** A letter is an invalid character. */
  lemma LetterRejected()
    ensures Validate("2x3", 6).error == Some(InvalidCharacters)
  {
    FailingTexts();
    CharacterChecksApplied("2x3", 6);
  }

  /** A leading `+` is unary plus. */
  lemma LeadingPlusRejected()
    ensures Validate("+9", 9).error == Some(UnaryPlusNotAllowed)
  {
    FailingTexts();
    CharacterChecksApplied("+9", 9);
  }

  // The tokens of `9 + 1`, one step at a time.
  lemma LexOne() ensures LexMid("1", 0) == [TNum(1)] {
    assert DigitRun("1") == 1 && "1"[..1] == "1" && "1"[1..] == [];
  }
  lemma LexBlankOne() ensures LexMid(" 1", 0) == LexMid("1", 0) {
    assert " 1"[1..] == "1";
  }
  lemma LexPlusOne() ensures LexMid("+ 1", 0) == [TPlus] + LexMid(" 1", 0) {
    assert "+ 1"[1..] == " 1";
  }
  lemma LexBlankPlusOne() ensures LexMid(" + 1", 0) == LexMid("+ 1", 0) {
    assert " + 1"[1..] == "+ 1";
  }
  lemma LexNinePlusOne() ensures LexMid("9 + 1", 0) == [TNum(9)] + LexMid(" + 1", 0) {
    assert DigitRun("9 + 1") == 1;
    assert "9 + 1"[..1] == "9" && "9 + 1"[1..] == " + 1";
  }
  lemma LexStartsMid() ensures Lex("9 + 1") == LexMid("9 + 1", 0) {
    assert SkipIndent("9 + 1", false) == ("9 + 1", false);
  }

  lemma LexSpacedSum()
    ensures Lex("9 + 1") == [TNum(9), TPlus, TNum(1)]
  {
    LexStartsMid();
    LexNinePlusOne();
    LexBlankPlusOne();
    LexPlusOne();
    LexBlankOne();
    LexOne();
  }

  lemma LexTightSum()
    ensures Lex("9+1") == [TNum(9), TPlus, TNum(1)]
  {
    var ts := [TNum(9), OpToken(Add), TNum(1)];
    assert OpToken(Add) == TPlus;
    assert ts[1..] == [TPlus, TNum(1)] && ts[1..][1..] == [TNum(1)] && [TNum(1)][1..] == [];
    assert Spellable(ts, 0);
    LexOfSpelling(ts);
    var s := Spell(ts);
    assert Lex(s) == ts;
    Spell9Plus1();
  }

  lemma SameTokensSameReading(a: string, b: string)
    requires Lex(a) == Lex(b)
    ensures Parse(a) == Parse(b)
  {
  }

  /** `9 + 1` reads as the sum of 9 and 1. */
  lemma ReadSpacedSum()
    ensures Parse("9 + 1") == Some(Bin(Add, Num(9), Num(1)))
  {
    LexSpacedSum();
    LexTightSum();
    SameTokensSameReading("9 + 1", "9+1");
    Read9Plus1();
  }

  /** The unary-plus pattern also matches a binary `+` written after a
      blank, so `9 + 1` is rejected as unary plus although it reads as a
      sum whose value is the target (`ReadSpacedSum`). */
  lemma SpacedSumRejected()
    ensures Eval(Bin(Add, Num(9), Num(1))) == Ok(10.0)
    ensures Validate("9 + 1", 10).error == Some(UnaryPlusNotAllowed)
  {
    FailingTexts();
    CharacterChecksApplied("9 + 1", 10);
  }
}

=== FILE: validation_laws.dfy ===
/** `validate` on written trees: every arithmetic tree, written out fully
    parenthesised, passes both character checks, so the verdict is decided
    by its value alone. */
module ValidationLaws {
  import opened Wrappers
  import opened Text
  import opened Syntax
  import opened Lexer
  import opened Spelling
  import opened Parser
  import opened Grammar
  import opened Evaluator
  import opened Printer
  import opened Written
  import opened Validator

  /** No match of the unary-plus pattern after the first character. */
  predicate PlusFreeAfterFirst(b: string)
  {
    forall k :: 1 <= k < |b| ==> !UnaryPlusAt(b, k)
  }

  /** Two pieces glued together pass both checks when each does and a `+`
      at the seam follows neither `(` nor white space. */
  lemma Glue(a: string, b: string)
    requires AllPermitted(a) && AllPermitted(b)
    requires PlusFree(a) && PlusFreeAfterFirst(b)
    requires b != [] && b[0] == '+' ==> a != [] && a[|a| - 1] != '(' && !IsSpace(a[|a| - 1])
    ensures AllPermitted(a + b) && PlusFree(a + b)
  {
    var ab := a + b;
    forall k | 0 <= k < |ab| ensures Permitted(ab[k]) && !UnaryPlusAt(ab, k) {
      if k < |a| {
        assert ab[k] == a[k];
        if k > 0 { assert ab[k - 1] == a[k - 1]; }
        assert !UnaryPlusAt(a, k);
      } else if k == |a| {
        assert ab[k] == b[0];
        if k > 0 { assert ab[k - 1] == a[|a| - 1]; }
      } else {
        assert ab[k] == b[k - |a|];
        assert ab[k - 1] == b[k - |a| - 1];
        assert !UnaryPlusAt(b, k - |a|);
      }
    }
  }

  /** A numeral passes both checks. */
  lemma NumeralClean(s: string)
    requires forall k :: 0 <= k < |s| ==> IsDigit(s[k])
    ensures AllPermitted(s) && PlusFree(s)
  {
    forall k | 0 <= k < |s| ensures Permitted(s[k]) && !UnaryPlusAt(s, k) {
      assert IsDigit(s[k]);
    }
  }

  /** The shape of a written arithmetic tree: it starts with `(` or a digit,
      ends with `)` or a digit, and passes both character checks. */
  predicate CleanTerm(s: string)
  {
    && s != []
    && (s[0] == '(' || IsDigit(s[0]))
    && (s[|s| - 1] == ')' || IsDigit(s[|s| - 1]))
    && AllPermitted(s) && PlusFree(s)
  }

  /** `(` followed by a clean term passes both checks and ends like it. */
  lemma OpenThen(x: string)
    requires CleanTerm(x)
    ensures var a := "(" + x; AllPermitted(a) && PlusFree(a) && a[|a| - 1] == x[|x| - 1]
  {
    Glue("(", x);
  }

  /** `(` sign operand `)` with a minus sign is clean. */
  lemma NegationClean(x: string)
    requires CleanTerm(x)
    ensures CleanTerm("(" + "-" + x + ")")
  {
    Glue("(", "-");
    Glue("(" + "-", x);
    Glue("(" + "-" + x, ")");
  }

  /** `(` left operator right `)` with a one-character operator symbol from
      the table is clean. */
  lemma BinaryClean(l: string, o: string, r: string)
    requires CleanTerm(l) && CleanTerm(r)
    requires o == "+" || o == "-" || o == "*" || o == "/"
    ensures CleanTerm("(" + l + o + r + ")")
  {
    OpenThen(l);
    var a := "(" + l;
    Glue(a, o);
    Glue(a + o, r);
    Glue(a + o + r, ")");
  }

  /** Every arithmetic tree is written as clean text. */
  lemma {:induction false} ShownClean(e: Expr)
    requires Arithmetic(e)
    ensures CleanTerm(Show(e))
  {
    ShowText(e);
    match e
    case Num(n) =>
      NumeralClean(NatToString(n));
    case Unary(u, x) =>
      ShownClean(x);
      NegationClean(Show(x));
    case Bin(op, l, r) =>
      ShownClean(l);
      ShownClean(r);
      BinaryClean(Show(l), SpellOne(OpToken(op)), Show(r));
  }

  /** Clean, non-empty text goes straight to evaluation. */
  lemma CleanTextJudged(s: string, target: int)
    requires s != [] && AllPermitted(s) && PlusFree(s)
    ensures Check(s, target) == Judge(SafeEval(s), target)
  {
    HasIllegalIff(s);
    HasUnaryPlusFromIff(s, 0);
  }

  /** A written arithmetic tree is left alone by stripping. */
  lemma ShownStripped(e: Expr)
    requires Arithmetic(e)
    ensures CleanTerm(Show(e)) && Strip(Show(e)) == Show(e)
  {
    ShownClean(e);
    CleanTermStripped(Show(e));
  }

  /** Clean text has no white space at either end. */
  lemma CleanTermStripped(s: string)
    requires CleanTerm(s)
    ensures Strip(s) == s
  {
    assert !IsSpace(s[0]) && !IsSpace(s[|s| - 1]);
    StripUnchanged(s);
  }

  /** A written arithmetic tree evaluates safely to the value of the tree. */
  lemma ShownEvaluated(e: Expr)
    ensures SafeEval(Show(e)) == Classify(Eval(e))
  {
    ParseShow(e);
  }

  /** A written arithmetic tree is judged by the value of the tree. */
  lemma ShownJudged(e: Expr, target: int)
    requires Arithmetic(e)
    ensures Validate(Show(e), target) == Judge(Classify(Eval(e)), target)
  {
    var s := Show(e);
    ShownStripped(e);
    CleanTextJudged(s, target);
    ShownEvaluated(e);
  }

  /** A written arithmetic tree is accepted exactly when its value is the
      target; it carries its value whenever it has one, and a division by
      zero is reported as such. */
  lemma ValidateShown(e: Expr, target: int)
    requires Arithmetic(e)
    ensures Validate(Show(e), target).valid <==> Eval(e) == Ok(target as real)
    ensures Validate(Show(e), target).value == (if Eval(e).Ok? then Some(Eval(e).value) else None)
    ensures Eval(e) == Err(ZeroDivision) ==> Validate(Show(e), target).error == Some(DivisionByZero)
  {
    ShownJudged(e, target);
    var v := Eval(e);
    var c := Classify(v);
    var r := Judge(c, target);
    assert r.valid <==> v == Ok(target as real);
    assert r.value == (if v.Ok? then Some(v.value) else None);
  }
}

=== FILE: validator.dfy ===
/** `safe_eval` on text and `EquationValidator.validate`: the three text
    checks, then parsing and evaluation, then the comparison with the
    target. */
module Validator {
  import opened Wrappers
  import opened Text
  import opened Syntax
  import opened Lexer
  import opened Parser
  import opened Evaluator

  /** What `validate` reports when an equation is not accepted. The source
      reports these as message strings; `WrongResult` carries what the
      message "Result is V, not T" shows. */
  datatype Problem =
    | EmptyEquation
    | InvalidCharacters
    | UnaryPlusNotAllowed
    | DivisionByZero
    | InvalidSyntax
    | ForbiddenOperator(op: OperatorKind)
    | ForbiddenNode(kind: OtherKind)
    | WrongResult(value: real, target: int)

  /** The result record: the verdict, the error (absent when valid) and the
      value (present whenever evaluation succeeded). */
  datatype Report = Report(valid: bool, error: Option<Problem>, value: Option<real>)

  /** How `safe_eval` passes on an evaluation error: division by zero as
      itself, the rest as "Invalid equation" errors. */
  function Classify(v: Result<real, EvalError>): (r: Result<real, Problem>)
    ensures r.Ok? <==> v.Ok?
    ensures v.Ok? ==> r.value == v.value
    ensures r == Err(DivisionByZero) <==> v == Err(ZeroDivision)
    ensures r != Err(InvalidSyntax)
    ensures r.Err? && r.error.ForbiddenOperator? ==> v == Err(EvalError.DisallowedOperator(r.error.op))
  {
    match v
    case Ok(x) => Ok(x)
    case Err(ZeroDivision) => Err(DivisionByZero)
    case Err(DisallowedOperator(k)) => Err(ForbiddenOperator(k))
    case Err(DisallowedOperation(k)) => Err(ForbiddenNode(k))
  }

  /** `safe_eval(expr)`: a text that does not parse is a syntax error, and
      evaluation errors keep their kind. */
  function SafeEval(expr: string): (r: Result<real, Problem>)
    ensures r.Ok? ==> Parse(expr).Some? && Eval(Parse(expr).value) == Ok(r.value)
    ensures r == Err(DivisionByZero) <==> Parse(expr).Some? && Eval(Parse(expr).value) == Err(ZeroDivision)
    ensures r == Err(InvalidSyntax) <==> Parse(expr).None?
    ensures r.Err? && r.error.ForbiddenOperator? ==>
              Parse(expr).Some? && Eval(Parse(expr).value) == Err(EvalError.DisallowedOperator(r.error.op))
  {
    match Parse(expr)
    case None => Err(InvalidSyntax)
    case Some(e) => Classify(Eval(e))
  }

  /** A rejected operator is one the text really uses, outside the table. */
  lemma SafeEvalNamesCulprit(expr: string)
    requires SafeEval(expr).Err? && SafeEval(expr).error.ForbiddenOperator?
    ensures Parse(expr).Some?
    ensures SafeEval(expr).error.op in Operators(Parse(expr).value)
    ensures !InTable(SafeEval(expr).error.op)
  {
    var e := Parse(expr).value;
    assert Eval(e).Err? && Eval(e).error.DisallowedOperator?;
  }

  /** The characters the first pattern lets through: ASCII digits,
      `+ - * / ( ) .` and white space. */
  predicate Permitted(c: char)
  {
    IsDigit(c) || c in "+-*/()." || IsSpace(c)
  }

  /** The search for a character outside `Permitted`. */
  function HasIllegal(s: string): bool
  {
    s != [] && (!Permitted(s[0]) || HasIllegal(s[1..]))
  }

  lemma {:induction false} HasIllegalIff(s: string)
    ensures HasIllegal(s) <==> exists k :: 0 <= k < |s| && !Permitted(s[k])
  {
    if s != [] {
      HasIllegalIff(s[1..]);
      if HasIllegal(s[1..]) {
        var k :| 0 <= k < |s[1..]| && !Permitted(s[1..][k]);
        assert !Permitted(s[k + 1]);
      }
      if exists k :: 0 <= k < |s| && !Permitted(s[k]) {
        var k :| 0 <= k < |s| && !Permitted(s[k]);
        if k > 0 {
          assert !Permitted(s[1..][k - 1]);
        }
      }
    }
  }

  /** The second pattern matches at `i`: a `+` at the start of the text, or
      right after `(` or a white-space character. */
  predicate UnaryPlusAt(s: string, i: int)
    requires 0 <= i < |s|
  {
    s[i] == '+' && (i == 0 || s[i - 1] == '(' || IsSpace(s[i - 1]))
  }

  /** The search for that pattern from position `i` on. */
  function HasUnaryPlusFrom(s: string, i: nat): bool
    requires i <= |s|
    decreases |s| - i
  {
    i < |s| && (UnaryPlusAt(s, i) || HasUnaryPlusFrom(s, i + 1))
  }

  lemma {:induction false} HasUnaryPlusFromIff(s: string, i: nat)
    requires i <= |s|
    ensures HasUnaryPlusFrom(s, i) <==> exists k :: i <= k < |s| && UnaryPlusAt(s, k)
    decreases |s| - i
  {
    if i < |s| {
      HasUnaryPlusFromIff(s, i + 1);
    }
  }

  /** `validate(equation, target)`: strip, then check the stripped text. */
  function Validate(equation: string, target: int): (r: Report)
    ensures r.valid <==> r.error.None?
    ensures r.valid ==> r.value == Some(target as real)
    ensures r.value.Some? ==> SafeEval(Strip(equation)) == Ok(r.value.value)
    ensures r.value.None? <==> r.error.Some? && !r.error.value.WrongResult?
    ensures (&& r.error.Some?
             && r.error.value !in {EmptyEquation, InvalidCharacters, UnaryPlusNotAllowed}
             && !r.error.value.WrongResult?) ==> SafeEval(Strip(equation)) == Err(r.error.value)
    ensures r.error == Some(EmptyEquation) <==> Strip(equation) == []
  {
    Check(Strip(equation), target)
  }

  /** The body of `validate` after stripping: reject empty text, foreign
      characters and unary plus in that order, then evaluate and compare.
      Values are exact, so `math.isclose` becomes equality. */
  function Check(s: string, target: int): (r: Report)
    ensures r.valid <==> r.error.None?
    ensures r.valid ==> r.value == Some(target as real)
    ensures r.value.Some? ==> SafeEval(s) == Ok(r.value.value)
    ensures r.value.None? <==> r.error.Some? && !r.error.value.WrongResult?
    ensures (&& r.error.Some?
             && r.error.value !in {EmptyEquation, InvalidCharacters, UnaryPlusNotAllowed}
             && !r.error.value.WrongResult?) ==> SafeEval(s) == Err(r.error.value)
    ensures r.error == Some(EmptyEquation) <==> s == []
  {
    if s == [] then Report(false, Some(EmptyEquation), None)
    else if HasIllegal(s) then Report(false, Some(InvalidCharacters), None)
    else if HasUnaryPlusFrom(s, 0) then Report(false, Some(UnaryPlusNotAllowed), None)
    else Judge(SafeEval(s), target)
  }

  /** The `try` block, given what `safe_eval` produced: keep the value and
      compare it with the target. */
  function Judge(outcome: Result<real, Problem>, target: int): (r: Report)
    ensures r.valid <==> outcome == Ok(target as real)
    ensures r.value.Some? <==> outcome.Ok?
    ensures r.value.Some? ==> r.value.value == outcome.value
    ensures r.error.None? <==> r.valid
    ensures outcome.Err? ==> r.error == Some(outcome.error)
    ensures outcome.Ok? && !r.valid ==> r.error == Some(WrongResult(outcome.value, target))
  {
    match outcome
    case Err(p) => Report(false, Some(p), None)
    case Ok(v) =>
      if v == target as real then Report(true, None, Some(v))
      else Report(false, Some(WrongResult(v, target)), Some(v))
  }

  /** Every character is one the first pattern lets through. */
  predicate AllPermitted(s: string)
  {
    forall k :: 0 <= k < |s| ==> Permitted(s[k])
  }

  /** The second pattern matches nowhere. */
  predicate PlusFree(s: string)
  {
    forall k :: 0 <= k < |s| ==> !UnaryPlusAt(s, k)
  }

  /** The checks run in order: each error is reported exactly when the
      earlier checks pass and its own fails. */
  lemma CheckInOrder(s: string, target: int)
    ensures var r := Check(s, target);
      && (r.error == Some(InvalidCharacters) <==> s != [] && !AllPermitted(s))
      && (r.error == Some(UnaryPlusNotAllowed) <==> s != [] && AllPermitted(s) && !PlusFree(s))
      && (r.value.Some? ==> AllPermitted(s) && PlusFree(s))
  {
    HasIllegalIff(s);
    HasUnaryPlusFromIff(s, 0);
  }

  lemma ValidateChecksInOrder(equation: string, target: int)
    ensures var s, r := Strip(equation), Validate(equation, target);
      && (r.error == Some(InvalidCharacters) <==> s != [] && !AllPermitted(s))
      && (r.error == Some(UnaryPlusNotAllowed) <==> s != [] && AllPermitted(s) && !PlusFree(s))
      && (r.value.Some? ==> AllPermitted(s) && PlusFree(s))
  {
    CheckInOrder(Strip(equation), target);
  }

  /** An equation is valid exactly when its stripped text passes both
      character checks, parses, and evaluates to the target. */
  lemma ValidIff(equation: string, target: int)
    ensures var s := Strip(equation);
      Validate(equation, target).valid <==>
        && AllPermitted(s) && PlusFree(s)
        && Parse(s).Some? && Eval(Parse(s).value) == Ok(target as real)
  {
    var s := Strip(equation);
    HasIllegalIff(s);
    HasUnaryPlusFromIff(s, 0);
    if s == [] {
      assert Lex(s) == [];
    }
  }

  /** A division by zero is reported without a value. */
  lemma DivisionByZeroHasNoValue(equation: string, target: int)
    requires Validate(equation, target).error == Some(DivisionByZero)
    ensures Validate(equation, target).value.None?
    ensures Parse(Strip(equation)).Some?
    ensures Eval(Parse(Strip(equation)).value) == Err(ZeroDivision)
  {
    assert SafeEval(Strip(equation)) == Err(DivisionByZero);
  }

  /** An equation whose tree has no value (an operator outside the table,
      a Tuple or Call node, a division by zero) is rejected without a
      value. */
  lemma NoValueRejected(equation: string, target: int, e: Expr)
    requires Parse(Strip(equation)) == Some(e) && Eval(e).Err?
    ensures !Validate(equation, target).valid
    ensures Validate(equation, target).value.None?
  {
    FailedEvaluationRejected(Strip(equation), target, e);
  }

  /** Unary plus is never accepted: if the pattern misses it (as in `2++3`,
      where the `+` follows another `+`), evaluation rejects it. Stated for
      the stripped text that the checks see. */
  lemma UnaryPlusNeverAccepted(s: string, target: int, e: Expr)
    requires Parse(s) == Some(e)
    requires UnaryKind(UAdd) in Operators(e)
    ensures !Check(s, target).valid
    ensures Check(s, target).value.None?
  {
    EvalOnlyWithTable(e, UnaryKind(UAdd));
    FailedEvaluationRejected(s, target, e);
  }

  lemma FailedEvaluationRejected(s: string, target: int, e: Expr)
    requires Parse(s) == Some(e) && Eval(e).Err?
    ensures !Check(s, target).valid && Check(s, target).value.None?
  {
    NoValueNoResult(s, e);
  }

  lemma NoValueNoResult(s: string, e: Expr)
    requires Parse(s) == Some(e) && Eval(e).Err?
    ensures SafeEval(s).Err?
  {
  }

  /** Text that `strip` leaves alone and that passes both character checks
      is judged on its value alone. */
  lemma CleanTextValidated(s: string, target: int, e: Expr)
    requires s != [] && !IsSpace(s[0]) && !IsSpace(s[|s| - 1])
    requires AllPermitted(s) && PlusFree(s)
    requires Parse(s) == Some(e)
    ensures Validate(s, target) == Judge(Classify(Eval(e)), target)
  {
    StripUnchanged(s);
    HasIllegalIff(s);
    HasUnaryPlusFromIff(s, 0);
  }

  /** Text that `strip` leaves alone is rejected for the first character
      check it fails. */
  lemma CharacterChecksApplied(s: string, target: int)
    requires s != [] && !IsSpace(s[0]) && !IsSpace(s[|s| - 1])
    ensures !AllPermitted(s) ==> Validate(s, target).error == Some(InvalidCharacters)
    ensures AllPermitted(s) && !PlusFree(s) ==> Validate(s, target).error == Some(UnaryPlusNotAllowed)
  {
    StripUnchanged(s);
    CheckInOrder(s, target);
  }
}

=== FILE: wrappers.dfy ===
/** Failure-carrying return types shared by every module of the model. */
module Wrappers {

  /** A value that may be absent: Python's `None` or a failed parse. */
  datatype Option<+T> = None | Some(value: T)

  /** Either a value or the error that replaced it (an exception in the source). */
  datatype Result<+T, +E> = Ok(value: T) | Err(error: E)
}
